=== FILE: README.md ===
# mixin4j in Dafny

mixin4j mixes behaviour into abstract Java classes at run time. A *mixin base* is an abstract
class annotated `@MixinBase`. Each of its direct interfaces annotated `@MixinType` names an
implementation, either directly or through an `ImplementationSource`. The engine
(`MixinSupport`) discovers these mixins, caches one factory per base class, and asks a *mixer*
for that factory. There are two mixers:

- `ClassGeneratingMixer` writes the Java source of a subclass that delegates to one field per
  mixin and compiles it.
- `DynamicProxyMixer` builds a proxy whose interceptor routes every call either to a delegate
  instance or to the base class.

This project models that engine and its demo mixins in Dafny and proves what their code
promises.

Java reflection is replaced by an explicit class table (`Classes`). Each entry holds:

- the names and flags of a class;
- its direct interfaces, with their type arguments;
- its constructors and methods;
- its `@MixinType` and `@MixinBase` annotations.

An entry also has a rank that makes the supertype graph acyclic. Assignability is the
reflexive-transitive closure of that graph. Mutable objects become state passed through pure
functions, and an object's identity is a number taken from a counter. Exceptions are
`Result.Err(message)`, with the message the source builds.

The modules follow the source:

- `Descriptors`: the `Mixin` descriptor and its checks.
- `MixinUtils`: constructor lookup, base validation and `MixinAware` handling.
- `GenericSource`: `GenericParameterImplementationSource`.
- `MixinSupport`: discovery, the factory cache, the `newInstanceOf` overloads and the singleton.
- `SourceMixer`: `ClassGeneratingMixer`, its source builder and factory.
- `ProxyMixer`: `DynamicProxyMixer`, its factory and interceptor.
- The demo mixins:
  - `Tree`: the tree-node mixin and `Employee.create`.
  - `Countdown`: `RandomNumberSequence`.
  - `XmlDump`: `DumpIteratorToXml`.
- Shared helpers: `Results`, `Text`, `Seqs` and `Objects`.

## Model

| member | source | states |
|---|---|---|
| Descriptors.DefectOf | mixin-test/src/com/berniecode/mixin4j/Mixin.java:28-34 | The first failing check decides the defect: not assignable to the mixin type, else an interface, else abstractness other than the one wanted. There is no defect exactly when the class fits. |
| Descriptors.RequireConcreteImplementationOfType | mixin-test/src/com/berniecode/mixin4j/Mixin.java:26-40 | Succeeds iff the class fits. A failure reads "Can't apply mixin type T because the <role> class C <reason>.", where the reason belongs to the first failing check. |
| Descriptors.NewMixin | mixin-test/src/com/berniecode/mixin4j/Mixin.java:19-24 | A descriptor is made iff the implementation fits as a concrete class and the base fits as an abstract one. The implementation is checked first; a base failure is reported only when the implementation passed. The descriptor keeps the given type and implementation. |
| MixinUtils.GetConstructorArgTypes | mixin-test/src/com/berniecode/mixin4j/MixinUtils.java:18-35 | Succeeds iff exactly one declared constructor has the requested arity, and returns parameter types of a declared constructor of that length. With no such constructor it fails with the "has no constructors with exactly N parameters" message; with two or more, with the "more then one constructor" message. |
| MixinUtils.ValidateMixinBase | mixin-test/src/com/berniecode/mixin4j/MixinUtils.java:97-111 | Succeeds iff the class is not an interface, is abstract and is not final. Otherwise the first violated check gives the message. |
| MixinUtils.ClassAssignableToType | mixin-test/src/com/berniecode/mixin4j/MixinUtils.java:82-90 | The constraint test accepts every object and every type. |
| MixinUtils.CheckAwareConstraints | mixin-test/src/com/berniecode/mixin4j/MixinUtils.java:53-68 | The loop over the implementation's generic interfaces skips raw references and fails only on a parameterized `MixinAware` reference with no type argument, with the array-index exception that reading the missing argument throws. The type constraint itself never rejects. |
| MixinUtils.HandleMixinAwareness | mixin-test/src/com/berniecode/mixin4j/MixinUtils.java:47-72 | A delegate that is not `MixinAware` is returned untouched. A `MixinAware` one receives `setMixinBase(newMixedObject)` exactly once more and keeps its identity and class. The only failure is a parameterized `MixinAware` reference with no type argument. |
| MixinUtils.AwareWithArgumentsNeverFails | mixin-test/src/com/berniecode/mixin4j/MixinUtils.java:53-58 | Raw references are skipped, so when every parameterized reference has a type argument, as in compiled Java, handling awareness never fails. |
| GenericSource.FirstDeclaration | mixin-test/src/com/berniecode/mixin4j/GenericParameterImplementationSource.java:37-44 | Finds the first direct interface reference that is parameterized with the declared interface as its raw type. No earlier reference qualifies; `None` means no reference qualifies (raw ones never do). |
| GenericSource.SpecDefectOf | mixin-test/src/com/berniecode/mixin4j/GenericParameterImplementationSource.java:59-85 | Each rejection reason holds exactly under its own condition, given that every earlier check passed: no argument, too many, a generic argument, not an implementation, an interface, abstract. No defect is exactly a proper specification. |
| GenericSource.RejectSpec | mixin-test/src/com/berniecode/mixin4j/GenericParameterImplementationSource.java:90-93 | Every rejection message starts with "Invalid mix specification. The proper form is MixinType<MixinImpl>." |
| GenericSource.ImplementationFromParameterizedType | mixin-test/src/com/berniecode/mixin4j/GenericParameterImplementationSource.java:55-88 | Succeeds iff the specification is proper, and then returns exactly its single argument. A failure is the rejection for the first failed check. |
| GenericSource.GetImplementation | mixin-test/src/com/berniecode/mixin4j/GenericParameterImplementationSource.java:35-47 | Without a parameterized declaration of the interface it fails with "does not implement the interface". Otherwise the first such declaration decides: success iff it is proper, yielding its argument, and any failure is a specification rejection. |
| GenericSource.ResolvedIsConcreteImplementation | mixin-test/src/com/berniecode/mixin4j/GenericParameterImplementationSource.java:70-87 | A resolved implementation is assignable to the declared interface and is neither an interface nor abstract. |
| GenericSource.DynamicIsRejected | mixin-test/src/com/berniecode/mixin4j/GenericParameterImplementationSource.java:71-74 | `Dynamic` (line 122) gets no special case. It is final with no supertypes, so `X<Dynamic>` fails the assignability check. |
| MixinSupport.InheritedMixinBase | mixin-test/src/com/berniecode/mixin4j/MixinBase.java:17 | The annotation is `@Inherited`: a class's own `@MixinBase` is used first. Otherwise an annotation found belongs to a class higher in the hierarchy. |
| MixinSupport.InheritedFromSuperclass | mixin-test/src/com/berniecode/mixin4j/MixinBase.java:17 | A found annotation is the own annotation of some class the base is assignable to. |
| MixinSupport.GetMixinBaseAnnotation | mixin-test/src/com/berniecode/mixin4j/MixinSupport.java:142-149 | Returns the mixer class iff the base has (or inherits) `@MixinBase`, and otherwise fails with "'C' is not a mixin base class (not annotated @MixinBase)". |
| MixinSupport.Contribution | mixin-test/src/com/berniecode/mixin4j/MixinSupport.java:91-121 | An interface without `@MixinType` contributes nothing. An annotation class assignable to the type is used directly. An `ImplementationSource` is asked for the implementation; sources other than the generic one cannot be instantiated here and fail. On both paths the contribution succeeds iff the implementation is found and its descriptor validates, and a failure carries the message of the step that failed. Any other class contributes nothing. A contributed mixin is a validated descriptor. |
| MixinSupport.Discover | mixin-test/src/com/berniecode/mixin4j/MixinSupport.java:86-122 | Discovery succeeds iff every interface's contribution does. The mixins found are at most one per interface and come from the scanned interfaces. |
| MixinSupport.DiscoverFollowsInterfaceOrder | mixin-test/src/com/berniecode/mixin4j/MixinSupport.java:89-121 | The mixin list is the contributions in interface declaration order. |
| MixinSupport.UnannotatedSkipped | mixin-test/src/com/berniecode/mixin4j/MixinSupport.java:93-96 | Interfaces without `@MixinType` yield no mixins. |
| MixinSupport.MakeFactory | mixin-test/src/com/berniecode/mixin4j/MixinSupport.java:124-132 | The proxy mixer always yields a factory. The class-generating mixer yields one iff the generated source compiles. Any other mixer class fails with "Can't load mixer class". Every factory is for the requested base. |
| MixinSupport.GetFactory | mixin-test/src/com/berniecode/mixin4j/MixinSupport.java:80-137 | A cached factory is returned without looking at the class again. On a miss: an unannotated base fails; a discovery failure is reported; otherwise the lookup succeeds iff the mixer makes a factory, which is returned and stored under the base, and the mixer's failure is reported as is. Nothing is cached on failure. |
| MixinSupport.GetFactoryConsistent | mixin-test/src/com/berniecode/mixin4j/MixinSupport.java:132-136 | Every cached factory is keyed by its own base, before and after a lookup. |
| MixinSupport.GetFactoryIdempotent | mixin-test/src/com/berniecode/mixin4j/MixinSupport.java:80-83 | A second lookup returns the factory the first stored and changes nothing. |
| MixinSupport.FactoryNewInstance | mixin-test/src/com/berniecode/mixin4j/MixinSupport.java:49 | Succeeds iff the factory can construct with those types and arguments: a generated class with that constructor, or a proxy whose constructor exists and whose delegates can all be made. A failure reports that factory's error and changes nothing. A made object has the next identity, the factory's base and the given constructor types. No other cache entry changes. |
| MixinSupport.NewInstanceOf | mixin-test/src/com/berniecode/mixin4j/MixinSupport.java:39-50 | The base is validated before any lookup, and a validation failure changes nothing. A lookup failure is reported as is. After a successful lookup, creation succeeds iff the found factory can construct, and a failure reports the factory's error and keeps the factory cached. A made object is of a valid base, and the base's factory is then cached. |
| MixinSupport.NewInstanceOfArgs | mixin-test/src/com/berniecode/mixin4j/MixinSupport.java:55-59 | Validation comes first. Then the argument types come from the one constructor with the arguments' arity; a missing or ambiguous constructor gives its message. With the one constructor found, a lookup failure is reported as is; after a successful lookup, creation succeeds iff the found factory can construct with that constructor's parameter types, and a failure reports the factory's error. A made object was built with the parameter types of a constructor the base declares. |
| MixinSupport.Create | mixin-test/src/com/berniecode/mixin4j/MixinSupport.java:61-63 | Forwards to the arguments-only overload: the same validation, the same missing and ambiguous constructor messages, the same lookup failure, and, after a successful lookup, an object iff the factory can construct with the one constructor of that arity, whose parameter types the object then records. |
| MixinSupport.GetSingleton | mixin-test/src/com/berniecode/mixin4j/MixinSupport.java:23-30 | The first call stores an engine with an empty cache. Later calls return the stored engine. |
| MixinSupport.SingletonStable | mixin-test/src/com/berniecode/mixin4j/MixinSupport.java:25-29 | Every call after the first returns the instance the first call made. |
| ProxyMixer.AllInterfaces | mixin-test/src/com/berniecode/mixin4j/DynamicProxyMixer.java:63-68 | The list starts with the type itself. |
| ProxyMixer.AllInterfacesPreorder | mixin-test/src/com/berniecode/mixin4j/DynamicProxyMixer.java:63-68 | The list is preorder: the type, then the lists of its direct superinterfaces concatenated in order (duplicates kept). |
| ProxyMixer.AllInterfacesAssignable | mixin-test/src/com/berniecode/mixin4j/DynamicProxyMixer.java:43-44 | Every type in the list is a supertype of the starting type. |
| ProxyMixer.PutAll | mixin-test/src/com/berniecode/mixin4j/DynamicProxyMixer.java:44-48 | Every listed type the implementation is assignable to maps to that implementation, replacing any earlier entry. Every other entry is kept. |
| ProxyMixer.LastCovering | mixin-test/src/com/berniecode/mixin4j/DynamicProxyMixer.java:38-52 | Returns the position of the last mixin whose type closure contains the key and whose implementation is assignable to it; `None` iff no mixin covers the key. |
| ProxyMixer.ImplementationMap | mixin-test/src/com/berniecode/mixin4j/DynamicProxyMixer.java:37-52 | A type is mapped iff some mixin covers it, and to the implementation of the last mixin that does: later mixins overwrite earlier ones. |
| ProxyMixer.MappedIffCovered | mixin-test/src/com/berniecode/mixin4j/DynamicProxyMixer.java:43-47 | A type is a key exactly when it is in some mixin type's closure and is assignable from that mixin's implementation. |
| ProxyMixer.ValidMixinTypeMapped | mixin-test/src/com/berniecode/mixin4j/DynamicProxyMixer.java:43-46 | The mixin type of every validated mixin is mapped. |
| ProxyMixer.MappedImplementationsAssignable | mixin-test/src/com/berniecode/mixin4j/DynamicProxyMixer.java:45-46 | Every mapped implementation implements the type it is mapped from. |
| ProxyMixer.GetFactory | mixin-test/src/com/berniecode/mixin4j/DynamicProxyMixer.java:35-61 | The factory extends the base, has no registered objects yet, and its interceptor holds the implementation map. |
| ProxyMixer.GetFactoryForMixin | mixin-test/src/com/berniecode/mixin4j/DynamicProxyMixer.java:26-30 | With one mixin, a type is mapped iff that mixin covers it, and it is mapped to that mixin's implementation. |
| ProxyMixer.CreateDelegateMap | mixin-test/src/com/berniecode/mixin4j/DynamicProxyMixer.java:141-161 | Succeeds iff every mapped implementation can be instantiated and its awareness handled. The delegate map then has the implementation map's keys. Each key gets a fresh instance of its class that has been handed the object iff `MixinAware`. Two keys share an instance exactly when they share the class. A failure is the error of some mapped class that cannot be delivered. |
| ProxyMixer.StepPreserves | mixin-test/src/com/berniecode/mixin4j/DynamicProxyMixer.java:145-158 | One iteration succeeds iff the key's class can be delivered, and it keeps the loop invariant. |
| ProxyMixer.StepReuses | mixin-test/src/com/berniecode/mixin4j/DynamicProxyMixer.java:147-158 | A class already instantiated is not instantiated again: the key gets the existing instance. |
| ProxyMixer.StepCreates | mixin-test/src/com/berniecode/mixin4j/DynamicProxyMixer.java:147-158 | A class not yet instantiated gets one new instance, made aware once, under the next identity, and the invariant is kept. |
| ProxyMixer.InvComplete | mixin-test/src/com/berniecode/mixin4j/DynamicProxyMixer.java:141-161 | When the loop has visited every key, the loop invariant gives the promise of `createDelegateMap`. |
| ProxyMixer.NewInstance | mixin-test/src/com/berniecode/mixin4j/DynamicProxyMixer.java:87-99 | Succeeds iff the base has an accessible constructor for the types and the delegate map can be built. A missing constructor gives CGLib's error; otherwise a failure is that of an undeliverable delegate class. The object's delegate map is registered before the object is returned, and no other object's map changes. |
| ProxyMixer.InterceptAsWritten | mixin-test/src/com/berniecode/mixin4j/DynamicProxyMixer.java:167-179 | As written: `Object` methods go to super. Any other call on an object with no registered map fails, and otherwise goes to the registered delegate of the declaring class when there is one. |
| ProxyMixer.UnregisteredCallFails | mixin-test/src/com/berniecode/mixin4j/DynamicProxyMixer.java:171-172 | A non-`Object` call on an object not yet registered, such as one made from the base constructor, fails. |
| ProxyMixer.Intercept | mixin-test/src/com/berniecode/mixin4j/DynamicProxyMixer.java:167-179 | `Object` methods go to super. A call goes to a delegate iff the object is registered and its map has the declaring class, and then to that class's delegate. |
| ProxyMixer.InterceptAgreesWhenRegistered | mixin-test/src/com/berniecode/mixin4j/DynamicProxyMixer.java:170-178 | On registered objects, and for `Object` methods, the corrected decision is the written one. |
| ProxyMixer.DispatchAfterCreation | mixin-test/src/com/berniecode/mixin4j/DynamicProxyMixer.java:170-178 | On an object the factory made, a call of a method declared by a mapped type reaches an instance of the implementation mapped for it. Any other call goes to super. |
| SourceMixer.LineIndentsFromTemplate | mixin-test/src/com/berniecode/mixin4j/ClassGeneratingMixer.java:176-188 | A line moves the indentation by the template's braces only, never by the formatted text. It is written after a multiple of four spaces, which is 4·max(indentation, 0) when the template has no closing brace. |
| SourceMixer.EmitIndentation | mixin-test/src/com/berniecode/mixin4j/ClassGeneratingMixer.java:176-192 | Replaying calls moves the indentation by the sum of their templates' deltas. The text only grows at the end. |
| SourceMixer.GetArgs | mixin-test/src/com/berniecode/mixin4j/ClassGeneratingMixer.java:129-143 | The loop yields the entries "argI", prefixed by "<TypeName> " when typed, joined by ", ". Zero parameters give the empty string. |
| SourceMixer.UntypedArgsDependOnArity | mixin-test/src/com/berniecode/mixin4j/ClassGeneratingMixer.java:131-141 | Untyped argument lists depend only on the number of parameters. |
| SourceMixer.TemplateDeltas | mixin-test/src/com/berniecode/mixin4j/ClassGeneratingMixer.java:48-88 | Only the class header, the method and constructor headers and the initializer opening open a block. Only the class close and the block closes close one. |
| SourceMixer.MixinBalanced | mixin-test/src/com/berniecode/mixin4j/ClassGeneratingMixer.java:58-75 | Everything written for one mixin leaves the indentation where it was. |
| SourceMixer.ConstructorsBalanced | mixin-test/src/com/berniecode/mixin4j/ClassGeneratingMixer.java:79-85 | The forwarding constructors leave the indentation where it was. |
| SourceMixer.GeneratedSourceBalanced | mixin-test/src/com/berniecode/mixin4j/ClassGeneratingMixer.java:45-96 | Every block the generator opens it closes, so the builder ends at indentation zero. |
| SourceMixer.GeneratedSourceStartsWithHeader | mixin-test/src/com/berniecode/mixin4j/ClassGeneratingMixer.java:47-49 | The source opens with "//stripme//class <Base>WithMixins extends <base> {", written flush left, then a blank line. |
| SourceMixer.GeneratedSourceEndsWithClose | mixin-test/src/com/berniecode/mixin4j/ClassGeneratingMixer.java:88 | The source ends with "//stripme//}", written flush left. |
| SourceMixer.ReturnPrefixIffNonVoid | mixin-test/src/com/berniecode/mixin4j/ClassGeneratingMixer.java:72-73 | The delegating call starts with "return " exactly when the method has a return type. |
| SourceMixer.MethodsLinesAt | mixin-test/src/com/berniecode/mixin4j/ClassGeneratingMixer.java:68-75 | One three-line delegating method per method of the mixin type, in the type's method order. |
| SourceMixer.MixinsLinesAt | mixin-test/src/com/berniecode/mixin4j/ClassGeneratingMixer.java:51-76 | Mixins are written in list order: the i-th one's lines (ordinal i+1) sit, contiguous, after those of the mixins before it. |
| SourceMixer.MixinFieldLine | mixin-test/src/com/berniecode/mixin4j/ClassGeneratingMixer.java:55-60 | After the two comment lines, each mixin declares "private Impl field = new Impl();". The field name is the mixin type's simple name followed by the ordinal, with the first letter lower-cased. |
| SourceMixer.AwareBlockIffAware | mixin-test/src/com/berniecode/mixin4j/ClassGeneratingMixer.java:62-66 | The `setMixinBase(this)` initializer block follows the field exactly when the implementation is `MixinAware`. |
| SourceMixer.ForwardedMembers | mixin-test/src/com/berniecode/mixin4j/ClassGeneratingMixer.java:79-80 | A constructor is forwarded iff it is declared and not private. |
| SourceMixer.ConstructorsLinesForwarded | mixin-test/src/com/berniecode/mixin4j/ClassGeneratingMixer.java:79-85 | Private constructors contribute no text. |
| SourceMixer.ConstructorsLinesAt | mixin-test/src/com/berniecode/mixin4j/ClassGeneratingMixer.java:81-83 | The i-th forwarded constructor becomes a constructor with its parameters that passes them on to `super`, in declaration order. |
| SourceMixer.GetFactory | mixin-test/src/com/berniecode/mixin4j/ClassGeneratingMixer.java:24-27 | A factory exists iff the generated source compiles. It records the base, the mixins, the source and the class name "<package>.<Base>WithMixins". A compile failure carries the whole source after "Error while generating source code: ". |
| SourceMixer.GetFactoryForMixin | mixin-test/src/com/berniecode/mixin4j/ClassGeneratingMixer.java:17-22 | The one-mixin overload is the list overload on the one-element list. |
| SourceMixer.FieldDelegates | mixin-test/src/com/berniecode/mixin4j/ClassGeneratingMixer.java:60-65 | Each mixin field holds a new instance of its implementation, in field order. A `MixinAware` one has been handed the new object once. |
| SourceMixer.NewInstance | mixin-test/src/com/berniecode/mixin4j/ClassGeneratingMixer.java:145-152 | Succeeds iff the mixed class has a no-argument constructor. A failure is "The constructor invocation threw an exception". |
| SourceMixer.NewInstanceWith | mixin-test/src/com/berniecode/mixin4j/ClassGeneratingMixer.java:154-165 | Empty types behave as `newInstance()` whatever the arguments. Otherwise it succeeds iff a constructor takes exactly those types and the argument count fits. The object gets one fresh delegate per mixin, in order. |
| SourceMixer.CreationsAreDisjoint | mixin-test/src/com/berniecode/mixin4j/ClassGeneratingMixer.java:60 | Objects made one after the other share no identity, and neither do their delegates. |
| Tree.IndexOf | mixin-test/src/com/berniecode/mixin4j/test/tree/MutableTreeNodeMixinImpl.java:118-120 | The first position of the node, with -1 exactly when it is absent. |
| Tree.RemoveFirstCount | mixin-test/src/com/berniecode/mixin4j/test/tree/MutableTreeNodeMixinImpl.java:81-84 | Removing a node takes exactly one occurrence away when there is one. |
| Tree.RemoveFirstAtIndex | mixin-test/src/com/berniecode/mixin4j/test/tree/MutableTreeNodeMixinImpl.java:81-84 | Removal drops the element at the first position of the node and keeps the rest in order. |
| Tree.InsertAtCount | mixin-test/src/com/berniecode/mixin4j/test/tree/MutableTreeNodeMixinImpl.java:65 | Adding at an index adds exactly one occurrence. |
| Tree.Remove | mixin-test/src/com/berniecode/mixin4j/test/tree/MutableTreeNodeMixinImpl.java:81-84 | Only the first occurrence leaves the children. Neither the parent nor the removed node's parent link changes. |
| Tree.RemoveAt | mixin-test/src/com/berniecode/mixin4j/test/tree/MutableTreeNodeMixinImpl.java:74-76 | Succeeds iff the index is in range. The child list then loses the first occurrence of the child found there, which is at or before the index, and the rest keep their order; no other node changes. Out of range it throws and changes nothing. |
| Tree.RemoveFromParent | mixin-test/src/com/berniecode/mixin4j/test/tree/MutableTreeNodeMixinImpl.java:29-34 | With no parent nothing happens (no exception). Otherwise the parent drops the node and the node's parent becomes null. |
| Tree.RemoveFromParentFrame | mixin-test/src/com/berniecode/mixin4j/test/tree/MutableTreeNodeMixinImpl.java:29-34 | Only the node and its old parent change, and no other node's parent link. |
| Tree.SetParent | mixin-test/src/com/berniecode/mixin4j/test/tree/MutableTreeNodeMixinImpl.java:47-55 | Nothing happens when the new parent is already the parent. A node other than the new parent always returns. |
| Tree.SetParentRelinks | mixin-test/src/com/berniecode/mixin4j/test/tree/MutableTreeNodeMixinImpl.java:48-53 | A change of parent ends with the node detached from the old parent and linked both ways to the new one. |
| Tree.RelinkedChildren | mixin-test/src/com/berniecode/mixin4j/test/tree/MutableTreeNodeMixinImpl.java:53 | As written, the node is put first among the new parent's children. |
| Tree.Insert | mixin-test/src/com/berniecode/mixin4j/test/tree/MutableTreeNodeMixinImpl.java:60-67 | Inserting a node into itself throws "Can't add a TreeNode as its own child" and changes nothing. Otherwise it returns iff the index fits the children after removal. |
| Tree.InsertLinks | mixin-test/src/com/berniecode/mixin4j/test/tree/MutableTreeNodeMixinImpl.java:64-66 | A successful insert links child and parent both ways. |
| Tree.InsertPlacement | mixin-test/src/com/berniecode/mixin4j/test/tree/MutableTreeNodeMixinImpl.java:64-66 | The child ends at the index when it was already linked to the node. A newly linked child ends first (as written) or at the index (corrected). |
| Tree.InsertKeepsOtherChildren | mixin-test/src/com/berniecode/mixin4j/test/tree/MutableTreeNodeMixinImpl.java:64-65 | The node's children other than the inserted one keep their order. The inserted child is listed once more than in the old children with its first occurrence removed. |
| Tree.InsertFrame | mixin-test/src/com/berniecode/mixin4j/test/tree/MutableTreeNodeMixinImpl.java:60-67 | The child leaves its old parent's children. No node besides the child, the parent and the old parent changes, and no other parent link changes. |
| Tree.InsertKeepsOneOccurrence | mixin-test/src/com/berniecode/mixin4j/test/tree/MutableTreeNodeMixinImpl.java:64-65 | A child listed at most once before is listed exactly once after. |
| Tree.InsertIgnoresIndexAsWritten | mixin-test/src/com/berniecode/mixin4j/test/tree/MutableTreeNodeMixinImpl.java:47-66 | As written, inserting a parentless node at index 1 under a node with one child yields the children [c, a]. Corrected, the result is [a, c]. |
| Tree.InsertHonoursIndex | mixin-test/src/com/berniecode/mixin4j/test/tree/MutableTreeNodeMixinImpl.java:60-67 | Corrected, `insert(c, i)` always leaves `c` at index `i`. |
| Tree.ProtocolsAgreeOnExistingChild | mixin-test/src/com/berniecode/mixin4j/test/tree/MutableTreeNodeMixinImpl.java:47-48 | Both protocols agree when the inserted node is already linked to the node. |
| Tree.GetParentAfterSetParent | mixin-test/src/com/berniecode/mixin4j/test/tree/MutableTreeNodeMixinImpl.java:40-55 | After `c.setParent(p)`, `c.getParent()` is `p`, whether or not `p` was already the parent. |
| Tree.GetParent | mixin-test/src/com/berniecode/mixin4j/test/tree/MutableTreeNodeMixinImpl.java:40-42 | Null iff the node has no parent; otherwise the node's parent. |
| Tree.GetChildAt | mixin-test/src/com/berniecode/mixin4j/test/tree/MutableTreeNodeMixinImpl.java:89-91 | Succeeds iff the index is in range, with the child at that index. Out of range it throws the vector's exception. |
| Tree.GetChildCount | mixin-test/src/com/berniecode/mixin4j/test/tree/MutableTreeNodeMixinImpl.java:96-98 | The number of children. |
| Tree.IsLeaf | mixin-test/src/com/berniecode/mixin4j/test/tree/MutableTreeNodeMixinImpl.java:125-127 | True iff the count is zero, that is iff no index yields a child. |
| Tree.GetIndex | mixin-test/src/com/berniecode/mixin4j/test/tree/MutableTreeNodeMixinImpl.java:118-120 | -1 iff the node is not a child. Otherwise the first index whose child it is. |
| Tree.GetAllowsChildren | mixin-test/src/com/berniecode/mixin4j/test/tree/MutableTreeNodeMixinImpl.java:111-113 | Always true. |
| Tree.Children | mixin-test/src/com/berniecode/mixin4j/test/tree/MutableTreeNodeMixinImpl.java:103-105 | The enumeration lists the children in index order. |
| Tree.SetUserObject | mixin-test/src/com/berniecode/mixin4j/test/tree/MutableTreeNodeMixinImpl.java:133-134 | Changes no node. |
| Tree.AttachReports | mixin-test/src/com/berniecode/mixin4j/test/tree/Employee.java:40-42 | Reports other than the employee are attached without an exception. As written, the only possible exception is the self-child one. |
| Tree.AttachReportsReverses | mixin-test/src/com/berniecode/mixin4j/test/tree/Employee.java:38-43 | Fresh direct reports end up as the new employee's children in reverse order. |
| Tree.AttachReportsSetsParents | mixin-test/src/com/berniecode/mixin4j/test/tree/Employee.java:40-42 | Every fresh direct report ends with the employee as its parent. |
| Tree.AttachKeepsParent | mixin-test/src/com/berniecode/mixin4j/test/tree/Employee.java:40-42 | Attaching reports changes no other node's parent. |
| Countdown.New | mixin-test/src/com/berniecode/mixin4j/test/aware/RandomNumberSequence.java:18-22 | The sequence has the given length, minimum and maximum. |
| Countdown.HasNext | mixin-test/src/com/berniecode/mixin4j/test/aware/RandomNumberSequence.java:24-26 | True iff remaining > 0. |
| Countdown.Next | mixin-test/src/com/berniecode/mixin4j/test/aware/RandomNumberSequence.java:28-34 | An exhausted sequence throws `NoSuchElementException` and stays unchanged. Otherwise remaining drops by exactly one and the drawn value is returned. |
| Countdown.Remove | mixin-test/src/com/berniecode/mixin4j/test/aware/RandomNumberSequence.java:36-38 | Always throws `UnsupportedOperationException` and changes nothing. |
| Countdown.Calls | mixin-test/src/com/berniecode/mixin4j/test/aware/RandomNumberSequence.java:28-34 | k successful calls return the k drawn values in order and use up k elements. Any failure is `NoSuchElementException`. |
| Countdown.ExactlyLengthCallsSucceed | mixin-test/src/com/berniecode/mixin4j/test/aware/RandomNumberSequence.java:18-33 | Built with length n ≥ 0, k calls succeed iff k ≤ n. After n calls `hasNext()` is false. |
| XmlDump.SetMixinBase | mixin-test/src/com/berniecode/mixin4j/test/aware/DumpIteratorToXml.java:22-24 | The base is stored for `getXml` to read. |
| XmlDump.Drained | mixin-test/src/com/berniecode/mixin4j/test/aware/DumpIteratorToXml.java:32-34 | The elements read are as many as remain, each the value drawn for its call, in order. |
| XmlDump.GetXml | mixin-test/src/com/berniecode/mixin4j/test/aware/DumpIteratorToXml.java:29-37 | An unset base throws. Otherwise the result is the header, one item line per element in iteration order, then the footer, and the base is left exhausted. |
| XmlDump.DocumentShape | mixin-test/src/com/berniecode/mixin4j/test/aware/DumpIteratorToXml.java:31-35 | The document starts with "<items>\n", ends with "</items>", and has one line break per element plus the header's. |
| XmlDump.ExhaustedDumpIsEmpty | mixin-test/src/com/berniecode/mixin4j/test/aware/DumpIteratorToXml.java:30-36 | A dump of an exhausted base, such as a second `getXml`, is exactly "<items>\n</items>". |

## Left out

- Janino and CGLib are foreign libraries.
  - Whether the generated source compiles is a parameter, `compiles`.
  - Construction through a compiled class or a proxy succeeds iff a matching accessible constructor exists.
  - The exception CGLib raises is a stand-in message.
- The base class's constructor body is not run. Calls it makes on the new object appear only as `ProxyMixer.UnregisteredCallFails`.
- Reflection is replaced by the class table.
  - `getCanonicalName` and `getName` of a class are its table name. `toString` is rendered as Java does, "class X" or "interface X" (`Classes.ClassDisplay`).
  - The table's method lists are trusted to be what `getMethods()` returns, inherited methods included. Nothing checks them against the superinterfaces.
  - Implicit default constructors must be listed in the table.
  - Lower-casing of a field name's first letter covers ASCII letters only.
- `ImplementationSource` classes other than `GenericParameterImplementationSource` are code the model cannot see. Instantiating one fails with "Can't resolve mixin implementation source". Likewise, mixer classes other than the two of the library fail with "Can't load mixer class".
- The "Could not create mixin delegate instance" path of `DynamicProxyMixer.getFactory` cannot be reached without reflection failures, so it is not modelled.
- `saveSourceCode`, the `com.berniecode.mixin4j.generatedSourceFolder` property and the "//stripme//" stripping in the saved copy are file-system I/O.
- `String.format` is modelled as concatenation of already-formatted pieces. The template text is kept only for the brace test in `line`.
- The `synchronized` blocks, the `WeakHashMap` garbage-collection semantics and the unsynchronized factory cache are concurrency and memory management. All maps are plain maps.
- `Math.random` in `RandomNumberSequence.next` is floating point. The value a call returns is a parameter: a given `int`, or `random(i)` for the i-th call.
- The exception message of an out-of-range `Vector` access is a stand-in.
- A tree node whose `mixinBase` was never set is not modelled. Every node is its own base.
- `Employee`'s name field and its trip through the engine singleton are not modelled. `Employee.create` with reports is modelled as its loop over `setParent`.
- The Swing tree editor, the test runners and the pure declarations are out of scope:
  - the interfaces `Factory`, `Mixer`, `MixinEngine`, `ImplementationSource` and `MixinAware`;
  - the annotations;
  - `MixinException`;
  - the demo interfaces and `PoshGreeting`.
- MixinUtils.HandleMixinAwareness: its failure needs a parameterized `MixinAware` reference with no type argument. Compiled Java never produces one, so this error path exists only in hand-built class tables. The table is not required to exclude such references.
- Tree.SetParent: there is no null node, so the `NullPointerException` of `setParent(null)` is not modelled.
- Tree.Insert: there is no null node, so the `NullPointerException` of `insert(null, i)` is not modelled.
- SourceMixer.NewInstanceWith: argument values are not checked against the constructor's parameter types. A value of the wrong type, as in `create(Employee.class, 42)`, makes Java's reflective call throw, reported as "The constructor invocation threw an exception". The model lets such a call succeed.
- ProxyMixer.NewInstance: argument values are not checked against the constructor's parameter types either. A mismatch makes CGLib throw, and the model lets such a call succeed.
- SourceMixer.ReturnPrefixIffNonVoid: requires a non-empty delegate field name without spaces. Every generated field name is a Java identifier, so this always holds.
- Tree.AttachReports: states only that reports other than the employee cannot make the loop throw, and that as written the only exception is the self-child one. What the loop builds is stated separately, for fresh reports, by Tree.AttachReportsReverses and Tree.AttachReportsSetsParents.

## Findings

| source | as written | input that shows it | evidently intended | confidence | as-written member | corrected member |
|---|---|---|---|---|---|---|
| mixin-test/src/com/berniecode/mixin4j/test/tree/MutableTreeNodeMixinImpl.java:47-66 | `insert(child, i)` places the child at `i`, then calls `child.setParent(this)`. For a child not yet linked to this node, that removes it again and re-inserts it at index 0. | children [a]; a parentless node c; `insert(c, 1)` leaves [c, a] | c ends at index 1: [a, c] | not executed | Tree.InsertIgnoresIndexAsWritten | Tree.InsertHonoursIndex |
| mixin-test/src/com/berniecode/mixin4j/DynamicProxyMixer.java:167-173 | `intercept` dereferences `delegateMaps.get(obj)` for every non-`Object` method. The map is registered only after CGLib has run the base constructor. | a base constructor that calls a mixin method on `this` | the call goes to super (or the map lookup is guarded) instead of a `NullPointerException` | not executed | ProxyMixer.UnregisteredCallFails | ProxyMixer.Intercept |

=== FILE: classes.dfy ===
/** The class table that stands in for Java reflection.

    Each loaded class is a record of the metadata the engine reads through reflection:
    its simple name and package, the `isInterface`/abstract/final modifiers, the superclass,
    the directly implemented interfaces (as `getGenericInterfaces()` reports them: either a raw
    interface or a parameterized reference with its type arguments), the declared constructors,
    the public methods as `getMethods()` reports them (so an interface's entry also lists the
    methods it inherits from its superinterfaces; the table is trusted to be filled in that
    way and nothing recomputes it), and the `@MixinType(implementation)` and `@MixinBase(mixerClass)`
    annotations.

    Java's type hierarchy is acyclic; the model makes that explicit with a `rank` per class and
    only follows supertype edges that descend in rank (`Ranked` says no edge is dropped). */
module Classes {
  import opened Results

  type ClassName = string

  /** One entry of `getGenericInterfaces()` / one actual type argument. */
  datatype TypeArg =
    | ClassArg(name: ClassName)                              // a plain `Class`
    | ParameterizedArg(raw: ClassName, args: seq<TypeArg>)   // e.g. `Impl<T>`
    | VariableArg(variable: string)                          // a type variable or wildcard

  datatype InterfaceRef =
    | RawInterface(name: ClassName)
    | ParameterizedInterface(name: ClassName, args: seq<TypeArg>)

  datatype MethodSig = MethodSig(name: string, params: seq<ClassName>, returnType: Option<ClassName>)

  datatype ConstructorSig = ConstructorSig(params: seq<ClassName>, isPrivate: bool)

  datatype ClassInfo = ClassInfo(
    simpleName: string,
    packageName: string,
    isInterface: bool,
    isAbstract: bool,
    isFinal: bool,
    superclass: Option<ClassName>,
    interfaces: seq<InterfaceRef>,
    constructors: seq<ConstructorSig>,
    methods: seq<MethodSig>,       // getMethods(): declared and inherited public methods
    mixinType: Option<ClassName>,   // @MixinType(implementation = ...)
    mixinBase: Option<ClassName>,   // @MixinBase(mixerClass = ...)
    rank: nat)

  /** Classes keyed by their fully qualified name. */
  type ClassTable = map<ClassName, ClassInfo>

  const ObjectClass: ClassName := "java.lang.Object"
  const MixinAwareInterface: ClassName := "com.berniecode.mixin4j.MixinAware"
  const ImplementationSourceInterface: ClassName := "com.berniecode.mixin4j.ImplementationSource"
  const GenericSourceClass: ClassName := "com.berniecode.mixin4j.GenericParameterImplementationSource"
  const DynamicClass: ClassName := "com.berniecode.mixin4j.GenericParameterImplementationSource$Dynamic"
  const ImplClass: ClassName := "com.berniecode.mixin4j.GenericParameterImplementationSource$IMPL"
  const ClassGeneratingMixerClass: ClassName := "com.berniecode.mixin4j.ClassGeneratingMixer"
  const DynamicProxyMixerClass: ClassName := "com.berniecode.mixin4j.DynamicProxyMixer"

  /** The record of a class; a name outside the table reads as a concrete class without
      supertypes, constructors, methods or annotations. */
  function Get(ct: ClassTable, c: ClassName): ClassInfo {
    if c in ct then ct[c]
    else ClassInfo(c, "", false, false, false, None, [], [], [], None, None, 0)
  }

  function Rank(ct: ClassTable, c: ClassName): nat {
    Get(ct, c).rank
  }

  function RefName(r: InterfaceRef): ClassName {
    match r
    case RawInterface(n) => n
    case ParameterizedInterface(n, _) => n
  }

  /** `getInterfaces()`: the raw direct interfaces, in declaration order. */
  function Interfaces(ct: ClassTable, c: ClassName): (r: seq<ClassName>)
    ensures |r| == |Get(ct, c).interfaces|
    ensures forall i :: 0 <= i < |r| ==> r[i] == RefName(Get(ct, c).interfaces[i])
  {
    InterfaceNames(Get(ct, c).interfaces)
  }

  function InterfaceNames(refs: seq<InterfaceRef>): (r: seq<ClassName>)
    ensures |r| == |refs|
    ensures forall i :: 0 <= i < |r| ==> r[i] == RefName(refs[i])
  {
    if |refs| == 0 then [] else [RefName(refs[0])] + InterfaceNames(refs[1..])
  }

  /** Direct supertypes: the superclass (if any) followed by the direct interfaces. */
  function Supertypes(ct: ClassTable, c: ClassName): seq<ClassName> {
    var info := Get(ct, c);
    (if info.superclass.Some? then [info.superclass.value] else []) + Interfaces(ct, c)
  }

  /** Every declared supertype edge descends in rank, so the hierarchy is acyclic. */
  ghost predicate Ranked(ct: ClassTable) {
    forall c, s :: c in ct && s in Supertypes(ct, c) ==> Rank(ct, s) < Rank(ct, c)
  }

  /** `java.lang.Object` is a root: it has no supertypes of its own. */
  predicate ObjectIsRoot(ct: ClassTable) {
    Supertypes(ct, ObjectClass) == []
  }

  /** `target.isAssignableFrom(c)`: the reflexive-transitive closure of the supertype edges,
      plus `Object`, which is assignable from every type. */
  predicate IsAssignableFrom(ct: ClassTable, target: ClassName, c: ClassName)
    decreases Rank(ct, c)
  {
    || target == c
    || target == ObjectClass
    || exists s :: s in Supertypes(ct, c) && Rank(ct, s) < Rank(ct, c) && IsAssignableFrom(ct, target, s)
  }

  /** Assignability is transitive. */
  lemma {:induction false} AssignableTransitive(ct: ClassTable, a: ClassName, b: ClassName, c: ClassName)
    requires ObjectIsRoot(ct)
    requires IsAssignableFrom(ct, a, b) && IsAssignableFrom(ct, b, c)
    ensures IsAssignableFrom(ct, a, c)
    decreases Rank(ct, c)
  {
    if b == c || a == ObjectClass {
    } else if b == ObjectClass {
      // `Object` has no supertypes, so only `Object` itself is assignable from it
      assert false;
    } else {
      var s :| s in Supertypes(ct, c) && Rank(ct, s) < Rank(ct, c) && IsAssignableFrom(ct, b, s);
      AssignableTransitive(ct, a, b, s);
    }
  }

  /** Every direct supertype of a class in a ranked table is assignable from it. */
  lemma SupertypeAssignable(ct: ClassTable, c: ClassName, s: ClassName)
    requires Ranked(ct) && c in ct && s in Supertypes(ct, c)
    ensures IsAssignableFrom(ct, s, c)
  {
    assert IsAssignableFrom(ct, s, s);
  }

  /** A type without supertypes is assignable only to itself and to `Object`. */
  lemma RootAssignableOnlyToItself(ct: ClassTable, target: ClassName, c: ClassName)
    requires Supertypes(ct, c) == []
    ensures IsAssignableFrom(ct, target, c) <==> target == c || target == ObjectClass
  {
  }

  /** Java's rendering of a `Class` through `toString()`: "interface X" or "class X". */
  function ClassDisplay(ct: ClassTable, c: ClassName): string {
    (if Get(ct, c).isInterface then "interface " else "class ") + c
  }

  /** `Type.getTypeName()` of a type argument. */
  function TypeName(t: TypeArg): string
    decreases t
  {
    match t
    case ClassArg(n) => n
    case ParameterizedArg(raw, args) => raw + "<" + TypeNames(args) + ">"
    case VariableArg(v) => v
  }

  /** Type names separated by ", ", as a parameterized type prints its arguments. */
  function TypeNames(ts: seq<TypeArg>): string
    decreases ts
  {
    if |ts| == 0 then ""
    else if |ts| == 1 then TypeName(ts[0])
    else TypeName(ts[0]) + ", " + TypeNames(ts[1..])
  }

  /** `toString()` of a reflected type: a plain class prints as "class X"/"interface X". */
  function TypeString(ct: ClassTable, t: TypeArg): string {
    if t.ClassArg? then ClassDisplay(ct, t.name) else TypeName(t)
  }

  /** `toString()` of an entry of `getGenericInterfaces()`. */
  function InterfaceRefString(ct: ClassTable, r: InterfaceRef): string {
    match r
    case RawInterface(n) => ClassDisplay(ct, n)
    case ParameterizedInterface(n, args) => n + "<" + TypeNames(args) + ">"
  }
}

=== FILE: countdown.dfy ===
/** `RandomNumberSequence`: the mixin base of the `MixinAware` demo, an iterator that hands out
    a fixed number of random ints and then stops. The random value is not modelled: each
    `next()` is given the value it returns. */
module Countdown {
  import opened Results

  datatype Sequence = Sequence(remaining: int, min: int, max: int)

  /** `new RandomNumberSequence(length, min, max)`. */
  function New(length: int, min: int, max: int): (s: Sequence)
    ensures s.remaining == length && s.min == min && s.max == max
  {
    Sequence(length, min, max)
  }

  /** `hasNext()`. */
  function HasNext(s: Sequence): (r: bool)
    ensures r <==> s.remaining > 0
  {
    s.remaining > 0
  }

  const NoSuchElement := "java.util.NoSuchElementException"
  const Unsupported := "java.lang.UnsupportedOperationException"

  /** The sequence after a call, and what the call returned or threw. */
  datatype Step = Step(state: Sequence, value: Result<int>)

  /** `next()`, given the value `random` the call draws: an exhausted sequence throws and stays
      as it is; otherwise one element is used up. */
  function Next(s: Sequence, random: int): (r: Step)
    ensures r.value.Err? <==> !HasNext(s)
    ensures r.value.Err? ==> r.state == s && r.value.message == NoSuchElement
    ensures r.value.Ok? ==> r.state == s.(remaining := s.remaining - 1) && r.value.value == random
  {
    if !HasNext(s) then Step(s, Err(NoSuchElement))
    else Step(s.(remaining := s.remaining - 1), Ok(random))
  }

  /** `remove()`: never supported. */
  function Remove(s: Sequence): (r: Step)
    ensures r.state == s && r.value == Err(Unsupported)
  {
    Step(s, Err(Unsupported))
  }

  /** `k` successive calls of `next()`, the i-th drawing `random(i)`; the first exception ends
      the run. On success, the values returned, in order. */
  function Calls(s: Sequence, random: nat -> int, k: nat): (r: Result<(Sequence, seq<int>)>)
    ensures r.Ok? ==> |r.value.1| == k && r.value.0 == s.(remaining := s.remaining - k)
    ensures r.Ok? ==> forall i :: 0 <= i < k ==> r.value.1[i] == random(i)
    ensures r.Err? ==> r.message == NoSuchElement
  {
    if k == 0 then Ok((s, []))
    else
      var prefix :- Calls(s, random, k - 1);
      var step := Next(prefix.0, random(k - 1));
      if step.value.Err? then Err(step.value.message)
      else Ok((step.state, prefix.1 + [step.value.value]))
  }

  /** A sequence created with length `n >= 0` answers exactly `n` calls of `next()`: `n` calls
      succeed and leave it exhausted, and one more throws. */
  lemma {:induction false} ExactlyLengthCallsSucceed(n: nat, min: int, max: int, random: nat -> int, k: nat)
    ensures Calls(New(n, min, max), random, k).Ok? <==> k <= n
    ensures k == n ==> !HasNext(Calls(New(n, min, max), random, k).value.0)
  {
    if k > 0 {
      ExactlyLengthCallsSucceed(n, min, max, random, k - 1);
    }
  }
}

=== FILE: engine.dfy ===
/** `MixinSupport`: the public entry points. A mixin base is validated, its factory is found
    in the cache or built from the `@MixinType` interfaces the base implements, and the factory
    makes the object. The engine's state is its factory cache; a proxy factory changes as it
    registers objects, so the cache holds its latest state. */
module MixinSupport {
  import opened Results
  import opened Classes
  import opened Objects
  import opened Descriptors
  import opened MixinUtils
  import opened GenericSource
  import SourceMixer
  import ProxyMixer

  // ---------------------------------------------------------------------------------------
  // getMixinBaseAnnotation
  // ---------------------------------------------------------------------------------------

  /** `getAnnotation(MixinBase.class)`: the annotation is `@Inherited`, so it is found on the
      class itself or, failing that, on the nearest superclass carrying it (never on an
      interface). The value is the mixer class. */
  function InheritedMixinBase(ct: ClassTable, c: ClassName): (r: Option<ClassName>)
    ensures Get(ct, c).mixinBase.Some? ==> r == Get(ct, c).mixinBase
    ensures r.Some? && Get(ct, c).mixinBase.None? ==>
              var s := Get(ct, c).superclass;
              s.Some? && Rank(ct, s.value) < Rank(ct, c) && r == InheritedMixinBase(ct, s.value)
    decreases Rank(ct, c)
  {
    var info := Get(ct, c);
    if info.mixinBase.Some? then info.mixinBase
    else if info.superclass.Some? && Rank(ct, info.superclass.value) < Rank(ct, c) then
      InheritedMixinBase(ct, info.superclass.value)
    else None
  }

  /** The inherited annotation belongs to a superclass the class is assignable to. */
  lemma {:induction false} InheritedFromSuperclass(ct: ClassTable, c: ClassName)
    requires InheritedMixinBase(ct, c).Some?
    ensures exists a :: IsAssignableFrom(ct, a, c) && Get(ct, a).mixinBase == InheritedMixinBase(ct, c)
    decreases Rank(ct, c)
  {
    if Get(ct, c).mixinBase.Some? {
      assert IsAssignableFrom(ct, c, c);
    } else {
      var s := Get(ct, c).superclass.value;
      InheritedFromSuperclass(ct, s);
      var a :| IsAssignableFrom(ct, a, s) && Get(ct, a).mixinBase == InheritedMixinBase(ct, s);
      assert s in Supertypes(ct, c);
      assert IsAssignableFrom(ct, a, c);
    }
  }

  function NotMixinBaseMessage(base: ClassName): string {
    "'" + base + "' is not a mixin base class (not annotated @MixinBase)"
  }

  /** `getMixinBaseAnnotation(mixinBase)`: the mixer class named by the annotation. */
  function GetMixinBaseAnnotation(ct: ClassTable, base: ClassName): (r: Result<ClassName>)
    ensures r.Ok? <==> InheritedMixinBase(ct, base).Some?
    ensures r.Ok? ==> r.value == InheritedMixinBase(ct, base).value
    ensures r.Err? ==> r.message == NotMixinBaseMessage(base)
  {
    match InheritedMixinBase(ct, base)
    case Some(m) => Ok(m)
    case None => Err(NotMixinBaseMessage(base))
  }

  // ---------------------------------------------------------------------------------------
  // Discovery of the mixins
  // ---------------------------------------------------------------------------------------

  const SourceError := "Can't resolve mixin implementation source"

  /** What one direct interface of the base contributes: nothing (no `@MixinType`, or an
      annotation class that is neither an implementation nor an implementation source), or
      the mixin of its implementation. */
  function Contribution(ct: ClassTable, base: ClassName, mixinType: ClassName): (r: Result<Option<Mixin>>)
    ensures Get(ct, mixinType).mixinType.None? ==> r == Ok(None)
    ensures r.Ok? && r.value.Some? ==>
              && Get(ct, mixinType).mixinType.Some?
              && r.value.value.mixinType == mixinType
              && Fits(ct, mixinType, r.value.value.mixinImpl, false)
              && Fits(ct, mixinType, base, true)
    ensures Get(ct, mixinType).mixinType.Some? ==>
              var src := Get(ct, mixinType).mixinType.value;
              && (IsAssignableFrom(ct, mixinType, src) ==>
                    && (r.Ok? <==> NewMixin(ct, mixinType, src, base).Ok?)
                    && (r.Ok? ==> r.value == Some(Mixin(mixinType, src)))
                    && (r.Err? ==> r.message == NewMixin(ct, mixinType, src, base).message))
              && (!IsAssignableFrom(ct, mixinType, src) && IsAssignableFrom(ct, ImplementationSourceInterface, src) ==>
                    if src == GenericSourceClass then
                      var impl := GetImplementation(ct, mixinType, base);
                      && (r.Ok? <==> impl.Ok? && NewMixin(ct, mixinType, impl.value, base).Ok?)
                      && (r.Ok? ==> r.value == Some(Mixin(mixinType, impl.value)))
                      && (impl.Err? ==> r == Err(impl.message))
                      && (impl.Ok? && NewMixin(ct, mixinType, impl.value, base).Err? ==>
                            r == Err(NewMixin(ct, mixinType, impl.value, base).message))
                    else r == Err(SourceError))
              && (!IsAssignableFrom(ct, mixinType, src) && !IsAssignableFrom(ct, ImplementationSourceInterface, src) ==>
                    r == Ok(None))
  {
    match Get(ct, mixinType).mixinType
    case None => Ok(None)
    case Some(sourceClass) =>
      if IsAssignableFrom(ct, mixinType, sourceClass) then
        var m :- NewMixin(ct, mixinType, sourceClass, base);
        Ok(Some(m))
      else if IsAssignableFrom(ct, ImplementationSourceInterface, sourceClass) then
        if sourceClass != GenericSourceClass then Err(SourceError)
        else
          var impl :- GetImplementation(ct, mixinType, base);
          var m :- NewMixin(ct, mixinType, impl, base);
          Ok(Some(m))
      else Ok(None)
  }

  /** The discovery loop over the base's direct interfaces, in declaration order; the first
      failure ends it. */
  function Discover(ct: ClassTable, base: ClassName, xs: seq<ClassName>): (r: Result<seq<Mixin>>)
    ensures r.Ok? ==> |r.value| <= |xs|
    ensures r.Ok? ==> forall i :: 0 <= i < |r.value| ==> r.value[i].mixinType in xs
    ensures r.Ok? <==> forall i :: 0 <= i < |xs| ==> Contribution(ct, base, xs[i]).Ok?
  {
    if |xs| == 0 then Ok([])
    else
      var c :- Contribution(ct, base, xs[0]);
      var rest :- Discover(ct, base, xs[1..]);
      Ok((if c.Some? then [c.value] else []) + rest)
  }

  /** Discovery keeps the interface order: the mixins are the contributions of the interfaces
      in turn. */
  lemma {:induction false} DiscoverFollowsInterfaceOrder(ct: ClassTable, base: ClassName, xs: seq<ClassName>)
    requires Discover(ct, base, xs).Ok?
    ensures Discover(ct, base, xs).value == Contributions(ct, base, xs)
  {
    if |xs| > 0 {
      DiscoverFollowsInterfaceOrder(ct, base, xs[1..]);
    }
  }

  /** The mixins contributed by `xs`, in order, reading a failure as no contribution. */
  function Contributions(ct: ClassTable, base: ClassName, xs: seq<ClassName>): seq<Mixin> {
    if |xs| == 0 then []
    else
      var c := Contribution(ct, base, xs[0]);
      (if c.Ok? && c.value.Some? then [c.value.value] else []) + Contributions(ct, base, xs[1..])
  }

  /** Interfaces without `@MixinType` are skipped. */
  lemma {:induction false} UnannotatedSkipped(ct: ClassTable, base: ClassName, xs: seq<ClassName>)
    requires forall i :: 0 <= i < |xs| ==> Get(ct, xs[i]).mixinType.None?
    ensures Discover(ct, base, xs) == Ok([])
  {
    if |xs| > 0 {
      UnannotatedSkipped(ct, base, xs[1..]);
    }
  }

  // ---------------------------------------------------------------------------------------
  // Factories and the cache
  // ---------------------------------------------------------------------------------------

  /** A factory of either mixer. */
  datatype Factory =
    | SourceFactory(source: SourceMixer.ClassFactory)
    | ProxyFactory(proxy: ProxyMixer.ProxyFactory)

  function FactoryBase(f: Factory): ClassName {
    match f
    case SourceFactory(s) => s.base
    case ProxyFactory(p) => p.base
  }

  /** `annotation.mixerClass().newInstance().getFactory(mixinBase, mixins)`: the two mixers of
      the library; any other mixer class cannot be loaded. */
  function MakeFactory(ct: ClassTable, mixerClass: ClassName, base: ClassName, mixins: seq<Mixin>,
                       compiles: string -> bool): (r: Result<Factory>)
    ensures mixerClass != ClassGeneratingMixerClass && mixerClass != DynamicProxyMixerClass ==>
              r == Err("Can't load mixer class '" + ClassDisplay(ct, mixerClass) + "'")
    ensures mixerClass == DynamicProxyMixerClass ==> r.Ok? && r.value.ProxyFactory?
    ensures mixerClass == ClassGeneratingMixerClass ==>
              (r.Ok? <==> compiles(SourceMixer.GeneratedSource(ct, base, mixins)))
    ensures r.Ok? ==> FactoryBase(r.value) == base
  {
    if mixerClass == ClassGeneratingMixerClass then
      var f :- SourceMixer.GetFactory(ct, base, mixins, compiles);
      Ok(SourceFactory(f))
    else if mixerClass == DynamicProxyMixerClass then
      Ok(ProxyFactory(ProxyMixer.GetFactory(ct, base, mixins)))
    else Err("Can't load mixer class '" + ClassDisplay(ct, mixerClass) + "'")
  }

  /** `MixinSupport`: the factory cache, keyed by base class. */
  datatype Engine = Engine(cache: map<ClassName, Factory>)

  datatype Lookup = Lookup(engine: Engine, factory: Factory)

  /** `getFactory(mixinBase)`: a cached factory is returned as it is, without looking at the
      class again; otherwise the annotation is read, the mixins are discovered, the factory
      is made by the annotation's mixer and stored under the base. */
  function GetFactory(ct: ClassTable, e: Engine, base: ClassName, compiles: string -> bool): (r: Result<Lookup>)
    ensures base in e.cache ==> r == Ok(Lookup(e, e.cache[base]))
    ensures base !in e.cache && InheritedMixinBase(ct, base).None? ==> r == Err(NotMixinBaseMessage(base))
    ensures base !in e.cache && InheritedMixinBase(ct, base).Some? && Discover(ct, base, Interfaces(ct, base)).Err? ==>
              r == Err(Discover(ct, base, Interfaces(ct, base)).message)
    ensures base !in e.cache && InheritedMixinBase(ct, base).Some? && Discover(ct, base, Interfaces(ct, base)).Ok? ==>
              var f := MakeFactory(ct, InheritedMixinBase(ct, base).value, base,
                                   Discover(ct, base, Interfaces(ct, base)).value, compiles);
              && (r.Ok? <==> f.Ok?)
              && (r.Err? ==> r.message == f.message)
    ensures r.Err? ==> base !in e.cache
    ensures base !in e.cache && r.Ok? ==>
              && InheritedMixinBase(ct, base).Some?
              && Discover(ct, base, Interfaces(ct, base)).Ok?
              && r.value.engine.cache == e.cache[base := r.value.factory]
              && MakeFactory(ct, InheritedMixinBase(ct, base).value, base,
                             Discover(ct, base, Interfaces(ct, base)).value, compiles).Ok?
              && r.value.factory == MakeFactory(ct, InheritedMixinBase(ct, base).value, base,
                                                Discover(ct, base, Interfaces(ct, base)).value, compiles).value
  {
    if base in e.cache then Ok(Lookup(e, e.cache[base]))
    else
      var mixer := GetMixinBaseAnnotation(ct, base);
      if mixer.Err? then Err(mixer.message)
      else
        var mixins := Discover(ct, base, Interfaces(ct, base));
        if mixins.Err? then Err(mixins.message)
        else
          var f := MakeFactory(ct, mixer.value, base, mixins.value, compiles);
          if f.Err? then Err(f.message)
          else Ok(Lookup(Engine(e.cache[base := f.value]), f.value))
  }

  /** The cache only ever holds, under each base, a factory for that base. */
  ghost predicate CacheConsistent(e: Engine) {
    forall b :: b in e.cache ==> FactoryBase(e.cache[b]) == b
  }

  /** A lookup keeps the cache consistent and answers with a factory for the base asked about. */
  lemma GetFactoryConsistent(ct: ClassTable, e: Engine, base: ClassName, compiles: string -> bool)
    requires CacheConsistent(e)
    requires GetFactory(ct, e, base, compiles).Ok?
    ensures CacheConsistent(GetFactory(ct, e, base, compiles).value.engine)
    ensures FactoryBase(GetFactory(ct, e, base, compiles).value.factory) == base
  {
  }

  /** A second lookup returns the factory the first one stored and changes nothing. */
  lemma GetFactoryIdempotent(ct: ClassTable, e: Engine, base: ClassName, compiles: string -> bool)
    requires GetFactory(ct, e, base, compiles).Ok?
    ensures var first := GetFactory(ct, e, base, compiles).value;
            GetFactory(ct, first.engine, base, compiles) == Ok(first)
  {
  }

  // ---------------------------------------------------------------------------------------
  // newInstanceOf and create
  // ---------------------------------------------------------------------------------------

  /** The result of a creation request: the engine afterwards (a factory may have been cached
      even when the creation then fails), the object or the error, and the next free identity. */
  datatype Outcome = Outcome(engine: Engine, obj: Result<Composed>, next: ObjectId)

  /** `factory.newInstance(types, args)` succeeds on `f`: the generated class has the
      constructor, or CGLib finds it and every delegate can be made. */
  predicate CanInstantiate(ct: ClassTable, f: Factory, types: seq<ClassName>, args: seq<Value>, next: ObjectId) {
    match f
    case SourceFactory(s) => SourceMixer.NewInstanceWith(ct, s, types, args, next).Ok?
    case ProxyFactory(p) => ProxyMixer.Creatable(ct, p, types, args)
  }

  /** `msg` is a failure `factory.newInstance(types, args)` can report. */
  predicate InstantiationFailure(ct: ClassTable, f: Factory, types: seq<ClassName>, args: seq<Value>, msg: string) {
    match f
    case SourceFactory(_) => msg == SourceMixer.ConstructionError
    case ProxyFactory(p) => ProxyMixer.CreationFailure(ct, p, types, args, msg)
  }

  /** `factory.newInstance(types, args)`, with the factory's new state stored back. */
  method FactoryNewInstance(ct: ClassTable, e: Engine, base: ClassName, f: Factory,
                            types: seq<ClassName>, args: seq<Value>, next: ObjectId)
    returns (r: Outcome)
    ensures r.obj.Ok? <==> CanInstantiate(ct, f, types, args, next)
    ensures r.obj.Err? ==> InstantiationFailure(ct, f, types, args, r.obj.message)
    ensures r.obj.Ok? ==> r.obj.value.id == next && r.obj.value.base == FactoryBase(f) && r.next > next
    ensures r.obj.Ok? ==> r.obj.value.constructorTypes == types
    ensures r.obj.Err? ==> r.engine == e && r.next == next
    ensures r.engine.cache.Keys == e.cache.Keys + (if r.obj.Ok? then {base} else {})
    ensures r.obj.Ok? ==> FactoryBase(r.engine.cache[base]) == FactoryBase(f)
    ensures forall b :: b in e.cache && b != base ==> r.engine.cache[b] == e.cache[b]
  {
    match f
    case SourceFactory(s) =>
      var c := SourceMixer.NewInstanceWith(ct, s, types, args, next);
      if c.Err? {
        return Outcome(e, Err(c.message), next);
      }
      return Outcome(Engine(e.cache[base := f]), Ok(c.value.obj), c.value.next);
    case ProxyFactory(p) =>
      var c := ProxyMixer.NewInstance(ct, p, types, args, next);
      if c.Err? {
        return Outcome(e, Err(c.message), next);
      }
      return Outcome(Engine(e.cache[base := ProxyFactory(c.value.factory)]), Ok(c.value.obj), c.value.next);
  }

  /** `newInstanceOf(mixinBase, constructorArgTypes, constructorArgs)`: the base is validated
      before any lookup; `newInstanceOf(mixinBase)` is the case of empty types and arguments. */
  method NewInstanceOf(ct: ClassTable, e: Engine, base: ClassName, types: seq<ClassName>, args: seq<Value>,
                       compiles: string -> bool, next: ObjectId)
    returns (r: Outcome)
    requires CacheConsistent(e)
    ensures ValidateMixinBase(ct, base).Err? ==>
              r == Outcome(e, Err(ValidateMixinBase(ct, base).message), next)
    ensures GetFactory(ct, e, base, compiles).Err? && ValidateMixinBase(ct, base).Ok? ==>
              r == Outcome(e, Err(GetFactory(ct, e, base, compiles).message), next)
    ensures ValidateMixinBase(ct, base).Ok? && GetFactory(ct, e, base, compiles).Ok? ==>
              var l := GetFactory(ct, e, base, compiles).value;
              && (r.obj.Ok? <==> CanInstantiate(ct, l.factory, types, args, next))
              && (r.obj.Err? ==> r.engine == l.engine && r.next == next
                                 && InstantiationFailure(ct, l.factory, types, args, r.obj.message))
    ensures r.obj.Ok? ==>
              && ValidateMixinBase(ct, base).Ok?
              && r.obj.value.id == next && r.obj.value.base == base
              && r.obj.value.constructorTypes == types
              && base in r.engine.cache
    ensures CacheConsistent(r.engine)
  {
    var v := ValidateMixinBase(ct, base);
    if v.Err? {
      return Outcome(e, Err(v.message), next);
    }
    var l := GetFactory(ct, e, base, compiles);
    if l.Err? {
      return Outcome(e, Err(l.message), next);
    }
    GetFactoryConsistent(ct, e, base, compiles);
    r := FactoryNewInstance(ct, l.value.engine, base, l.value.factory, types, args, next);
    if r.obj.Err? {
      // the factory stays cached even though the creation failed
      r := r.(engine := l.value.engine);
    }
  }

  /** `newInstanceOf(mixinBase, constructorArgs)`: after validation the argument types are
      those of the one declared constructor taking that many arguments. */
  method NewInstanceOfArgs(ct: ClassTable, e: Engine, base: ClassName, args: seq<Value>,
                           compiles: string -> bool, next: ObjectId)
    returns (r: Outcome)
    requires CacheConsistent(e)
    ensures ValidateMixinBase(ct, base).Err? ==>
              r == Outcome(e, Err(ValidateMixinBase(ct, base).message), next)
    ensures ValidateMixinBase(ct, base).Ok? && CountWithArity(Get(ct, base).constructors, |args|) == 0 ==>
              r == Outcome(e, Err(MissingMessage(base, |args|)), next)
    ensures ValidateMixinBase(ct, base).Ok? && CountWithArity(Get(ct, base).constructors, |args|) >= 2 ==>
              r == Outcome(e, Err(AmbiguousMessage(base, |args|)), next)
    ensures r.obj.Ok? ==>
              && CountWithArity(Get(ct, base).constructors, |args|) == 1
              && |r.obj.value.constructorTypes| == |args|
              && (exists i :: 0 <= i < |Get(ct, base).constructors|
                             && Get(ct, base).constructors[i].params == r.obj.value.constructorTypes)
              && r.obj.value.id == next && r.obj.value.base == base
    ensures ValidateMixinBase(ct, base).Ok? && CountWithArity(Get(ct, base).constructors, |args|) == 1 ==>
              && (GetFactory(ct, e, base, compiles).Err? ==>
                    r == Outcome(e, Err(GetFactory(ct, e, base, compiles).message), next))
              && (GetFactory(ct, e, base, compiles).Ok? ==>
                    var l := GetFactory(ct, e, base, compiles).value;
                    forall i :: 0 <= i < |Get(ct, base).constructors| && |Get(ct, base).constructors[i].params| == |args| ==>
                      && (r.obj.Ok? <==> CanInstantiate(ct, l.factory, Get(ct, base).constructors[i].params, args, next))
                      && (r.obj.Err? ==> r.engine == l.engine && r.next == next
                                         && InstantiationFailure(ct, l.factory, Get(ct, base).constructors[i].params, args, r.obj.message)))
    ensures CacheConsistent(r.engine)
  {
    var v := ValidateMixinBase(ct, base);
    if v.Err? {
      return Outcome(e, Err(v.message), next);
    }
    var types := GetConstructorArgTypes(ct, base, |args|);
    if types.Err? {
      return Outcome(e, Err(types.message), next);
    }
    r := NewInstanceOf(ct, e, base, types.value, args, compiles, next);
    UniqueArity(ct, base, |args|, types.value);
  }

  /** With one constructor of the arity, every constructor of that arity has its parameters. */
  lemma UniqueArity(ct: ClassTable, base: ClassName, length: int, types: seq<ClassName>)
    requires CountWithArity(Get(ct, base).constructors, length) == 1
    requires exists k :: 0 <= k < |Get(ct, base).constructors| && Get(ct, base).constructors[k].params == types
    requires |types| == length
    ensures forall i :: 0 <= i < |Get(ct, base).constructors| && |Get(ct, base).constructors[i].params| == length ==>
              Get(ct, base).constructors[i].params == types
  {
    var ctors := Get(ct, base).constructors;
    var k :| 0 <= k < |ctors| && ctors[k].params == types;
    forall i | 0 <= i < |ctors| && |ctors[i].params| == length
      ensures ctors[i].params == types
    {
      if i < k {
        CountWithArityTwo(ctors, length, i, k);
      } else if k < i {
        CountWithArityTwo(ctors, length, k, i);
      }
    }
  }

  /** `create(mixinBase, constructorArgs...)`: the varargs form of the previous overload. */
  method Create(ct: ClassTable, e: Engine, base: ClassName, args: seq<Value>, compiles: string -> bool, next: ObjectId)
    returns (r: Outcome)
    requires CacheConsistent(e)
    ensures ValidateMixinBase(ct, base).Err? ==>
              r == Outcome(e, Err(ValidateMixinBase(ct, base).message), next)
    ensures ValidateMixinBase(ct, base).Ok? && CountWithArity(Get(ct, base).constructors, |args|) == 0 ==>
              r == Outcome(e, Err(MissingMessage(base, |args|)), next)
    ensures ValidateMixinBase(ct, base).Ok? && CountWithArity(Get(ct, base).constructors, |args|) >= 2 ==>
              r == Outcome(e, Err(AmbiguousMessage(base, |args|)), next)
    ensures r.obj.Ok? ==>
              && CountWithArity(Get(ct, base).constructors, |args|) == 1
              && |r.obj.value.constructorTypes| == |args|
              && (exists i :: 0 <= i < |Get(ct, base).constructors|
                             && Get(ct, base).constructors[i].params == r.obj.value.constructorTypes)
              && r.obj.value.id == next && r.obj.value.base == base
    ensures ValidateMixinBase(ct, base).Ok? && CountWithArity(Get(ct, base).constructors, |args|) == 1 ==>
              && (GetFactory(ct, e, base, compiles).Err? ==>
                    r == Outcome(e, Err(GetFactory(ct, e, base, compiles).message), next))
              && (GetFactory(ct, e, base, compiles).Ok? ==>
                    var l := GetFactory(ct, e, base, compiles).value;
                    forall i :: 0 <= i < |Get(ct, base).constructors| && |Get(ct, base).constructors[i].params| == |args| ==>
                      && (r.obj.Ok? <==> CanInstantiate(ct, l.factory, Get(ct, base).constructors[i].params, args, next))
                      && (r.obj.Err? ==> r.engine == l.engine && r.next == next
                                         && InstantiationFailure(ct, l.factory, Get(ct, base).constructors[i].params, args, r.obj.message)))
    ensures CacheConsistent(r.engine)
  {
    r := NewInstanceOfArgs(ct, e, base, args, compiles, next);
  }

  // ---------------------------------------------------------------------------------------
  // getSingleton
  // ---------------------------------------------------------------------------------------

  /** `getSingleton()`: the static field is filled on the first call with an engine whose cache
      is empty, and returned as it is afterwards. The field is the state threaded through. */
  function GetSingleton(field: Option<Engine>): (r: (Engine, Option<Engine>))
    ensures r.1 == Some(r.0)
    ensures field.Some? ==> r.0 == field.value
    ensures field.None? ==> r.0.cache == map[]
  {
    match field
    case Some(e) => (e, field)
    case None => (Engine(map[]), Some(Engine(map[])))
  }

  /** Every call after the first returns the instance the first call made. */
  lemma SingletonStable(field: Option<Engine>)
    ensures var (first, after) := GetSingleton(field);
            GetSingleton(after) == (first, after)
  {
  }
}

=== FILE: generic_source.dfy ===
/** `GenericParameterImplementationSource`: the implementation of a mixin type is read from the
    single type argument the base class supplies where it declares the mixin type, as in
    `class Base implements MixinType<MixinImpl>`. */
module GenericSource {
  import opened Results
  import opened Classes

  /** `r` is a parameterized reference whose raw type is `iface`. */
  predicate Declares(r: InterfaceRef, iface: ClassName) {
    r.ParameterizedInterface? && r.name == iface
  }

  /** Position of the first parameterized reference to `iface`; raw references are passed over. */
  function FirstDeclaration(refs: seq<InterfaceRef>, iface: ClassName): (k: Option<nat>)
    ensures k.Some? ==>
              && k.value < |refs|
              && Declares(refs[k.value], iface)
              && forall j :: 0 <= j < k.value ==> !Declares(refs[j], iface)
    ensures k.None? ==> forall j :: 0 <= j < |refs| ==> !Declares(refs[j], iface)
  {
    if |refs| == 0 then None
    else if Declares(refs[0], iface) then Some(0)
    else
      match FirstDeclaration(refs[1..], iface)
      case None => None
      case Some(k) => Some(k + 1)
  }

  /** The ways a specification `MixinType<...>` can be wrong, in the order they are checked. */
  datatype SpecDefect =
    | NoArgument
    | TooManyArguments
    | GenericArgument
    | NotAnImplementation
    | InterfaceArgument
    | AbstractArgument

  /** A proper specification: exactly one argument, a plain class that implements the mixin
      type and is neither an interface nor abstract. */
  predicate ProperSpec(ct: ClassTable, iface: ClassName, args: seq<TypeArg>) {
    && |args| == 1
    && args[0].ClassArg?
    && IsAssignableFrom(ct, iface, args[0].name)
    && !Get(ct, args[0].name).isInterface
    && !Get(ct, args[0].name).isAbstract
  }

  /** The first check of `getImplementationFromParameterizedType` that `args` fails. */
  function SpecDefectOf(ct: ClassTable, iface: ClassName, args: seq<TypeArg>): (d: Option<SpecDefect>)
    ensures d.None? <==> ProperSpec(ct, iface, args)
    ensures d == Some(NoArgument) <==> |args| == 0
    ensures d == Some(TooManyArguments) <==> |args| > 1
    ensures d == Some(GenericArgument) <==> |args| == 1 && !args[0].ClassArg?
    ensures d == Some(NotAnImplementation) <==>
              |args| == 1 && args[0].ClassArg? && !IsAssignableFrom(ct, iface, args[0].name)
    ensures d == Some(InterfaceArgument) <==>
              |args| == 1 && args[0].ClassArg? && IsAssignableFrom(ct, iface, args[0].name)
              && Get(ct, args[0].name).isInterface
    ensures d == Some(AbstractArgument) <==>
              |args| == 1 && args[0].ClassArg? && IsAssignableFrom(ct, iface, args[0].name)
              && !Get(ct, args[0].name).isInterface && Get(ct, args[0].name).isAbstract
  {
    if |args| == 0 then Some(NoArgument)
    else if |args| > 1 then Some(TooManyArguments)
    else if !args[0].ClassArg? then Some(GenericArgument)
    else if !IsAssignableFrom(ct, iface, args[0].name) then Some(NotAnImplementation)
    else if Get(ct, args[0].name).isInterface then Some(InterfaceArgument)
    else if Get(ct, args[0].name).isAbstract then Some(AbstractArgument)
    else None
  }

  const SpecPrefix := "Invalid mix specification. The proper form is MixinType<MixinImpl>."

  /** The explanation of a defect; a wrong implementation is named in the text. */
  function SpecReason(ct: ClassTable, iface: ClassName, args: seq<TypeArg>, d: SpecDefect): string {
    match d
    case NoArgument => "does not take an argument"
    case TooManyArguments => "takes too many arguments"
    case GenericArgument => "the mixin implementation must not be generic"
    case NotAnImplementation =>
      "the mixin implementation '" + (if |args| > 0 then TypeString(ct, args[0]) else "")
      + "' does not implement the mixin type '" + ClassDisplay(ct, iface) + "'"
    case InterfaceArgument => "the mixin implementation must be a class, not an interface"
    case AbstractArgument => "the mixin implementation must not be abstract"
  }

  /** `rejectSpec(pInterface, reason)`. */
  function RejectSpec(ct: ClassTable, spec: InterfaceRef, reason: string): (m: string)
    ensures |m| >= |SpecPrefix| && m[..|SpecPrefix|] == SpecPrefix
  {
    SpecPrefix + " The provided specification - " + InterfaceRefString(ct, spec) + " - " + reason
  }

  /** `getImplementationFromParameterizedType`: on success the single type argument itself,
      otherwise the rejection for the first failed check. */
  function ImplementationFromParameterizedType(ct: ClassTable, iface: ClassName, spec: InterfaceRef): (r: Result<ClassName>)
    requires spec.ParameterizedInterface?
    ensures r.Ok? <==> ProperSpec(ct, iface, spec.args)
    ensures r.Ok? ==> spec.args == [ClassArg(r.value)]
    ensures r.Err? ==>
              && SpecDefectOf(ct, iface, spec.args).Some?
              && r.message == RejectSpec(ct, spec, SpecReason(ct, iface, spec.args, SpecDefectOf(ct, iface, spec.args).value))
  {
    match SpecDefectOf(ct, iface, spec.args)
    case Some(d) => Err(RejectSpec(ct, spec, SpecReason(ct, iface, spec.args, d)))
    case None => Ok(spec.args[0].name)
  }

  function NotImplementedMessage(iface: ClassName, declaringClass: ClassName): string {
    "Class '" + declaringClass + "' does not implement the interface '" + iface + "'"
  }

  /** `getImplementation(declaredInterface, declaringClass)`: only the direct generic interfaces
      of the declaring class are looked at, and the first parameterized one whose raw type is
      the declared interface decides. */
  function GetImplementation(ct: ClassTable, iface: ClassName, declaringClass: ClassName): (r: Result<ClassName>)
    ensures FirstDeclaration(Get(ct, declaringClass).interfaces, iface).None? ==>
              r == Err(NotImplementedMessage(iface, declaringClass))
    ensures FirstDeclaration(Get(ct, declaringClass).interfaces, iface).Some? ==>
              var spec := Get(ct, declaringClass).interfaces[FirstDeclaration(Get(ct, declaringClass).interfaces, iface).value];
              && (r.Ok? <==> ProperSpec(ct, iface, spec.args))
              && (r.Ok? ==> spec.args == [ClassArg(r.value)])
              && (r.Err? ==> |r.message| >= |SpecPrefix| && r.message[..|SpecPrefix|] == SpecPrefix)
  {
    var refs := Get(ct, declaringClass).interfaces;
    match FirstDeclaration(refs, iface)
    case None => Err(NotImplementedMessage(iface, declaringClass))
    case Some(k) => ImplementationFromParameterizedType(ct, iface, refs[k])
  }

  /** A successful resolution is a concrete class implementing the declared interface. */
  lemma ResolvedIsConcreteImplementation(ct: ClassTable, iface: ClassName, declaringClass: ClassName)
    requires GetImplementation(ct, iface, declaringClass).Ok?
    ensures var impl := GetImplementation(ct, iface, declaringClass).value;
            && IsAssignableFrom(ct, iface, impl)
            && !Get(ct, impl).isInterface
            && !Get(ct, impl).isAbstract
  {
    var refs := Get(ct, declaringClass).interfaces;
    var k := FirstDeclaration(refs, iface).value;
    assert ProperSpec(ct, iface, refs[k].args);
  }

  /** `Dynamic` gets no special treatment: it is a final class without supertypes, so a base
      declaring `MixinType<Dynamic>` is rejected because `Dynamic` does not implement the type. */
  lemma {:induction false} DynamicIsRejected(ct: ClassTable, iface: ClassName, declaringClass: ClassName)
    requires Supertypes(ct, DynamicClass) == []
    requires iface != DynamicClass && iface != ObjectClass
    requires var k := FirstDeclaration(Get(ct, declaringClass).interfaces, iface);
             k.Some? && Get(ct, declaringClass).interfaces[k.value].args == [ClassArg(DynamicClass)]
    ensures GetImplementation(ct, iface, declaringClass).Err?
    ensures SpecDefectOf(ct, iface, [ClassArg(DynamicClass)]) == Some(NotAnImplementation)
  {
    RootAssignableOnlyToItself(ct, iface, DynamicClass);
  }
}

=== FILE: mixin.dfy ===
/** The mixin descriptor (`Mixin`): a mixin type interface paired with the concrete class that
    implements it, validated against the base class it is going to be mixed into. */
module Descriptors {
  import opened Results
  import opened Classes

  /** A validated descriptor. The base class takes part in validation but is not stored. */
  datatype Mixin = Mixin(mixinType: ClassName, mixinImpl: ClassName)

  /** The requirement a class fails, in the order the checks are made. */
  datatype Defect =
    | NotAnImplementation                     // the mixin type is not assignable from it
    | NotAClass                               // it is an interface
    | AbstractnessMismatch(wantAbstract: bool)

  /** The class `c` implements `mixinType`, is a class and has the wanted abstractness
      (the implementation must be concrete, the base abstract). */
  predicate Fits(ct: ClassTable, mixinType: ClassName, c: ClassName, wantAbstract: bool) {
    && IsAssignableFrom(ct, mixinType, c)
    && !Get(ct, c).isInterface
    && Get(ct, c).isAbstract == wantAbstract
  }

  /** The first defect of `c` in the order: assignability, interface-ness, abstractness. */
  function DefectOf(ct: ClassTable, mixinType: ClassName, c: ClassName, wantAbstract: bool): (d: Option<Defect>)
    ensures d.None? <==> Fits(ct, mixinType, c, wantAbstract)
    ensures d == Some(NotAnImplementation) <==> !IsAssignableFrom(ct, mixinType, c)
    ensures d == Some(NotAClass) <==> IsAssignableFrom(ct, mixinType, c) && Get(ct, c).isInterface
    ensures d == Some(AbstractnessMismatch(wantAbstract)) <==>
              IsAssignableFrom(ct, mixinType, c) && !Get(ct, c).isInterface && Get(ct, c).isAbstract != wantAbstract
    ensures d.Some? && d.value.AbstractnessMismatch? ==> d.value.wantAbstract == wantAbstract
  {
    if !IsAssignableFrom(ct, mixinType, c) then Some(NotAnImplementation)
    else if Get(ct, c).isInterface then Some(NotAClass)
    else if Get(ct, c).isAbstract != wantAbstract then Some(AbstractnessMismatch(wantAbstract))
    else None
  }

  function Reason(d: Defect): string {
    match d
    case NotAnImplementation => "does not implement the mixin type as an interface"
    case NotAClass => "is an interface, not a class"
    case AbstractnessMismatch(wantAbstract) => if wantAbstract then "is not abstract" else "is abstract"
  }

  function DescriptorMessage(mixinType: ClassName, role: string, c: ClassName, d: Defect): string {
    "Can't apply mixin type " + mixinType + " because the " + role + " class " + c + " " + Reason(d) + "."
  }

  /** `requireConcreteImplementationOfType`: nothing on success, the message of the first
      failing check otherwise. */
  function RequireConcreteImplementationOfType(
    ct: ClassTable, mixinType: ClassName, c: ClassName, role: string, wantAbstract: bool): (r: Result<()>)
    ensures r.Ok? <==> Fits(ct, mixinType, c, wantAbstract)
    ensures r.Err? ==>
              && DefectOf(ct, mixinType, c, wantAbstract).Some?
              && r.message == DescriptorMessage(mixinType, role, c, DefectOf(ct, mixinType, c, wantAbstract).value)
  {
    match DefectOf(ct, mixinType, c, wantAbstract)
    case None => Ok(())
    case Some(d) => Err(DescriptorMessage(mixinType, role, c, d))
  }

  const ImplementationRole := "mixin implementation"
  const BaseRole := "mixin base"

  /** The constructor `new Mixin(mixinType, mixinImpl, mixinBase)`: the implementation is
      checked first (it must be a concrete class implementing the type), then the base (it
      must be an abstract class implementing the type). */
  function NewMixin(ct: ClassTable, mixinType: ClassName, mixinImpl: ClassName, mixinBase: ClassName): (r: Result<Mixin>)
    ensures r.Ok? <==> Fits(ct, mixinType, mixinImpl, false) && Fits(ct, mixinType, mixinBase, true)
    ensures r.Ok? ==> r.value.mixinType == mixinType && r.value.mixinImpl == mixinImpl
    ensures !Fits(ct, mixinType, mixinImpl, false) ==>
              r == Err(DescriptorMessage(mixinType, ImplementationRole, mixinImpl,
                                         DefectOf(ct, mixinType, mixinImpl, false).value))
    ensures Fits(ct, mixinType, mixinImpl, false) && !Fits(ct, mixinType, mixinBase, true) ==>
              r == Err(DescriptorMessage(mixinType, BaseRole, mixinBase,
                                         DefectOf(ct, mixinType, mixinBase, true).value))
  {
    var _ :- RequireConcreteImplementationOfType(ct, mixinType, mixinImpl, ImplementationRole, false);
    var _ :- RequireConcreteImplementationOfType(ct, mixinType, mixinBase, BaseRole, true);
    Ok(Mixin(mixinType, mixinImpl))
  }
}

=== FILE: objects.dfy ===
/** Run-time objects of the model. Object identity is a number handed out by a counter that
    every operation creating objects threads through. */
module Objects {
  import opened Classes

  type ObjectId = nat

  /** A constructor argument value; the engine passes these through without looking at them. */
  datatype Value = IntValue(i: int) | StringValue(s: string) | Reference(id: ObjectId) | Null

  /** An instance of a mixin implementation class. `mixinBaseCalls` records, oldest first, the
      object passed to every `setMixinBase` call the instance has received. */
  datatype Delegate = Delegate(id: ObjectId, impl: ClassName, mixinBaseCalls: seq<ObjectId>)

  /** A composed object: an instance of the generated or proxy subclass `runtimeClass` of
      `base`, built through the constructor with parameter types `constructorTypes`, together with
      the delegate instances it owns. */
  datatype Composed = Composed(
    id: ObjectId,
    runtimeClass: ClassName,
    base: ClassName,
    constructorTypes: seq<ClassName>,
    args: seq<Value>,
    delegates: seq<Delegate>)
}

=== FILE: proxy_mixer.dfy ===
/** `DynamicProxyMixer`: the mixed object is a run-time subclass of the base (a CGLib proxy)
    whose every call goes through `DelegatingMethodInterceptor.intercept`. The interceptor
    holds the map from interfaces to implementation classes built once per factory, and a
    delegate map per registered object. CGLib itself is outside the model. */
module ProxyMixer {
  import opened Results
  import opened Classes
  import opened Objects
  import opened Descriptors
  import opened MixinUtils
  import opened Seqs

  // ---------------------------------------------------------------------------------------
  // getAllInterfacesForClass
  // ---------------------------------------------------------------------------------------

  /** `getAllInterfacesForClass(type, list)`: the type itself, then, for each direct
      superinterface in declaration order, its own list. Interfaces reached twice appear twice. */
  function AllInterfaces(ct: ClassTable, t: ClassName): (r: seq<ClassName>)
    ensures |r| >= 1 && r[0] == t
    decreases Rank(ct, t), 1
  {
    [t] + AllOf(ct, t, Interfaces(ct, t))
  }

  /** The lists of the interfaces `xs` of `t`, one after the other. */
  function AllOf(ct: ClassTable, t: ClassName, xs: seq<ClassName>): seq<ClassName>
    decreases Rank(ct, t), 0, |xs|
  {
    if |xs| == 0 then []
    else (if Rank(ct, xs[0]) < Rank(ct, t) then AllInterfaces(ct, xs[0]) else []) + AllOf(ct, t, xs[1..])
  }

  /** Everything in the list of `t` is a supertype of `t` (or `t` itself). */
  lemma {:induction false} AllInterfacesAssignable(ct: ClassTable, t: ClassName, x: ClassName)
    requires x in AllInterfaces(ct, t)
    ensures IsAssignableFrom(ct, x, t)
    decreases Rank(ct, t), 1
  {
    if x != t {
      AllOfAssignable(ct, t, Interfaces(ct, t), x);
    }
  }

  lemma {:induction false} AllOfAssignable(ct: ClassTable, t: ClassName, xs: seq<ClassName>, x: ClassName)
    requires forall i :: 0 <= i < |xs| ==> xs[i] in Supertypes(ct, t)
    requires x in AllOf(ct, t, xs)
    ensures IsAssignableFrom(ct, x, t)
    decreases Rank(ct, t), 0, |xs|
  {
    var own := if Rank(ct, xs[0]) < Rank(ct, t) then AllInterfaces(ct, xs[0]) else [];
    if x in own {
      AllInterfacesAssignable(ct, xs[0], x);
      assert xs[0] in Supertypes(ct, t);
    } else {
      AllOfAssignable(ct, t, xs[1..], x);
    }
  }

  /** The lists of each of `xs`, one block per interface. */
  function InterfaceLists(ct: ClassTable, xs: seq<ClassName>): (bs: seq<seq<ClassName>>)
    ensures |bs| == |xs|
    ensures forall j :: 0 <= j < |xs| ==> bs[j] == AllInterfaces(ct, xs[j])
  {
    seq(|xs|, j requires 0 <= j < |xs| => AllInterfaces(ct, xs[j]))
  }

  /** In a ranked table the list is a preorder: the type, then the whole list of each direct
      superinterface in declaration order. */
  lemma AllInterfacesPreorder(ct: ClassTable, t: ClassName)
    requires Ranked(ct) && t in ct
    ensures AllInterfaces(ct, t) == [t] + Flatten(InterfaceLists(ct, Interfaces(ct, t)))
  {
    var xs := Interfaces(ct, t);
    forall j | 0 <= j < |xs|
      ensures Rank(ct, xs[j]) < Rank(ct, t)
    {
      assert xs[j] in Supertypes(ct, t);
    }
    AllOfFlatten(ct, t, xs);
  }

  lemma {:induction false} AllOfFlatten(ct: ClassTable, t: ClassName, xs: seq<ClassName>)
    requires forall j :: 0 <= j < |xs| ==> Rank(ct, xs[j]) < Rank(ct, t)
    ensures AllOf(ct, t, xs) == Flatten(InterfaceLists(ct, xs))
  {
    if |xs| > 0 {
      AllOfFlatten(ct, t, xs[1..]);
      assert InterfaceLists(ct, xs)[1..] == InterfaceLists(ct, xs[1..]);
    }
  }

  // ---------------------------------------------------------------------------------------
  // The interface-to-implementation map built by getFactory
  // ---------------------------------------------------------------------------------------

  /** The mixin's implementation serves `k`: `k` is in the list of the mixin type and is a
      supertype of the implementation. */
  predicate Covers(ct: ClassTable, m: Mixin, k: ClassName) {
    k in AllInterfaces(ct, m.mixinType) && IsAssignableFrom(ct, k, m.mixinImpl)
  }

  /** The inner loop: every listed interface the implementation is assignable to is mapped to
      it, replacing what was there. */
  function PutAll(ct: ClassTable, acc: map<ClassName, ClassName>, list: seq<ClassName>, impl: ClassName): (r: map<ClassName, ClassName>)
    ensures forall k :: k in r <==> k in acc || (k in list && IsAssignableFrom(ct, k, impl))
    ensures forall k :: k in r ==> r[k] == if k in list && IsAssignableFrom(ct, k, impl) then impl else acc[k]
    decreases |list|
  {
    if |list| == 0 then acc
    else
      var acc' := if IsAssignableFrom(ct, list[0], impl) then acc[list[0] := impl] else acc;
      PutAll(ct, acc', list[1..], impl)
  }

  /** The position of the last mixin that covers `k`. */
  function LastCovering(ct: ClassTable, ms: seq<Mixin>, k: ClassName): (r: Option<nat>)
    ensures r.Some? ==>
              && r.value < |ms| && Covers(ct, ms[r.value], k)
              && forall j :: r.value < j < |ms| ==> !Covers(ct, ms[j], k)
    ensures r.None? ==> forall j :: 0 <= j < |ms| ==> !Covers(ct, ms[j], k)
  {
    if |ms| == 0 then None
    else if Covers(ct, ms[|ms| - 1], k) then Some(|ms| - 1)
    else LastCovering(ct, ms[..|ms| - 1], k)
  }

  /** The map after the outer loop over the mixins: `k` is mapped iff some mixin covers it, and
      to the implementation of the last one that does (later mixins overwrite earlier ones). */
  function ImplementationMap(ct: ClassTable, ms: seq<Mixin>): (r: map<ClassName, ClassName>)
    ensures forall k :: k in r <==> LastCovering(ct, ms, k).Some?
    ensures forall k :: k in r ==> r[k] == ms[LastCovering(ct, ms, k).value].mixinImpl
  {
    if |ms| == 0 then map[]
    else
      var prev := ImplementationMap(ct, ms[..|ms| - 1]);
      var last := ms[|ms| - 1];
      PutAll(ct, prev, AllInterfaces(ct, last.mixinType), last.mixinImpl)
  }

  /** `k` is mapped exactly when some mixin covers it. */
  lemma MappedIffCovered(ct: ClassTable, ms: seq<Mixin>, k: ClassName)
    ensures k in ImplementationMap(ct, ms) <==> exists i :: 0 <= i < |ms| && Covers(ct, ms[i], k)
  {
    if k in ImplementationMap(ct, ms) {
      var i := LastCovering(ct, ms, k).value;
      assert Covers(ct, ms[i], k);
    }
  }

  /** The mixin type of every validated mixin is mapped, so a call of one of its own methods
      is always delegated. */
  lemma ValidMixinTypeMapped(ct: ClassTable, ms: seq<Mixin>, i: nat)
    requires i < |ms| && IsAssignableFrom(ct, ms[i].mixinType, ms[i].mixinImpl)
    ensures ms[i].mixinType in ImplementationMap(ct, ms)
  {
    assert Covers(ct, ms[i], ms[i].mixinType);
    MappedIffCovered(ct, ms, ms[i].mixinType);
  }

  /** Every mapped implementation implements its key. */
  lemma MappedImplementationsAssignable(ct: ClassTable, ms: seq<Mixin>, k: ClassName)
    requires k in ImplementationMap(ct, ms)
    ensures IsAssignableFrom(ct, k, ImplementationMap(ct, ms)[k])
  {
    var i := LastCovering(ct, ms, k).value;
    assert Covers(ct, ms[i], k);
  }

  // ---------------------------------------------------------------------------------------
  // The interceptor and the factory
  // ---------------------------------------------------------------------------------------

  /** `DelegatingMethodInterceptor`: the map built by `getFactory` and the delegate map of
      every registered object. Two entries hold the same instance when their ids agree. */
  datatype Interceptor = Interceptor(
    implFor: map<ClassName, ClassName>,
    delegateMaps: map<ObjectId, map<ClassName, Delegate>>)

  /** `CGLibEnhancerFactory`: the base class the proxies extend, and their interceptor. */
  datatype ProxyFactory = ProxyFactory(base: ClassName, interceptor: Interceptor)

  /** `getFactory(mixinBase, mixins)`: nothing is instantiated yet; an interface is mapped
      exactly when a mixin covers it, to the implementation of the last such mixin. */
  function GetFactory(ct: ClassTable, base: ClassName, ms: seq<Mixin>): (f: ProxyFactory)
    ensures f.base == base && f.interceptor.delegateMaps == map[]
    ensures forall k :: k in f.interceptor.implFor <==> LastCovering(ct, ms, k).Some?
    ensures forall k :: k in f.interceptor.implFor ==> f.interceptor.implFor[k] == ms[LastCovering(ct, ms, k).value].mixinImpl
  {
    ProxyFactory(base, Interceptor(ImplementationMap(ct, ms), map[]))
  }

  /** `getFactory(mixinBase, mixin)`: the one-element list. */
  function GetFactoryForMixin(ct: ClassTable, base: ClassName, m: Mixin): (f: ProxyFactory)
    ensures f.base == base && f.interceptor.delegateMaps == map[]
    ensures forall k :: k in f.interceptor.implFor <==> Covers(ct, m, k)
    ensures forall k :: k in f.interceptor.implFor ==> f.interceptor.implFor[k] == m.mixinImpl
  {
    GetFactory(ct, base, [m])
  }

  // ---------------------------------------------------------------------------------------
  // createDelegateMap
  // ---------------------------------------------------------------------------------------

  const InstantiationError := "Could not create mixin implementation instance"

  /** `implementationClass.newInstance()` succeeds: there is an accessible no-argument
      constructor. */
  predicate Instantiable(ct: ClassTable, impl: ClassName) {
    exists c :: c in Get(ct, impl).constructors && c.params == [] && !c.isPrivate
  }

  /** An implementation class can be turned into a delegate of a new object: it can be
      instantiated and, if `MixinAware`, its constraints can be read. */
  predicate Deliverable(ct: ClassTable, impl: ClassName) {
    Instantiable(ct, impl) && (IsMixinAware(ct, impl) ==> AwareConstraintsPresent(Get(ct, impl).interfaces))
  }

  /** The failure reported for an implementation class that cannot be delivered: it cannot be
      instantiated, or it declares a parameterized `MixinAware` reference with no type argument. */
  function DeliveryError(ct: ClassTable, impl: ClassName): string {
    if !Instantiable(ct, impl) then InstantiationError else MissingTypeArgError
  }

  /** The instance of `impl` made for the new object `obj`: a `MixinAware` one has been handed
      the object once. */
  function NewDelegate(ct: ClassTable, id: ObjectId, impl: ClassName, obj: ObjectId): Delegate {
    Delegate(id, impl, if IsMixinAware(ct, impl) then [obj] else [])
  }

  /** What `createDelegateMap` produced: the delegate map and the next free identity. */
  datatype Delegation = Delegation(delegates: map<ClassName, Delegate>, next: ObjectId)

  /** The promise of `createDelegateMap`: every mapped interface gets a fresh instance of its
      implementation class, and two interfaces share an instance exactly when they share the
      class. */
  ghost predicate DelegationFor(ct: ClassTable, implFor: map<ClassName, ClassName>, obj: ObjectId, next: ObjectId, d: Delegation) {
    && d.delegates.Keys == implFor.Keys
    && next <= d.next
    && (forall k :: k in implFor ==>
          && d.delegates[k] == NewDelegate(ct, d.delegates[k].id, implFor[k], obj)
          && next <= d.delegates[k].id < d.next)
    && (forall k1, k2 :: k1 in implFor && k2 in implFor ==>
          (d.delegates[k1].id == d.delegates[k2].id <==> implFor[k1] == implFor[k2]))
  }

  /** The state of the loop in `createDelegateMap`: the delegate map so far, the instance made
      for each implementation class so far, and the next free identity. */
  datatype Progress = Progress(delegates: map<ClassName, Delegate>, byImpl: map<ClassName, Delegate>, n: ObjectId)

  /** The loop invariant, while the keys `remaining` are still to be visited. */
  ghost predicate Inv(ct: ClassTable, implFor: map<ClassName, ClassName>, obj: ObjectId, next: ObjectId,
                      remaining: set<ClassName>, p: Progress) {
    && remaining <= implFor.Keys
    && p.delegates.Keys == implFor.Keys - remaining
    && next <= p.n
    && Visited(ct, implFor, remaining, p)
    && Made(ct, obj, next, p)
    && DistinctIds(p)
  }

  /** Every visited key has the instance made for its class. */
  ghost predicate Visited(ct: ClassTable, implFor: map<ClassName, ClassName>, remaining: set<ClassName>, p: Progress) {
    forall k :: k in implFor && k !in remaining ==>
      Deliverable(ct, implFor[k]) && implFor[k] in p.byImpl && k in p.delegates && p.delegates[k] == p.byImpl[implFor[k]]
  }

  /** Every instance made is a new delegate of a deliverable class, numbered in `next..p.n`. */
  ghost predicate Made(ct: ClassTable, obj: ObjectId, next: ObjectId, p: Progress) {
    forall c :: c in p.byImpl ==>
      && Deliverable(ct, c)
      && p.byImpl[c] == NewDelegate(ct, p.byImpl[c].id, c, obj)
      && next <= p.byImpl[c].id < p.n
  }

  /** Instances of different classes are different objects. */
  ghost predicate DistinctIds(p: Progress) {
    forall c1, c2 :: c1 in p.byImpl && c2 in p.byImpl && c1 != c2 ==> p.byImpl[c1].id != p.byImpl[c2].id
  }

  lemma VisitedExtend(ct: ClassTable, implFor: map<ClassName, ClassName>, remaining: set<ClassName>,
                      p: Progress, k: ClassName, d: Delegate, n: ObjectId)
    requires Visited(ct, implFor, remaining, p) && k in implFor
    requires implFor[k] !in p.byImpl && Deliverable(ct, implFor[k])
    ensures Visited(ct, implFor, remaining - {k}, Progress(p.delegates[k := d], p.byImpl[implFor[k] := d], n))
  {
  }

  lemma MadeExtend(ct: ClassTable, obj: ObjectId, next: ObjectId, p: Progress, impl: ClassName)
    requires Made(ct, obj, next, p) && next <= p.n && Deliverable(ct, impl)
    ensures Made(ct, obj, next, Progress(p.delegates, p.byImpl[impl := NewDelegate(ct, p.n, impl, obj)], p.n + 1))
  {
  }

  lemma DistinctExtend(ct: ClassTable, obj: ObjectId, next: ObjectId, p: Progress, impl: ClassName, d: Delegate)
    requires Made(ct, obj, next, p) && DistinctIds(p) && impl !in p.byImpl && d.id == p.n
    ensures DistinctIds(Progress(p.delegates, p.byImpl[impl := d], p.n + 1))
  {
  }

  /** One iteration: the key `k` gets the instance of its implementation class, made now
      (with its `MixinAware` handling) if this is the first key of that class. */
  function Step(ct: ClassTable, implFor: map<ClassName, ClassName>, obj: ObjectId, base: ClassName,
                p: Progress, k: ClassName): (r: Result<Progress>)
    requires k in implFor
    ensures r.Err? ==> r.message == DeliveryError(ct, implFor[k])
  {
    var impl := implFor[k];
    if impl in p.byImpl then Ok(p.(delegates := p.delegates[k := p.byImpl[impl]]))
    else if !Instantiable(ct, impl) then Err(InstantiationError)
    else
      var d :- HandleMixinAwareness(ct, Delegate(p.n, impl, []), obj, base);
      Ok(Progress(p.delegates[k := d], p.byImpl[impl := d], p.n + 1))
  }

  /** An iteration fails exactly when the key's class cannot be delivered, and otherwise
      keeps the invariant with one more key visited. */
  lemma StepPreserves(ct: ClassTable, implFor: map<ClassName, ClassName>, obj: ObjectId, base: ClassName,
                      next: ObjectId, remaining: set<ClassName>, p: Progress, k: ClassName)
    requires Inv(ct, implFor, obj, next, remaining, p) && k in remaining
    ensures Step(ct, implFor, obj, base, p, k).Ok? <==> Deliverable(ct, implFor[k])
    ensures Step(ct, implFor, obj, base, p, k).Ok? ==>
              Inv(ct, implFor, obj, next, remaining - {k}, Step(ct, implFor, obj, base, p, k).value)
  {
    var impl := implFor[k];
    if impl in p.byImpl {
      StepReuses(ct, implFor, obj, base, next, remaining, p, k);
    } else if Deliverable(ct, impl) {
      StepCreates(ct, implFor, obj, base, next, remaining, p, k);
    }
  }

  /** A key whose class already has its instance is given that instance. */
  lemma StepReuses(ct: ClassTable, implFor: map<ClassName, ClassName>, obj: ObjectId, base: ClassName,
                   next: ObjectId, remaining: set<ClassName>, p: Progress, k: ClassName)
    requires Inv(ct, implFor, obj, next, remaining, p) && k in remaining && implFor[k] in p.byImpl
    ensures Step(ct, implFor, obj, base, p, k) == Ok(p.(delegates := p.delegates[k := p.byImpl[implFor[k]]]))
    ensures Inv(ct, implFor, obj, next, remaining - {k}, Step(ct, implFor, obj, base, p, k).value)
  {
  }

  /** The first key of a deliverable class makes its instance with the next identity. */
  lemma StepCreates(ct: ClassTable, implFor: map<ClassName, ClassName>, obj: ObjectId, base: ClassName,
                    next: ObjectId, remaining: set<ClassName>, p: Progress, k: ClassName)
    requires Inv(ct, implFor, obj, next, remaining, p) && k in remaining
    requires implFor[k] !in p.byImpl && Deliverable(ct, implFor[k])
    ensures var d := NewDelegate(ct, p.n, implFor[k], obj);
            Step(ct, implFor, obj, base, p, k) == Ok(Progress(p.delegates[k := d], p.byImpl[implFor[k] := d], p.n + 1))
    ensures Inv(ct, implFor, obj, next, remaining - {k}, Step(ct, implFor, obj, base, p, k).value)
  {
    var impl := implFor[k];
    var d := NewDelegate(ct, p.n, impl, obj);
    StepCreatesDelegate(ct, implFor, obj, base, p, k);
    InvExtend(ct, implFor, obj, next, remaining, p, k);
  }

  lemma StepCreatesDelegate(ct: ClassTable, implFor: map<ClassName, ClassName>, obj: ObjectId, base: ClassName,
                            p: Progress, k: ClassName)
    requires k in implFor && implFor[k] !in p.byImpl && Deliverable(ct, implFor[k])
    ensures var d := NewDelegate(ct, p.n, implFor[k], obj);
            Step(ct, implFor, obj, base, p, k) == Ok(Progress(p.delegates[k := d], p.byImpl[implFor[k] := d], p.n + 1))
  {
    var impl := implFor[k];
    var h := HandleMixinAwareness(ct, Delegate(p.n, impl, []), obj, base);
    assert [] + [obj] == [obj];
    assert h == Ok(NewDelegate(ct, p.n, impl, obj));
  }

  /** Visiting the first key of a deliverable class keeps the invariant. */
  lemma InvExtend(ct: ClassTable, implFor: map<ClassName, ClassName>, obj: ObjectId, next: ObjectId,
                  remaining: set<ClassName>, p: Progress, k: ClassName)
    requires Inv(ct, implFor, obj, next, remaining, p) && k in remaining
    requires implFor[k] !in p.byImpl && Deliverable(ct, implFor[k])
    ensures var d := NewDelegate(ct, p.n, implFor[k], obj);
            Inv(ct, implFor, obj, next, remaining - {k}, Progress(p.delegates[k := d], p.byImpl[implFor[k] := d], p.n + 1))
  {
    var impl := implFor[k];
    var d := NewDelegate(ct, p.n, impl, obj);
    VisitedExtend(ct, implFor, remaining, p, k, d, p.n + 1);
    MadeExtend(ct, obj, next, p, impl);
    DistinctExtend(ct, obj, next, p, impl, d);
  }

  /** With every key visited the invariant is the promise of `createDelegateMap`. */
  lemma InvComplete(ct: ClassTable, implFor: map<ClassName, ClassName>, obj: ObjectId, next: ObjectId, p: Progress)
    requires Inv(ct, implFor, obj, next, {}, p)
    ensures DelegationFor(ct, implFor, obj, next, Delegation(p.delegates, p.n))
  {
  }

  /** `createDelegateMap(newMixedObject)`: the keys are visited in an unspecified order; the
      first key of each implementation class creates its one instance (and, for a `MixinAware`
      one, passes it the new object once); every key gets the instance of its class. */
  method CreateDelegateMap(ct: ClassTable, implFor: map<ClassName, ClassName>, obj: ObjectId, base: ClassName, next: ObjectId)
    returns (r: Result<Delegation>)
    ensures r.Ok? <==> forall k :: k in implFor ==> Deliverable(ct, implFor[k])
    ensures r.Ok? ==> DelegationFor(ct, implFor, obj, next, r.value)
    ensures r.Err? ==> exists k :: k in implFor && !Deliverable(ct, implFor[k]) && r.message == DeliveryError(ct, implFor[k])
  {
    var remaining := implFor.Keys;
    var p := Progress(map[], map[], next);
    while remaining != {}
      invariant Inv(ct, implFor, obj, next, remaining, p)
      decreases |remaining|
    {
      var k :| k in remaining;
      StepPreserves(ct, implFor, obj, base, next, remaining, p, k);
      var s := Step(ct, implFor, obj, base, p, k);
      if s.Err? {
        return Err(s.message);
      }
      p := s.value;
      remaining := remaining - {k};
    }
    InvComplete(ct, implFor, obj, next, p);
    r := Ok(Delegation(p.delegates, p.n));
  }

  // ---------------------------------------------------------------------------------------
  // newInstance and registration
  // ---------------------------------------------------------------------------------------

  /** Stands for the exception CGLib raises when the base class has no accessible constructor
      with the requested parameter types or the arguments do not fit it. */
  const EnhancerError := "the proxy could not be constructed"

  /** The base class has an accessible constructor taking exactly `types`. */
  predicate HasBaseConstructor(ct: ClassTable, base: ClassName, types: seq<ClassName>) {
    exists c :: c in Get(ct, base).constructors && c.params == types && !c.isPrivate
  }

  /** `newInstance(types, args)` can succeed: CGLib finds the constructor and every mapped
      implementation class can be delivered. */
  predicate Creatable(ct: ClassTable, f: ProxyFactory, types: seq<ClassName>, args: seq<Value>) {
    && HasBaseConstructor(ct, f.base, types) && |args| == |types|
    && forall k :: k in f.interceptor.implFor ==> Deliverable(ct, f.interceptor.implFor[k])
  }

  /** `msg` is a failure `newInstance(types, args)` can report: CGLib's own when the
      constructor is missing or the arguments do not fit it, and otherwise the failure of one
      mapped implementation class that cannot be delivered (which one, when several cannot,
      depends on the order in which the hash map is visited). */
  predicate CreationFailure(ct: ClassTable, f: ProxyFactory, types: seq<ClassName>, args: seq<Value>, msg: string) {
    if !(HasBaseConstructor(ct, f.base, types) && |args| == |types|) then msg == EnhancerError
    else exists k :: k in f.interceptor.implFor && !Deliverable(ct, f.interceptor.implFor[k])
                     && msg == DeliveryError(ct, f.interceptor.implFor[k])
  }

  datatype ProxyCreated = ProxyCreated(factory: ProxyFactory, obj: Composed, next: ObjectId)

  /** `newInstance(types, args)` (and `newInstance()`, with both empty): CGLib creates the proxy,
      then `processNewObject` registers its delegate map before the object is handed out. */
  method NewInstance(ct: ClassTable, f: ProxyFactory, types: seq<ClassName>, args: seq<Value>, next: ObjectId)
    returns (r: Result<ProxyCreated>)
    ensures r.Ok? <==> Creatable(ct, f, types, args)
    ensures r.Err? ==> CreationFailure(ct, f, types, args, r.message)
    ensures r.Ok? ==>
              var i := r.value.factory.interceptor;
              && r.value.obj.id == next
              && r.value.obj.base == f.base
              && r.value.obj.constructorTypes == types && r.value.obj.args == args
              && r.value.factory.base == f.base
              && i.implFor == f.interceptor.implFor
              && i.delegateMaps.Keys == f.interceptor.delegateMaps.Keys + {next}
              && (forall o :: o in f.interceptor.delegateMaps && o != next ==> i.delegateMaps[o] == f.interceptor.delegateMaps[o])
              && DelegationFor(ct, f.interceptor.implFor, next, next + 1, Delegation(i.delegateMaps[next], r.value.next))
  {
    if !(HasBaseConstructor(ct, f.base, types) && |args| == |types|) {
      return Err(EnhancerError);
    }
    var obj := Composed(next, f.base + "$$EnhancerByCGLIB", f.base, types, args, []);
    var d := CreateDelegateMap(ct, f.interceptor.implFor, next, f.base, next + 1);
    if d.Err? {
      return Err(d.message);
    }
    var it := f.interceptor;
    var it' := it.(delegateMaps := it.delegateMaps[next := d.value.delegates]);
    r := Ok(ProxyCreated(f.(interceptor := it'), obj, d.value.next));
  }

  // ---------------------------------------------------------------------------------------
  // intercept
  // ---------------------------------------------------------------------------------------

  /** Where a call goes: to the base class's own implementation, or to a delegate. */
  datatype Dispatch = ToSuper | ToDelegate(delegate: Delegate)

  /** `intercept` as written: a method declared by `Object` goes to super; for any other
      method the object's delegate map is looked up, which fails when the object has no map
      yet (a call made while the base constructor runs, before registration). */
  function InterceptAsWritten(i: Interceptor, obj: ObjectId, declaringClass: ClassName): (r: Result<Dispatch>)
    ensures declaringClass == ObjectClass ==> r == Ok(ToSuper)
    ensures r.Err? <==> declaringClass != ObjectClass && obj !in i.delegateMaps
    ensures r.Ok? && r.value.ToDelegate? ==>
              obj in i.delegateMaps && declaringClass in i.delegateMaps[obj]
              && r.value.delegate == i.delegateMaps[obj][declaringClass]
  {
    if declaringClass == ObjectClass then Ok(ToSuper)
    else if obj !in i.delegateMaps then Err("java.lang.NullPointerException")
    else if declaringClass in i.delegateMaps[obj] then Ok(ToDelegate(i.delegateMaps[obj][declaringClass]))
    else Ok(ToSuper)
  }

  /** A call on an object that is not registered yet, of a method that is not `Object`'s,
      makes the interceptor as written fail instead of reaching the base class. */
  lemma UnregisteredCallFails(i: Interceptor, obj: ObjectId, declaringClass: ClassName)
    requires obj !in i.delegateMaps && declaringClass != ObjectClass
    ensures InterceptAsWritten(i, obj, declaringClass).Err?
  {
  }

  /** `intercept` with a missing delegate map read as an empty one: `Object`'s methods go to
      super, a method whose declaring class has a delegate goes to that delegate, anything
      else to super. */
  function Intercept(i: Interceptor, obj: ObjectId, declaringClass: ClassName): (r: Dispatch)
    ensures declaringClass == ObjectClass ==> r == ToSuper
    ensures r.ToDelegate? <==>
              declaringClass != ObjectClass && obj in i.delegateMaps && declaringClass in i.delegateMaps[obj]
    ensures r.ToDelegate? ==> r.delegate == i.delegateMaps[obj][declaringClass]
  {
    if declaringClass == ObjectClass then ToSuper
    else if obj in i.delegateMaps && declaringClass in i.delegateMaps[obj] then ToDelegate(i.delegateMaps[obj][declaringClass])
    else ToSuper
  }

  /** Once the object is registered the two agree on every call. */
  lemma InterceptAgreesWhenRegistered(i: Interceptor, obj: ObjectId, declaringClass: ClassName)
    requires obj in i.delegateMaps || declaringClass == ObjectClass
    ensures InterceptAsWritten(i, obj, declaringClass) == Ok(Intercept(i, obj, declaringClass))
  {
  }

  /** On an object made by the factory, a call of a method declared by a mixin type goes to
      an instance of the implementation mapped for that type, and a call of any method
      declared by an unmapped class goes to super. */
  lemma DispatchAfterCreation(i: Interceptor, obj: ObjectId, next: ObjectId, d: Delegation, declaringClass: ClassName, ct: ClassTable)
    requires obj in i.delegateMaps && i.delegateMaps[obj] == d.delegates
    requires DelegationFor(ct, i.implFor, obj, next, d)
    requires declaringClass != ObjectClass
    ensures declaringClass in i.implFor ==>
              && Intercept(i, obj, declaringClass).ToDelegate?
              && Intercept(i, obj, declaringClass).delegate.impl == i.implFor[declaringClass]
    ensures declaringClass !in i.implFor ==> Intercept(i, obj, declaringClass) == ToSuper
  {
  }
}

=== FILE: results.dfy ===
/** Failure-compatible wrappers shared by the whole model.

    A Java method of the engine either returns a value or throws an exception; the model
    returns a `Result` whose `Err` carries the text of the exception the source throws.
 */
module Results {

  datatype Option<+T> = None | Some(value: T)

  datatype Result<+T> = Ok(value: T) | Err(message: string) {

    predicate IsFailure() {
      Err?
    }

    function PropagateFailure<U>(): Result<U>
      requires Err?
    {
      Err(message)
    }

    function Extract(): T
      requires Ok?
    {
      value
    }
  }
}

=== FILE: seqs.dfy ===
/** Sequences of blocks laid end to end. */
module Seqs {
  /** The blocks one after the other. */
  function Flatten<T>(xss: seq<seq<T>>): seq<T> {
    if |xss| == 0 then [] else xss[0] + Flatten(xss[1..])
  }

  /** Where the i-th block starts in the flattened sequence. */
  function FlattenOffset<T>(xss: seq<seq<T>>, i: nat): nat
    requires i <= |xss|
  {
    if i == 0 then 0 else |xss[0]| + FlattenOffset(xss[1..], i - 1)
  }

  lemma {:induction false} FlattenAt<T>(xss: seq<seq<T>>, i: nat)
    requires i < |xss|
    ensures FlattenOffset(xss, i) + |xss[i]| <= |Flatten(xss)|
    ensures Flatten(xss)[FlattenOffset(xss, i)..FlattenOffset(xss, i) + |xss[i]|] == xss[i]
  {
    if i > 0 {
      FlattenAt(xss[1..], i - 1);
      SliceAfter(xss[0], Flatten(xss[1..]), FlattenOffset(xss[1..], i - 1), |xss[i]|);
    } else {
      assert (xss[0] + Flatten(xss[1..]))[..|xss[0]|] == xss[0];
    }
  }

  lemma SliceAfter<T>(xs: seq<T>, ys: seq<T>, off: nat, len: nat)
    requires off + len <= |ys|
    ensures (xs + ys)[|xs| + off..|xs| + off + len] == ys[off..off + len]
  {
  }
}

=== FILE: source_mixer.dfy ===
/** `ClassGeneratingMixer`: the mixed class is written out as Java source text, a subclass of the
    base class with one delegate field per mixin, delegating methods and forwarding
    constructors, and handed to a compiler. The compiler is outside the model: it is a
    parameter `compiles` that says whether a source text compiles. */
module SourceMixer {
  import opened Results
  import opened Text
  import opened Classes
  import opened Objects
  import opened Descriptors
  import opened MixinUtils
  import opened Seqs

  // ---------------------------------------------------------------------------------------
  // JavaSourceBuilder
  // ---------------------------------------------------------------------------------------

  /** The builder's state: the current indentation level and the text written so far. */
  datatype Builder = Builder(indentation: int, text: string)

  function Max0(i: int): nat {
    if i < 0 then 0 else i
  }

  /** `line(template, args...)`: the indentation drops by one before writing when the template
      contains '}', rises by one after writing when it contains '{'; the line is prefixed by
      four spaces per (non-negative) level. `formatted` is the template with its arguments
      already substituted. */
  function Line(b: Builder, template: string, formatted: string): Builder {
    var before := if '}' in template then b.indentation - 1 else b.indentation;
    Builder(
      if '{' in template then before + 1 else before,
      b.text + Spaces(4 * Max0(before)) + formatted + "\n")
  }

  /** `line()`: a bare newline, no indentation. */
  function BlankLine(b: Builder): Builder {
    b.(text := b.text + "\n")
  }

  /** The indentation a template moves the builder by. */
  function Delta(template: string): int {
    (if '{' in template then 1 else 0) - (if '}' in template then 1 else 0)
  }

  /** Braces are looked for in the template only: the substituted text never moves the
      indentation, and the line written is the substituted text, indented and terminated. */
  lemma LineIndentsFromTemplate(b: Builder, template: string, formatted: string)
    ensures Line(b, template, formatted).indentation == b.indentation + Delta(template)
    ensures exists n: nat :: n % 4 == 0 &&
              Line(b, template, formatted).text == b.text + Spaces(n) + formatted + "\n"
    ensures '}' !in template ==>
              Line(b, template, formatted).text == b.text + Spaces(4 * Max0(b.indentation)) + formatted + "\n"
  {
    var before := if '}' in template then b.indentation - 1 else b.indentation;
    var n := 4 * Max0(before);
    assert n % 4 == 0;
  }

  /** One call on the builder. */
  datatype SourceLine = Blank | Code(template: string, formatted: string)

  function LineDelta(l: SourceLine): int {
    if l.Code? then Delta(l.template) else 0
  }

  function SumDelta(ls: seq<SourceLine>): int {
    if |ls| == 0 then 0 else LineDelta(ls[0]) + SumDelta(ls[1..])
  }

  lemma {:induction false} SumDeltaAppend(xs: seq<SourceLine>, ys: seq<SourceLine>)
    ensures SumDelta(xs + ys) == SumDelta(xs) + SumDelta(ys)
  {
    if |xs| == 0 {
      assert xs + ys == ys;
    } else {
      assert (xs + ys)[1..] == xs[1..] + ys;
      SumDeltaAppend(xs[1..], ys);
    }
  }

  /** Replays a sequence of builder calls. */
  function Emit(b: Builder, ls: seq<SourceLine>): Builder {
    if |ls| == 0 then b
    else
      var b' := Emit(b, ls[..|ls| - 1]);
      match ls[|ls| - 1]
      case Blank => BlankLine(b')
      case Code(t, f) => Line(b', t, f)
  }

  /** Replaying lines moves the indentation by the sum of their templates' deltas, and only
      ever appends to the text. */
  lemma {:induction false} EmitIndentation(b: Builder, ls: seq<SourceLine>)
    ensures Emit(b, ls).indentation == b.indentation + SumDelta(ls)
    ensures |Emit(b, ls).text| >= |b.text| && Emit(b, ls).text[..|b.text|] == b.text
  {
    if |ls| > 0 {
      EmitIndentation(b, ls[..|ls| - 1]);
      SumDeltaAppend(ls[..|ls| - 1], [ls[|ls| - 1]]);
      assert ls[..|ls| - 1] + [ls[|ls| - 1]] == ls;
      var b' := Emit(b, ls[..|ls| - 1]);
      assert b'.text[..|b.text|] == b.text;
      match ls[|ls| - 1]
      case Blank =>
        assert BlankLine(b').text[..|b'.text|] == b'.text;
      case Code(t, f) =>
        LineIndentsFromTemplate(b', t, f);
        assert Line(b', t, f).text[..|b'.text|] == b'.text;
    }
  }

  // ---------------------------------------------------------------------------------------
  // getArgs
  // ---------------------------------------------------------------------------------------

  /** The i-th entry of an argument list: "argI", preceded by "<TypeName> " when typed. */
  function ArgEntry(params: seq<ClassName>, i: nat, withTypes: bool): string
    requires i < |params|
  {
    (if withTypes then params[i] + " " else "") + "arg" + NatToString(i)
  }

  function ArgEntries(params: seq<ClassName>, withTypes: bool): (r: seq<string>)
    ensures |r| == |params|
    ensures forall i :: 0 <= i < |params| ==> r[i] == ArgEntry(params, i, withTypes)
  {
    seq(|params|, i requires 0 <= i < |params| => ArgEntry(params, i, withTypes))
  }

  /** The argument list written into generated source: the entries joined by ", ". */
  function ArgList(params: seq<ClassName>, withTypes: bool): string {
    Join(ArgEntries(params, withTypes), ", ")
  }

  /** `getArgs(parameterTypes, withTypes)`, the StringBuilder loop. */
  method GetArgs(params: seq<ClassName>, withTypes: bool) returns (s: string)
    ensures s == Join(ArgEntries(params, withTypes), ", ")
  {
    ghost var entries := ArgEntries(params, withTypes);
    var sb := "";
    var i := 0;
    while i < |params|
      invariant 0 <= i <= |params|
      invariant sb == if i == 0 then "" else Join(entries[..i], ", ") + (if i < |params| then ", " else "")
    {
      var piece := "";
      if withTypes {
        piece := params[i] + " ";
      }
      piece := piece + "arg" + NatToString(i);
      assert piece == entries[i];
      assert entries[..i + 1][..i] == entries[..i];
      sb := sb + piece;
      if i < |params| - 1 {
        sb := sb + ", ";
      }
      i := i + 1;
    }
    assert entries[..i] == entries;
    s := sb;
  }

  /** Untyped argument lists depend only on the number of parameters: "arg0, arg1, ...". */
  lemma UntypedArgsDependOnArity(ps: seq<ClassName>, qs: seq<ClassName>)
    requires |ps| == |qs|
    ensures ArgList(ps, false) == ArgList(qs, false)
  {
    assert ArgEntries(ps, false) == ArgEntries(qs, false);
  }

  // ---------------------------------------------------------------------------------------
  // The generated class
  // ---------------------------------------------------------------------------------------

  /** Marks lines that the compiler sees as comments. */
  const CompilationOnly := "//stripme//"

  // The templates handed to the builder (long ones are written in two pieces).
  const ClassHeaderTemplate := CompilationOnly + "class %s extends %s {"
  const ClassCloseTemplate := CompilationOnly + "}"
  const TypeCommentTemplate := "// delegation of methods" + " in mixin type %s"
  const ImplCommentTemplate := "// to implementation %s"
  const FieldTemplate := "private %s %s = new %1$s();"
  const OpenTemplate := "{"
  const AwareTemplate := "%s.setMixinBase(this);" + " // MixinAware fulfilment"
  const CloseTemplate := "}"
  const MethodTemplate := "public %s %s(%s) {"
  const CallTemplate := "%s%s.%s(%s);"
  const ConstructorTemplate := "public %s(%s) {"
  const SuperTemplate := "super(%s);"

  /** How each template moves the indentation: only the class header, the method and
      constructor headers and the initializer block open; only the closers close. */
  lemma TemplateDeltas()
    ensures Delta(ClassHeaderTemplate) == 1 && Delta(ClassCloseTemplate) == -1
    ensures Delta(TypeCommentTemplate) == 0 && Delta(ImplCommentTemplate) == 0
    ensures Delta(FieldTemplate) == 0 && Delta(AwareTemplate) == 0
    ensures Delta(OpenTemplate) == 1 && Delta(CloseTemplate) == -1
    ensures Delta(MethodTemplate) == 1 && Delta(CallTemplate) == 0
    ensures Delta(ConstructorTemplate) == 1 && Delta(SuperTemplate) == 0
  {
    ClassTemplatesDelta();
    CommentTemplatesDelta();
    FieldTemplatesDelta();
    MemberTemplatesDelta();
  }

  lemma ClassTemplatesDelta()
    ensures Delta(ClassHeaderTemplate) == 1 && Delta(ClassCloseTemplate) == -1
  {
    CompilationOnlyBraceless();
    Braceless("class %s extends %s ");
    assert ClassHeaderTemplate == CompilationOnly + "class %s extends %s " + "{";
    assert ClassCloseTemplate[|ClassCloseTemplate| - 1] == '}';
  }

  lemma CompilationOnlyBraceless()
    ensures '{' !in CompilationOnly && '}' !in CompilationOnly
  {
    Braceless(CompilationOnly);
  }

  /** A string none of whose characters is a brace holds no brace. */
  lemma Braceless(s: string)
    requires forall i :: 0 <= i < |s| ==> s[i] != '{' && s[i] != '}'
    ensures '{' !in s && '}' !in s
  {
  }

  lemma CommentTemplatesDelta()
    ensures Delta(TypeCommentTemplate) == 0 && Delta(ImplCommentTemplate) == 0
  {
    Braceless("// delegation of methods");
    Braceless(" in mixin type %s");
    Braceless(ImplCommentTemplate);
  }

  lemma FieldTemplatesDelta()
    ensures Delta(FieldTemplate) == 0 && Delta(AwareTemplate) == 0
  {
    Braceless(FieldTemplate);
    Braceless("%s.setMixinBase(this);");
    Braceless(" // MixinAware fulfilment");
  }

  lemma MemberTemplatesDelta()
    ensures Delta(MethodTemplate) == 1 && Delta(CallTemplate) == 0
    ensures Delta(ConstructorTemplate) == 1 && Delta(SuperTemplate) == 0
  {
    assert MethodTemplate[|MethodTemplate| - 1] == '{';
    assert ConstructorTemplate[|ConstructorTemplate| - 1] == '{';
  }

  function MixedClassName(ct: ClassTable, base: ClassName): string {
    Get(ct, base).simpleName + "WithMixins"
  }

  /** The mixed class lives in the base class's package. */
  function FullMixedClassName(ct: ClassTable, base: ClassName): string {
    Get(ct, base).packageName + "." + MixedClassName(ct, base)
  }

  /** The delegate field of the mixin with the given ordinal: the mixin type's simple name
      followed by the ordinal, with the first letter lower-cased. */
  function FieldName(ct: ClassTable, m: Mixin, ordinal: nat): string {
    LowerFirst(Get(ct, m.mixinType).simpleName + NatToString(ordinal))
  }

  function ReturnTypeName(rt: Option<ClassName>): string {
    if rt.Some? then rt.value else "void"
  }

  /** A public method with the same signature that calls the delegate field. */
  function MethodLines(field: string, m: MethodSig): seq<SourceLine> {
    [ Code(MethodTemplate, "public " + ReturnTypeName(m.returnType) + " " + m.name + "(" + ArgList(m.params, true) + ") {"),
      Code(CallTemplate, (if m.returnType.None? then "" else "return ") + field + "." + m.name + "(" + ArgList(m.params, false) + ");"),
      Code(CloseTemplate, "}") ]
  }

  function MethodsLines(field: string, ms: seq<MethodSig>): seq<SourceLine> {
    if |ms| == 0 then [] else MethodLines(field, ms[0]) + MethodsLines(field, ms[1..])
  }

  function FieldLine(ct: ClassTable, m: Mixin, ordinal: nat): SourceLine {
    var field := FieldName(ct, m, ordinal);
    Code(FieldTemplate, "private " + m.mixinImpl + " " + field + " = new " + m.mixinImpl + "();")
  }

  /** The instance initializer that hands the new mixed object to a `MixinAware` delegate. */
  function AwareLines(field: string): seq<SourceLine> {
    [ Code(OpenTemplate, "{"),
      Code(AwareTemplate, field + ".setMixinBase(this); // MixinAware fulfilment"),
      Code(CloseTemplate, "}") ]
  }

  /** Everything written for one mixin. */
  function MixinLines(ct: ClassTable, m: Mixin, ordinal: nat): seq<SourceLine> {
    var field := FieldName(ct, m, ordinal);
    [ Code(TypeCommentTemplate, "// delegation of methods in mixin type " + ClassDisplay(ct, m.mixinType)),
      Code(ImplCommentTemplate, "// to implementation " + ClassDisplay(ct, m.mixinImpl)),
      FieldLine(ct, m, ordinal) ]
    + (if IsMixinAware(ct, m.mixinImpl) then AwareLines(field) else [])
    + MethodsLines(field, Get(ct, m.mixinType).methods)
  }

  /** The mixins in list order, numbered from `ordinal` on. */
  function MixinsLines(ct: ClassTable, ms: seq<Mixin>, ordinal: nat): seq<SourceLine> {
    if |ms| == 0 then [] else MixinLines(ct, ms[0], ordinal) + MixinsLines(ct, ms[1..], ordinal + 1)
  }

  function ConstructorLines(className: string, c: ConstructorSig): seq<SourceLine> {
    [ Code(ConstructorTemplate, "public " + className + "(" + ArgList(c.params, true) + ") {"),
      Code(SuperTemplate, "super(" + ArgList(c.params, false) + ");"),
      Code(CloseTemplate, "}") ]
  }

  /** One forwarding constructor per non-private declared constructor, in declaration order. */
  function ConstructorsLines(className: string, cs: seq<ConstructorSig>): seq<SourceLine> {
    if |cs| == 0 then []
    else (if cs[0].isPrivate then [] else ConstructorLines(className, cs[0])) + ConstructorsLines(className, cs[1..])
  }

  function HeaderLine(ct: ClassTable, base: ClassName): SourceLine {
    Code(ClassHeaderTemplate, CompilationOnly + "class " + MixedClassName(ct, base) + " extends " + base + " {")
  }

  /** Every builder call `getMixedClass` makes, in order. */
  function ClassLines(ct: ClassTable, base: ClassName, mixins: seq<Mixin>): seq<SourceLine> {
    [HeaderLine(ct, base), Blank]
    + MixinsLines(ct, mixins, 1)
    + ConstructorsLines(MixedClassName(ct, base), Get(ct, base).constructors)
    + [Code(ClassCloseTemplate, ClassCloseTemplate)]
  }

  /** The source text handed to the compiler. */
  function GeneratedSource(ct: ClassTable, base: ClassName, mixins: seq<Mixin>): string {
    Emit(Builder(0, ""), ClassLines(ct, base, mixins)).text
  }

  // ---------------------------------------------------------------------------------------
  // Properties of the generated class
  // ---------------------------------------------------------------------------------------

  lemma SumDelta3(a: SourceLine, b: SourceLine, c: SourceLine)
    ensures SumDelta([a, b, c]) == LineDelta(a) + LineDelta(b) + LineDelta(c)
  {
    assert SumDelta([c]) == LineDelta(c) by {
      assert [c][1..] == [];
    }
    assert SumDelta([b, c]) == LineDelta(b) + LineDelta(c) by {
      assert [b, c][1..] == [c];
    }
    assert [a, b, c][1..] == [b, c];
  }

  /** A delegating method opens and closes one block. */
  lemma MethodBalanced(field: string, m: MethodSig)
    ensures SumDelta(MethodLines(field, m)) == 0
  {
    var ls := MethodLines(field, m);
    TemplateDeltas();
    SumDelta3(ls[0], ls[1], ls[2]);
    assert ls == [ls[0], ls[1], ls[2]];
  }

  lemma {:induction false} MethodsBalanced(field: string, ms: seq<MethodSig>)
    ensures SumDelta(MethodsLines(field, ms)) == 0
  {
    if |ms| > 0 {
      MethodBalanced(field, ms[0]);
      MethodsBalanced(field, ms[1..]);
      SumDeltaAppend(MethodLines(field, ms[0]), MethodsLines(field, ms[1..]));
    }
  }

  lemma AwareBalanced(field: string)
    ensures SumDelta(AwareLines(field)) == 0
  {
    var ls := AwareLines(field);
    TemplateDeltas();
    SumDelta3(ls[0], ls[1], ls[2]);
    assert ls == [ls[0], ls[1], ls[2]];
  }

  /** The two comment lines and the field declaration move nothing. */
  lemma MixinHeadBalanced(ct: ClassTable, m: Mixin, ordinal: nat)
    ensures SumDelta(MixinLines(ct, m, ordinal)[..3]) == 0
  {
    var ls := MixinLines(ct, m, ordinal)[..3];
    TemplateDeltas();
    SumDelta3(ls[0], ls[1], ls[2]);
    assert ls == [ls[0], ls[1], ls[2]];
  }

  lemma MixinBalanced(ct: ClassTable, m: Mixin, ordinal: nat)
    ensures SumDelta(MixinLines(ct, m, ordinal)) == 0
  {
    var field := FieldName(ct, m, ordinal);
    var ls := MixinLines(ct, m, ordinal);
    var aware: seq<SourceLine> := if IsMixinAware(ct, m.mixinImpl) then AwareLines(field) else [];
    var methods := MethodsLines(field, Get(ct, m.mixinType).methods);
    assert ls == ls[..3] + aware + methods;
    MixinHeadBalanced(ct, m, ordinal);
    if aware != [] {
      AwareBalanced(field);
    }
    MethodsBalanced(field, Get(ct, m.mixinType).methods);
    SumDeltaAppend(ls[..3], aware);
    SumDeltaAppend(ls[..3] + aware, methods);
  }

  lemma {:induction false} MixinsBalanced(ct: ClassTable, ms: seq<Mixin>, ordinal: nat)
    ensures SumDelta(MixinsLines(ct, ms, ordinal)) == 0
  {
    if |ms| > 0 {
      MixinBalanced(ct, ms[0], ordinal);
      MixinsBalanced(ct, ms[1..], ordinal + 1);
      SumDeltaAppend(MixinLines(ct, ms[0], ordinal), MixinsLines(ct, ms[1..], ordinal + 1));
    }
  }

  lemma {:induction false} ConstructorsBalanced(className: string, cs: seq<ConstructorSig>)
    ensures SumDelta(ConstructorsLines(className, cs)) == 0
  {
    if |cs| > 0 {
      var own := if cs[0].isPrivate then [] else ConstructorLines(className, cs[0]);
      if !cs[0].isPrivate {
        TemplateDeltas();
        SumDelta3(own[0], own[1], own[2]);
        assert own == [own[0], own[1], own[2]];
      }
      SumDeltaAppend(own, ConstructorsLines(className, cs[1..]));
      ConstructorsBalanced(className, cs[1..]);
    }
  }

  /** The body of the class: the mixins' members, then the forwarding constructors. */
  function BodyLines(ct: ClassTable, base: ClassName, mixins: seq<Mixin>): seq<SourceLine> {
    MixinsLines(ct, mixins, 1) + ConstructorsLines(MixedClassName(ct, base), Get(ct, base).constructors)
  }

  lemma BodyBalanced(ct: ClassTable, base: ClassName, mixins: seq<Mixin>)
    ensures SumDelta(BodyLines(ct, base, mixins)) == 0
  {
    MixinsBalanced(ct, mixins, 1);
    ConstructorsBalanced(MixedClassName(ct, base), Get(ct, base).constructors);
    SumDeltaAppend(MixinsLines(ct, mixins, 1), ConstructorsLines(MixedClassName(ct, base), Get(ct, base).constructors));
  }

  /** The class header followed by the blank line. */
  function FrontLines(ct: ClassTable, base: ClassName): seq<SourceLine> {
    [HeaderLine(ct, base), Blank]
  }

  lemma FrontDelta(ct: ClassTable, base: ClassName)
    ensures SumDelta(FrontLines(ct, base)) == 1
  {
    var front := FrontLines(ct, base);
    TemplateDeltas();
    assert SumDelta([Blank]) == 0 by {
      assert [Blank][1..] == [];
    }
    assert front[1..] == [Blank];
  }

  const CloseLine := Code(ClassCloseTemplate, ClassCloseTemplate)

  lemma ClassLinesSplit(ct: ClassTable, base: ClassName, mixins: seq<Mixin>)
    ensures ClassLines(ct, base, mixins) == FrontLines(ct, base) + BodyLines(ct, base, mixins) + [CloseLine]
  {
  }

  /** Every block the generator opens it closes: the builder ends at indentation zero. */
  lemma GeneratedSourceBalanced(ct: ClassTable, base: ClassName, mixins: seq<Mixin>)
    ensures SumDelta(ClassLines(ct, base, mixins)) == 0
    ensures Emit(Builder(0, ""), ClassLines(ct, base, mixins)).indentation == 0
  {
    var front := FrontLines(ct, base);
    var body := BodyLines(ct, base, mixins);
    ClassLinesSplit(ct, base, mixins);
    TemplateDeltas();
    FrontDelta(ct, base);
    assert SumDelta([CloseLine]) == -1 by {
      assert [CloseLine][1..] == [];
    }
    BodyBalanced(ct, base, mixins);
    SumDeltaAppend(front, body);
    SumDeltaAppend(front + body, [CloseLine]);
    EmitIndentation(Builder(0, ""), ClassLines(ct, base, mixins));
  }

  /** The header is written flush left. */
  lemma HeaderWritten(formatted: string)
    ensures Line(Builder(0, ""), ClassHeaderTemplate, formatted) == Builder(1, formatted + "\n")
  {
    ClassTemplatesDelta();
    assert Spaces(0) == "";
  }

  /** The closing line, written when one block is open, is written flush left. */
  lemma CloseWritten(b: Builder)
    requires b.indentation == 1
    ensures Line(b, ClassCloseTemplate, ClassCloseTemplate) == Builder(0, b.text + ClassCloseTemplate + "\n")
  {
    ClassTemplatesDelta();
    assert Spaces(0) == "";
  }

  /** The source opens with the class header, hidden from the compiler, and a blank line. */
  lemma GeneratedSourceStartsWithHeader(ct: ClassTable, base: ClassName, mixins: seq<Mixin>)
    ensures var src := GeneratedSource(ct, base, mixins);
            var header := CompilationOnly + "class " + MixedClassName(ct, base) + " extends " + base + " {\n\n";
            |src| >= |header| && src[..|header|] == header
  {
    var rest := BodyLines(ct, base, mixins) + [CloseLine];
    ClassLinesSplit(ct, base, mixins);
    assert ClassLines(ct, base, mixins) == FrontLines(ct, base) + rest;
    EmitFront(ct, base, rest);
  }

  /** Whatever follows them, the front lines are written first: the header, then the blank. */
  lemma EmitFront(ct: ClassTable, base: ClassName, rest: seq<SourceLine>)
    ensures var src := Emit(Builder(0, ""), FrontLines(ct, base) + rest).text;
            var header := CompilationOnly + "class " + MixedClassName(ct, base) + " extends " + base + " {\n\n";
            |src| >= |header| && src[..|header|] == header
  {
    var b0 := Builder(0, "");
    var front := FrontLines(ct, base);
    var h := HeaderLine(ct, base);
    assert Emit(b0, [h]) == Line(b0, h.template, h.formatted) by {
      assert [h][..0] == [];
    }
    HeaderWritten(h.formatted);
    assert Emit(b0, front) == BlankLine(Emit(b0, [h])) by {
      assert front[..1] == [h];
    }
    var header := CompilationOnly + "class " + MixedClassName(ct, base) + " extends " + base + " {\n\n";
    assert Emit(b0, front).text == header;
    EmitPrefix(b0, front, rest, front + rest);
  }

  /** The source ends with the closing brace, written at indentation zero. */
  lemma GeneratedSourceEndsWithClose(ct: ClassTable, base: ClassName, mixins: seq<Mixin>)
    ensures var src := GeneratedSource(ct, base, mixins);
            |src| >= |ClassCloseTemplate| + 1
            && src[|src| - |ClassCloseTemplate| - 1..] == ClassCloseTemplate + "\n"
  {
    var init := FrontLines(ct, base) + BodyLines(ct, base, mixins);
    ClassLinesSplit(ct, base, mixins);
    FrontDelta(ct, base);
    BodyBalanced(ct, base, mixins);
    SumDeltaAppend(FrontLines(ct, base), BodyLines(ct, base, mixins));
    EmitEndsWithClose(init);
  }

  /** Lines that leave one block open, followed by the closing line, end with the brace. */
  lemma EmitEndsWithClose(init: seq<SourceLine>)
    requires SumDelta(init) == 1
    ensures var src := Emit(Builder(0, ""), init + [CloseLine]).text;
            |src| >= |ClassCloseTemplate| + 1
            && src[|src| - |ClassCloseTemplate| - 1..] == ClassCloseTemplate + "\n"
  {
    var b0 := Builder(0, "");
    var ls := init + [CloseLine];
    assert ls[..|ls| - 1] == init && ls[|ls| - 1] == CloseLine;
    assert Emit(b0, ls) == Line(Emit(b0, init), ClassCloseTemplate, ClassCloseTemplate);
    EmitIndentation(b0, init);
    CloseWritten(Emit(b0, init));
  }

  /** Replaying `xs + ys` starts by replaying `xs`. */
  lemma EmitPrefix(b: Builder, xs: seq<SourceLine>, ys: seq<SourceLine>, ls: seq<SourceLine>)
    requires ls == xs + ys
    ensures |Emit(b, ls).text| >= |Emit(b, xs).text|
    ensures Emit(b, ls).text[..|Emit(b, xs).text|] == Emit(b, xs).text
  {
    EmitSplit(b, xs, ys);
    EmitIndentation(Emit(b, xs), ys);
  }

  lemma {:induction false} EmitSplit(b: Builder, xs: seq<SourceLine>, ys: seq<SourceLine>)
    ensures Emit(b, xs + ys) == Emit(Emit(b, xs), ys)
  {
    if |ys| == 0 {
      assert xs + ys == xs;
    } else {
      assert (xs + ys)[..|xs + ys| - 1] == xs + ys[..|ys| - 1];
      EmitSplit(b, xs, ys[..|ys| - 1]);
    }
  }

  // ---------------------------------------------------------------------------------------
  // Structure of the generated members
  // ---------------------------------------------------------------------------------------

  /** The delegating method of `m` returns the delegate's result exactly when the method is not
      void: the call line starts with "return " iff there is a return type. (A field name is a
      Java identifier, so it holds no space.) */
  lemma ReturnPrefixIffNonVoid(field: string, m: MethodSig)
    requires |field| > 0 && ' ' !in field
    ensures var call := MethodLines(field, m)[1].formatted;
            m.returnType.Some? <==> |call| >= 7 && call[..7] == "return "
  {
    var call := MethodLines(field, m)[1].formatted;
    var rest := "." + m.name + "(" + ArgList(m.params, false) + ");";
    if m.returnType.None? {
      assert call == field + rest;
      NotReturnPrefixed(field, rest);
    } else {
      assert call == "return " + (field + rest);
      PrefixKept("return ", field + rest);
    }
  }

  lemma PrefixKept(a: string, b: string)
    ensures |a + b| >= |a| && (a + b)[..|a|] == a
  {
  }

  /** A space-free name followed by '.' never starts with "return ": either the name reaches
      the space at position 6 or the '.' comes first. */
  lemma NotReturnPrefixed(field: string, rest: string)
    requires |field| > 0 && ' ' !in field
    requires |rest| > 0 && rest[0] == '.'
    ensures !(|field + rest| >= 7 && (field + rest)[..7] == "return ")
  {
    var call := field + rest;
    if |call| >= 7 {
      if |field| >= 7 {
        assert call[..7][6] == field[6] && field[6] != ' ';
      } else {
        assert call[..7][|field|] == '.';
      }
    }
  }

  /** One delegating method per method of the mixin type, in the type's method order. */
  lemma {:induction false} MethodsLinesAt(field: string, ms: seq<MethodSig>, i: nat)
    requires i < |ms|
    ensures |MethodsLines(field, ms)| == 3 * |ms|
    ensures MethodsLines(field, ms)[3 * i..3 * i + 3] == MethodLines(field, ms[i])
  {
    MethodsLinesLength(field, ms);
    if i > 0 {
      MethodsLinesAt(field, ms[1..], i - 1);
      assert MethodsLines(field, ms)[3 * i..3 * i + 3] == MethodsLines(field, ms[1..])[3 * (i - 1)..3 * (i - 1) + 3];
    }
  }

  lemma {:induction false} MethodsLinesLength(field: string, ms: seq<MethodSig>)
    ensures |MethodsLines(field, ms)| == 3 * |ms|
  {
    if |ms| > 0 {
      MethodsLinesLength(field, ms[1..]);
    }
  }

  /** The blocks written for the mixins, one per mixin, the i-th with ordinal `ordinal + i`. */
  function MixinBlocks(ct: ClassTable, ms: seq<Mixin>, ordinal: nat): (bs: seq<seq<SourceLine>>)
    ensures |bs| == |ms|
    ensures forall i :: 0 <= i < |ms| ==> bs[i] == MixinLines(ct, ms[i], ordinal + i)
  {
    seq(|ms|, i requires 0 <= i < |ms| => MixinLines(ct, ms[i], ordinal + i))
  }

  /** The mixins' part of the class is their blocks one after the other. */
  lemma {:induction false} MixinsLinesFlatten(ct: ClassTable, ms: seq<Mixin>, ordinal: nat)
    ensures MixinsLines(ct, ms, ordinal) == Flatten(MixinBlocks(ct, ms, ordinal))
  {
    if |ms| > 0 {
      MixinsLinesFlatten(ct, ms[1..], ordinal + 1);
      MixinBlocksTail(ct, ms, ordinal);
      var bs := MixinBlocks(ct, ms, ordinal);
      assert Flatten(bs) == bs[0] + Flatten(bs[1..]);
    }
  }

  lemma MixinBlocksTail(ct: ClassTable, ms: seq<Mixin>, ordinal: nat)
    requires |ms| > 0
    ensures MixinBlocks(ct, ms, ordinal)[0] == MixinLines(ct, ms[0], ordinal)
    ensures MixinBlocks(ct, ms, ordinal)[1..] == MixinBlocks(ct, ms[1..], ordinal + 1)
  {
    var bs := MixinBlocks(ct, ms, ordinal);
    var ts := MixinBlocks(ct, ms[1..], ordinal + 1);
    forall k | 0 <= k < |ms| - 1
      ensures bs[1..][k] == ts[k]
    {
      assert ms[1..][k] == ms[k + 1] && ordinal + 1 + k == ordinal + (k + 1);
    }
  }

  /** The mixins are written in list order, the i-th (counting from 0) with ordinal
      `ordinal + i`: its lines sit, contiguous, after those of the mixins before it. */
  lemma MixinsLinesAt(ct: ClassTable, ms: seq<Mixin>, ordinal: nat, i: nat)
    requires i < |ms|
    ensures var off := FlattenOffset(MixinBlocks(ct, ms, ordinal), i);
            var own := MixinLines(ct, ms[i], ordinal + i);
            && off + |own| <= |MixinsLines(ct, ms, ordinal)|
            && MixinsLines(ct, ms, ordinal)[off..off + |own|] == own
  {
    MixinsLinesFlatten(ct, ms, ordinal);
    FlattenAt(MixinBlocks(ct, ms, ordinal), i);
  }

  /** A mixin's lines open with the two comments and the delegate field, named after the
      mixin type and the ordinal and initialised with a new instance of the implementation. */
  lemma MixinFieldLine(ct: ClassTable, m: Mixin, ordinal: nat)
    ensures |MixinLines(ct, m, ordinal)| >= 3
    ensures MixinLines(ct, m, ordinal)[2]
            == Code(FieldTemplate, "private " + m.mixinImpl + " " + FieldName(ct, m, ordinal) + " = new " + m.mixinImpl + "();")
    ensures var f := FieldName(ct, m, ordinal);
            var s := Get(ct, m.mixinType).simpleName + NatToString(ordinal);
            |f| == |s| && f[0] == LowerChar(s[0]) && f[1..] == s[1..]
  {
  }

  /** The `setMixinBase(this)` initializer block directly follows the field exactly when the
      implementation is `MixinAware`. */
  lemma AwareBlockIffAware(ct: ClassTable, m: Mixin, ordinal: nat)
    ensures var ls := MixinLines(ct, m, ordinal);
            (|ls| > 3 && ls[3].Code? && ls[3].template == OpenTemplate) <==> IsMixinAware(ct, m.mixinImpl)
  {
    var ls := MixinLines(ct, m, ordinal);
    var field := FieldName(ct, m, ordinal);
    var methods := Get(ct, m.mixinType).methods;
    if !IsMixinAware(ct, m.mixinImpl) && |methods| > 0 {
      assert ls[3] == MethodsLines(field, methods)[0];
      assert |MethodTemplate| != |OpenTemplate|;
    }
  }

  /** The declared constructors the generated class forwards: the non-private ones, in
      declaration order. */
  function Forwarded(cs: seq<ConstructorSig>): (r: seq<ConstructorSig>)
    ensures |r| <= |cs|
    ensures forall i :: 0 <= i < |r| ==> !r[i].isPrivate
  {
    if |cs| == 0 then []
    else (if cs[0].isPrivate then [] else [cs[0]]) + Forwarded(cs[1..])
  }

  lemma {:induction false} ForwardedMembers(cs: seq<ConstructorSig>, c: ConstructorSig)
    ensures c in Forwarded(cs) <==> c in cs && !c.isPrivate
  {
    if |cs| > 0 {
      ForwardedMembers(cs[1..], c);
      assert cs == [cs[0]] + cs[1..];
    }
  }

  /** Private constructors contribute nothing: the text is that of the forwarded ones alone. */
  lemma {:induction false} ConstructorsLinesForwarded(className: string, cs: seq<ConstructorSig>)
    ensures ConstructorsLines(className, cs) == ConstructorsLines(className, Forwarded(cs))
  {
    if |cs| > 0 {
      ConstructorsLinesForwarded(className, cs[1..]);
      if cs[0].isPrivate {
        assert Forwarded(cs) == Forwarded(cs[1..]);
      } else {
        var fs := Forwarded(cs);
        assert fs[0] == cs[0] && fs[1..] == Forwarded(cs[1..]);
      }
    }
  }

  /** Over non-private constructors, the i-th forwarding constructor takes the i-th
      constructor's parameters and passes them on to `super`. */
  lemma {:induction false} ConstructorsLinesAt(className: string, cs: seq<ConstructorSig>, i: nat)
    requires forall j :: 0 <= j < |cs| ==> !cs[j].isPrivate
    requires i < |cs|
    ensures |ConstructorsLines(className, cs)| == 3 * |cs|
    ensures ConstructorsLines(className, cs)[3 * i..3 * i + 3] == ConstructorLines(className, cs[i])
  {
    if i > 0 {
      ConstructorsLinesAt(className, cs[1..], i - 1);
      assert ConstructorsLines(className, cs)[3 * i..3 * i + 3]
          == ConstructorsLines(className, cs[1..])[3 * (i - 1)..3 * (i - 1) + 3];
    } else if |cs| > 1 {
      ConstructorsLinesAt(className, cs[1..], 0);
    }
  }

  // ---------------------------------------------------------------------------------------
  // The factory
  // ---------------------------------------------------------------------------------------

  /** `JanioSourceGeneratingFactory`: the compiled mixed class and what it was made from. */
  datatype ClassFactory = ClassFactory(base: ClassName, mixins: seq<Mixin>, mixedClass: ClassName, source: string)

  const CompileErrorPrefix := "Error while generating source code: \n"
  const ConstructionError := "The constructor invocation threw an exception"

  /** `getFactory(mixinBase, mixins)`: the source is generated and compiled; a compiler
      failure is reported together with the whole source text. */
  function GetFactory(ct: ClassTable, base: ClassName, mixins: seq<Mixin>, compiles: string -> bool): (r: Result<ClassFactory>)
    ensures r.Ok? <==> compiles(GeneratedSource(ct, base, mixins))
    ensures r.Err? ==> r.message == CompileErrorPrefix + GeneratedSource(ct, base, mixins)
    ensures r.Ok? ==>
              && r.value.base == base && r.value.mixins == mixins
              && r.value.source == GeneratedSource(ct, base, mixins)
              && r.value.mixedClass == Get(ct, base).packageName + "." + Get(ct, base).simpleName + "WithMixins"
  {
    var source := GeneratedSource(ct, base, mixins);
    if compiles(source) then Ok(ClassFactory(base, mixins, FullMixedClassName(ct, base), source))
    else Err(CompileErrorPrefix + source)
  }

  /** `getFactory(mixinBase, mixin)`: the one-element list. */
  function GetFactoryForMixin(ct: ClassTable, base: ClassName, m: Mixin, compiles: string -> bool): (r: Result<ClassFactory>)
    ensures r.Ok? <==> compiles(GeneratedSource(ct, base, [m]))
    ensures r.Ok? ==> r.value.mixins == [m] && r.value.base == base
    ensures r.Err? ==> r.message == CompileErrorPrefix + GeneratedSource(ct, base, [m])
  {
    GetFactory(ct, base, [m], compiles)
  }

  /** The mixed class has a (public) constructor taking exactly `types`. */
  predicate HasConstructor(ct: ClassTable, f: ClassFactory, types: seq<ClassName>) {
    exists c :: c in Forwarded(Get(ct, f.base).constructors) && c.params == types
  }

  /** The delegates the field initializers create, in field order, numbered from `first`; the
      initializer block of a `MixinAware` one passes it the new object. */
  function FieldDelegates(ct: ClassTable, ms: seq<Mixin>, obj: ObjectId, first: ObjectId): (ds: seq<Delegate>)
    ensures |ds| == |ms|
    ensures forall i :: 0 <= i < |ms| ==>
              && ds[i].id == first + i
              && ds[i].impl == ms[i].mixinImpl
              && ds[i].mixinBaseCalls == (if IsMixinAware(ct, ms[i].mixinImpl) then [obj] else [])
  {
    seq(|ms|, i requires 0 <= i < |ms| =>
      Delegate(first + i, ms[i].mixinImpl, if IsMixinAware(ct, ms[i].mixinImpl) then [obj] else []))
  }

  /** A new object and the next free identity. */
  datatype Created = Created(obj: Composed, next: ObjectId)

  function Construct(ct: ClassTable, f: ClassFactory, types: seq<ClassName>, args: seq<Value>, next: ObjectId): Created {
    Created(
      Composed(next, f.mixedClass, f.base, types, args, FieldDelegates(ct, f.mixins, next, next + 1)),
      next + 1 + |f.mixins|)
  }

  /** `newInstance()`: the no-argument constructor of the mixed class. */
  function NewInstance(ct: ClassTable, f: ClassFactory, next: ObjectId): (r: Result<Created>)
    ensures r.Ok? <==> HasConstructor(ct, f, [])
    ensures r.Err? ==> r.message == ConstructionError
    ensures r.Ok? ==> r.value.obj.constructorTypes == [] && r.value.obj.args == []
  {
    if HasConstructor(ct, f, []) then Ok(Construct(ct, f, [], [], next)) else Err(ConstructionError)
  }

  /** `newInstance(types, args)`: an empty `types` falls back to `newInstance()`, whatever the
      arguments; otherwise the constructor with exactly those parameter types is invoked, and a
      missing constructor or a wrong number of arguments makes the invocation fail. */
  function NewInstanceWith(ct: ClassTable, f: ClassFactory, types: seq<ClassName>, args: seq<Value>, next: ObjectId): (r: Result<Created>)
    ensures |types| == 0 ==> r == NewInstance(ct, f, next)
    ensures |types| > 0 ==> (r.Ok? <==> HasConstructor(ct, f, types) && |args| == |types|)
    ensures r.Err? ==> r.message == ConstructionError
    ensures r.Ok? ==>
              var o := r.value.obj;
              && o.id == next && o.runtimeClass == f.mixedClass && o.base == f.base
              && o.constructorTypes == types
              && o.args == (if |types| == 0 then [] else args)
              && r.value.next == next + 1 + |f.mixins|
              && |o.delegates| == |f.mixins|
              && forall i :: 0 <= i < |f.mixins| ==>
                   && o.delegates[i].impl == f.mixins[i].mixinImpl
                   && next < o.delegates[i].id < r.value.next
                   && o.delegates[i].mixinBaseCalls == (if IsMixinAware(ct, f.mixins[i].mixinImpl) then [next] else [])
  {
    if |types| == 0 then NewInstance(ct, f, next)
    else if HasConstructor(ct, f, types) && |args| == |types| then Ok(Construct(ct, f, types, args, next))
    else Err(ConstructionError)
  }

  /** Objects made one after the other never share an identity: each creation uses only the
      identities from `next` up to the one it hands back. */
  lemma CreationsAreDisjoint(ct: ClassTable, f: ClassFactory, g: ClassFactory,
                             t1: seq<ClassName>, a1: seq<Value>, t2: seq<ClassName>, a2: seq<Value>, next: ObjectId)
    requires NewInstanceWith(ct, f, t1, a1, next).Ok?
    requires NewInstanceWith(ct, g, t2, a2, NewInstanceWith(ct, f, t1, a1, next).value.next).Ok?
    ensures var c1 := NewInstanceWith(ct, f, t1, a1, next).value;
            var c2 := NewInstanceWith(ct, g, t2, a2, c1.next).value;
            && c1.obj.id != c2.obj.id
            && forall i, j :: 0 <= i < |c1.obj.delegates| && 0 <= j < |c2.obj.delegates| ==>
                 c1.obj.delegates[i].id != c2.obj.delegates[j].id
  {
  }
}

=== FILE: text.dfy ===
/** String helpers standing in for the Java string operations the engine uses:
    decimal rendering of integers (`"" + n`), `Character.toLowerCase` on the first
    character, `indexOf(c) != -1`, and joining pieces with a separator. */
module Text {

  function DigitChar(d: nat): (c: char)
    requires d < 10
    ensures '0' <= c <= '9'
  {
    "0123456789"[d]
  }

  predicate IsDigits(s: string) {
    forall i :: 0 <= i < |s| ==> '0' <= s[i] <= '9'
  }

  /** Decimal text of a natural number, as Java's string concatenation renders it. */
  function NatToString(n: nat): (s: string)
    ensures |s| >= 1 && IsDigits(s)
    ensures (|s| > 1) == (n >= 10)
  {
    if n < 10 then [DigitChar(n)] else NatToString(n / 10) + [DigitChar(n % 10)]
  }

  /** Decimal text of a Java int (a leading '-' for negative values). */
  function IntToString(i: int): (s: string)
    ensures |s| >= 1
    ensures (s[0] == '-') == (i < 0)
  {
    if i < 0 then "-" + NatToString(-i) else NatToString(i)
  }

  function DigitValue(c: char): nat
    requires '0' <= c <= '9'
  {
    (c as int) - ('0' as int)
  }

  /** Reads back a string of decimal digits; the left inverse of `NatToString`. */
  function ParseDigits(s: string): nat
    requires IsDigits(s)
  {
    if |s| == 0 then 0 else 10 * ParseDigits(s[..|s| - 1]) + DigitValue(s[|s| - 1])
  }

  lemma {:induction false} ParseNatToString(n: nat)
    ensures ParseDigits(NatToString(n)) == n
  {
    var s := NatToString(n);
    if n >= 10 {
      assert s[..|s| - 1] == NatToString(n / 10);
      ParseNatToString(n / 10);
    }
  }

  /** Distinct numbers have distinct decimal renderings. */
  lemma NatToStringInjective(m: nat, n: nat)
    requires NatToString(m) == NatToString(n)
    ensures m == n
  {
    ParseNatToString(m);
    ParseNatToString(n);
  }

  /** ASCII `Character.toLowerCase`. */
  function LowerChar(c: char): char {
    if 'A' <= c <= 'Z' then ((c as int) + 32) as char else c
  }

  /** `Character.toLowerCase(s.charAt(0)) + s.substring(1)`; the source only applies it to
      non-empty strings. */
  function LowerFirst(s: string): (r: string)
    requires |s| > 0
    ensures |r| == |s| && r[1..] == s[1..]
    ensures r[0] == LowerChar(s[0])
  {
    [LowerChar(s[0])] + s[1..]
  }

  function Spaces(n: nat): (r: string)
    ensures |r| == n
    ensures forall i :: 0 <= i < n ==> r[i] == ' '
  {
    if n == 0 then "" else Spaces(n - 1) + " "
  }

  /** The elements of `xs`, with `sep` between consecutive ones. */
  function Join(xs: seq<string>, sep: string): string {
    if |xs| == 0 then ""
    else if |xs| == 1 then xs[0]
    else Join(xs[..|xs| - 1], sep) + sep + xs[|xs| - 1]
  }

  /** Flattening of a sequence of strings. */
  function Concat(xs: seq<string>): string {
    if |xs| == 0 then "" else Concat(xs[..|xs| - 1]) + xs[|xs| - 1]
  }

  lemma ConcatAppend(xs: seq<string>, ys: seq<string>)
    ensures Concat(xs + ys) == Concat(xs) + Concat(ys)
  {
    if |ys| > 0 {
      assert (xs + ys)[..|xs + ys| - 1] == xs + ys[..|ys| - 1];
      ConcatAppend(xs, ys[..|ys| - 1]);
    } else {
      assert xs + ys == xs;
    }
  }
}

=== FILE: tree.dfy ===
/** `MutableTreeNodeMixinImpl`: the tree-node mixin used by the `Employee` demo. Every node
    keeps its parent and a `Vector` of children, and the two are kept in step by a protocol in
    which `insert` and `setParent` call each other.

    A node is identified by the mixed object it was injected into (its `mixinBase`), so the
    state of all nodes is one map from object identity to node record. */
module Tree {
  import opened Results

  /** The identity of a mixed object carrying the tree mixin. */
  type NodeId = nat

  datatype Node = Node(parent: Option<NodeId>, children: seq<NodeId>)

  type Forest = map<NodeId, Node>

  /** A node the map does not mention is a freshly created one: no parent, no children. */
  function At(f: Forest, n: NodeId): Node {
    if n in f then f[n] else Node(None, [])
  }

  // ---------------------------------------------------------------------------------------
  // The `Vector` operations used by the node
  // ---------------------------------------------------------------------------------------

  /** `indexOf(x)`: the first position of `x`, or -1. */
  function IndexOf(xs: seq<NodeId>, x: NodeId): (k: int)
    ensures -1 <= k < |xs|
    ensures k == -1 <==> x !in xs
    ensures k >= 0 ==> xs[k] == x && forall j :: 0 <= j < k ==> xs[j] != x
  {
    if |xs| == 0 then -1
    else if xs[0] == x then 0
    else
      var k := IndexOf(xs[1..], x);
      if k == -1 then -1 else k + 1
  }

  /** `remove(x)`: drops the first occurrence of `x`, if any. */
  function RemoveFirst(xs: seq<NodeId>, x: NodeId): (r: seq<NodeId>)
    ensures x !in xs ==> r == xs
    ensures |r| == if x in xs then |xs| - 1 else |xs|
  {
    if |xs| == 0 then []
    else if xs[0] == x then xs[1..]
    else [xs[0]] + RemoveFirst(xs[1..], x)
  }

  /** `remove(x)` takes exactly one `x` away when there is one. */
  lemma {:induction false} RemoveFirstCount(xs: seq<NodeId>, x: NodeId)
    ensures multiset(RemoveFirst(xs, x)) == multiset(xs) - multiset{x}
  {
    if |xs| > 0 {
      assert xs == [xs[0]] + xs[1..];
      if xs[0] != x {
        RemoveFirstCount(xs[1..], x);
      }
    }
  }

  /** `remove(x)` drops the element at `indexOf(x)`. */
  lemma {:induction false} RemoveFirstAtIndex(xs: seq<NodeId>, x: NodeId)
    requires x in xs
    ensures RemoveFirst(xs, x) == xs[..IndexOf(xs, x)] + xs[IndexOf(xs, x) + 1..]
  {
    if xs[0] != x {
      RemoveFirstAtIndex(xs[1..], x);
      assert xs[1..][..IndexOf(xs[1..], x)] == xs[1..IndexOf(xs, x)];
    }
  }

  /** `add(i, x)`, for an index the vector accepts. */
  function InsertAt(xs: seq<NodeId>, i: int, x: NodeId): (r: seq<NodeId>)
    requires 0 <= i <= |xs|
    ensures |r| == |xs| + 1 && r[i] == x
    ensures r[..i] == xs[..i] && r[i + 1..] == xs[i..]
  {
    xs[..i] + [x] + xs[i..]
  }

  /** `add(i, x)` adds exactly one `x`. */
  lemma InsertAtCount(xs: seq<NodeId>, i: int, x: NodeId)
    requires 0 <= i <= |xs|
    ensures multiset(InsertAt(xs, i, x)) == multiset(xs) + multiset{x}
  {
    assert xs == xs[..i] + xs[i..];
  }

  /** The elements other than `x`, in their order. */
  function Without(xs: seq<NodeId>, x: NodeId): (r: seq<NodeId>)
    ensures x !in r && |r| <= |xs|
  {
    if |xs| == 0 then []
    else (if xs[0] == x then [] else [xs[0]]) + Without(xs[1..], x)
  }

  lemma {:induction false} WithoutConcat(xs: seq<NodeId>, ys: seq<NodeId>, x: NodeId)
    ensures Without(xs + ys, x) == Without(xs, x) + Without(ys, x)
  {
    if |xs| == 0 {
      assert xs + ys == ys;
    } else {
      var h := if xs[0] == x then [] else [xs[0]];
      assert (xs + ys)[0] == xs[0];
      assert (xs + ys)[1..] == xs[1..] + ys;
      WithoutConcat(xs[1..], ys, x);
      assert Without(xs + ys, x) == h + (Without(xs[1..], x) + Without(ys, x));
    }
  }

  /** `remove(x)` leaves the other elements in their order. */
  lemma {:induction false} WithoutRemoveFirst(xs: seq<NodeId>, x: NodeId)
    ensures Without(RemoveFirst(xs, x), x) == Without(xs, x)
  {
    if |xs| > 0 && xs[0] != x {
      WithoutRemoveFirst(xs[1..], x);
      assert ([xs[0]] + RemoveFirst(xs[1..], x))[1..] == RemoveFirst(xs[1..], x);
    }
  }

  lemma WithoutSkips(a: seq<NodeId>, b: seq<NodeId>, x: NodeId)
    ensures Without(a + [x] + b, x) == Without(a, x) + Without(b, x)
  {
    WithoutConcat(a + [x], b, x);
    WithoutConcat(a, [x], x);
    assert Without([x], x) == [] by { assert [x][1..] == []; }
  }

  /** `add(i, x)` leaves the other elements in their order. */
  lemma WithoutInsertAt(xs: seq<NodeId>, i: int, x: NodeId)
    requires 0 <= i <= |xs|
    ensures Without(InsertAt(xs, i, x), x) == Without(xs, x)
  {
    var a, b := xs[..i], xs[i..];
    WithoutSkips(a, b, x);
    assert a + b == xs;
    WithoutConcat(a, b, x);
  }

  // ---------------------------------------------------------------------------------------
  // The protocol
  // ---------------------------------------------------------------------------------------

  /** The exceptions the node operations throw. */
  datatype TreeError =
    | SelfChild      // IllegalArgumentException("Can't add a TreeNode as its own child")
    | OutOfBounds    // ArrayIndexOutOfBoundsException from the vector

  function Message(e: TreeError): string {
    match e
    case SelfChild => "java.lang.IllegalArgumentException: Can't add a TreeNode as its own child"
    case OutOfBounds => "java.lang.ArrayIndexOutOfBoundsException"
  }

  /** Whether a call returned or threw. */
  datatype Status = Returned | Threw(error: TreeError)

  /** The nodes after a call, and whether the call returned or threw. A call that throws part
      way keeps the changes made before the throw. */
  datatype Outcome = Outcome(forest: Forest, status: Status)

  /** The `setParent` of the source (`AsWritten`), which re-inserts the node at index 0 of its
      new parent, and the corrected one, which inserts it only when the new parent does not
      already list it. */
  datatype Protocol = AsWritten | Corrected

  /** `remove(MutableTreeNode node)` on node `p`: the first occurrence leaves the children; the
      removed node's own parent is not touched. */
  function Remove(f: Forest, p: NodeId, node: NodeId): (g: Forest)
    ensures At(g, p).children == RemoveFirst(At(f, p).children, node)
    ensures At(g, p).parent == At(f, p).parent
    ensures node != p ==> At(g, node) == At(f, node)
  {
    f[p := At(f, p).(children := RemoveFirst(At(f, p).children, node))]
  }

  /** `remove(int index)`: the child at `index` is removed (its first occurrence); an index out
      of range throws. */
  function RemoveAt(f: Forest, p: NodeId, index: int): (r: Outcome)
    ensures r.status.Returned? <==> 0 <= index < |At(f, p).children|
    ensures r.status.Threw? ==> r.forest == f
    ensures r.status.Returned? ==>
              var kids := At(f, p).children;
              var j := IndexOf(kids, kids[index]);
              && |At(r.forest, p).children| == |kids| - 1
              && multiset(At(r.forest, p).children) == multiset(kids) - multiset{kids[index]}
              && 0 <= j <= index
              && At(r.forest, p).children == kids[..j] + kids[j + 1..]
              && At(r.forest, p).parent == At(f, p).parent
    ensures r.status.Returned? ==> forall n :: n != p ==> At(r.forest, n) == At(f, n)
  {
    var kids := At(f, p).children;
    if 0 <= index < |kids| then
      RemoveFirstCount(kids, kids[index]);
      RemoveFirstAtIndex(kids, kids[index]);
      Outcome(Remove(f, p, kids[index]), Returned)
    else Outcome(f, Threw(OutOfBounds))
  }

  /** `removeFromParent()`: with no parent nothing happens; otherwise the parent removes this
      node from its children and the node forgets its parent. */
  function RemoveFromParent(f: Forest, n: NodeId): (g: Forest)
    ensures At(f, n).parent.None? ==> g == f
    ensures At(g, n).parent.None?
    ensures At(f, n).parent.Some? && At(f, n).parent.value != n ==>
              var q := At(f, n).parent.value;
              At(g, q) == At(f, q).(children := RemoveFirst(At(f, q).children, n))
    ensures At(f, n).parent.Some? && At(f, n).parent.value != n ==> At(g, n) == At(f, n).(parent := None)
  {
    match At(f, n).parent
    case None => f
    case Some(q) =>
      var g := Remove(f, q, n);
      g[n := At(g, n).(parent := None)]
  }

  /** `removeFromParent()` touches only the node and its old parent, and only the node's own
      parent field. */
  lemma RemoveFromParentFrame(f: Forest, n: NodeId, m: NodeId)
    requires m != n
    ensures Some(m) != At(f, n).parent ==> At(RemoveFromParent(f, n), m) == At(f, m)
    ensures At(RemoveFromParent(f, n), m).parent == At(f, m).parent
  {
  }

  /** How far a node `c` is from being linked to `p`: used to bound the mutual recursion of
      `insert` and `setParent`, which ends once `c`'s parent is `p`. */
  function Unlinked(f: Forest, c: NodeId, p: NodeId): nat {
    if At(f, c).parent == Some(p) then 0 else 1
  }

  /** `c.setParent(p)`: nothing happens when `p` is already the parent; otherwise `c` leaves its
      old parent, records `p`, and `p.insert(c, 0)` runs. */
  function SetParent(f: Forest, c: NodeId, p: NodeId, proto: Protocol): (r: Outcome)
    ensures At(f, c).parent == Some(p) ==> r == Outcome(f, Returned)
    ensures c != p ==> r.status.Returned?
    decreases Unlinked(f, c, p), 0
  {
    if At(f, c).parent == Some(p) then Outcome(f, Returned)
    else
      var g := RemoveFromParent(f, c);
      var h := g[c := At(g, c).(parent := Some(p))];
      if proto == Corrected && c in At(h, p).children then Outcome(h, Returned)
      else Insert(h, p, c, 0, proto)
  }

  /** `p.insert(c, i)`: a node cannot be its own child; otherwise any occurrence of `c` leaves
      the children, `c` is added at `i` (which the vector must accept) and `c.setParent(p)`
      runs. A rejected index throws after the old occurrence has already been removed. */
  function Insert(f: Forest, p: NodeId, c: NodeId, i: int, proto: Protocol): (r: Outcome)
    ensures c == p ==> r == Outcome(f, Threw(SelfChild))
    ensures r.status.Returned? <==> c != p && 0 <= i <= |RemoveFirst(At(f, p).children, c)|
    ensures c != p && r.status.Threw? ==>
              r == Outcome(f[p := At(f, p).(children := RemoveFirst(At(f, p).children, c))], Threw(OutOfBounds))
    decreases Unlinked(f, c, p), 1
  {
    if c == p then Outcome(f, Threw(SelfChild))
    else
      var kids := RemoveFirst(At(f, p).children, c);
      if i < 0 || i > |kids| then Outcome(f[p := At(f, p).(children := kids)], Threw(OutOfBounds))
      else
        var h := f[p := At(f, p).(children := InsertAt(kids, i, c))];
        assert At(h, c) == At(f, c);
        SetParent(h, c, p, proto)
  }

  /** The nodes after `c.setParent(p)` has something to do: `c` has left its old parent and
      records `p`; as written it is then moved to the front of `p`'s children, corrected it is
      put there only when `p` does not list it yet. */
  function Relinked(f: Forest, c: NodeId, p: NodeId, proto: Protocol): Forest {
    var g := RemoveFromParent(f, c);
    var h := g[c := At(g, c).(parent := Some(p))];
    if proto == Corrected && c in At(h, p).children then h
    else h[p := At(h, p).(children := [c] + RemoveFirst(At(h, p).children, c))]
  }

  /** `setParent` with something to do ends in the relinked nodes: the nested `insert(c, 0)`
      finds `c` already linked, so its own `setParent` call does nothing. */
  lemma SetParentRelinks(f: Forest, c: NodeId, p: NodeId, proto: Protocol)
    requires c != p && At(f, c).parent != Some(p)
    ensures SetParent(f, c, p, proto) == Outcome(Relinked(f, c, p, proto), Returned)
  {
    var g := RemoveFromParent(f, c);
    var h := g[c := At(g, c).(parent := Some(p))];
    if !(proto == Corrected && c in At(h, p).children) {
      var kids := RemoveFirst(At(h, p).children, c);
      var h2 := h[p := At(h, p).(children := InsertAt(kids, 0, c))];
      assert InsertAt(kids, 0, c) == [c] + kids;
      assert At(h2, c).parent == Some(p);
      assert Insert(h, p, c, 0, proto) == SetParent(h2, c, p, proto);
    }
  }

  /** After relinking, `c` and `p` point at each other. */
  lemma RelinkedLinks(f: Forest, c: NodeId, p: NodeId, proto: Protocol)
    requires c != p
    ensures At(Relinked(f, c, p, proto), c).parent == Some(p)
    ensures c in At(Relinked(f, c, p, proto), p).children
  {
  }

  /** Where relinking puts `c` among `p`'s children. */
  lemma RelinkedChildren(f: Forest, c: NodeId, p: NodeId, proto: Protocol)
    requires c != p && At(f, c).parent != Some(p)
    ensures proto == AsWritten ==> At(Relinked(f, c, p, proto), p).children == [c] + RemoveFirst(At(f, p).children, c)
    ensures proto == Corrected ==>
              At(Relinked(f, c, p, proto), p).children ==
                if c in At(f, p).children then At(f, p).children else [c] + At(f, p).children
  {
    var g := RemoveFromParent(f, c);
    assert At(g, p) == At(f, p);
  }

  /** Relinking takes `c` out of its old parent's children and changes no other node. */
  lemma RelinkedDetaches(f: Forest, c: NodeId, p: NodeId, proto: Protocol)
    requires c != p && At(f, c).parent.Some?
    requires At(f, c).parent.value != p && At(f, c).parent.value != c
    ensures var q := At(f, c).parent.value;
            At(Relinked(f, c, p, proto), q).children == RemoveFirst(At(f, q).children, c)
  {
  }

  /** Relinking changes no node other than `c`, `p` and `c`'s old parent, and no parent other
      than `c`'s. */
  lemma RelinkedFrame(f: Forest, c: NodeId, p: NodeId, proto: Protocol, n: NodeId)
    requires c != p && n != c
    ensures n != p && Some(n) != At(f, c).parent ==> At(Relinked(f, c, p, proto), n) == At(f, n)
    ensures At(Relinked(f, c, p, proto), n).parent == At(f, n).parent
  {
    RemoveFromParentFrame(f, c, n);
  }

  /** The nodes after a successful `p.insert(c, i)`: `c` replaces its first occurrence at
      index `i`, then `setParent` relinks it unless it was already a child of `p`. */
  function Inserted(f: Forest, p: NodeId, c: NodeId, i: int, proto: Protocol): Forest
    requires 0 <= i <= |RemoveFirst(At(f, p).children, c)|
  {
    var h := f[p := At(f, p).(children := InsertAt(RemoveFirst(At(f, p).children, c), i, c))];
    if At(f, c).parent == Some(p) then h else Relinked(h, c, p, proto)
  }

  lemma InsertIsInserted(f: Forest, p: NodeId, c: NodeId, i: int, proto: Protocol)
    requires Insert(f, p, c, i, proto).status.Returned?
    ensures 0 <= i <= |RemoveFirst(At(f, p).children, c)|
    ensures Insert(f, p, c, i, proto).forest == Inserted(f, p, c, i, proto)
  {
    assert c != p && 0 <= i <= |RemoveFirst(At(f, p).children, c)|;
    var h := f[p := At(f, p).(children := InsertAt(RemoveFirst(At(f, p).children, c), i, c))];
    InsertCallsSetParent(f, p, c, i, proto);
    if At(f, c).parent != Some(p) {
      SetParentRelinks(h, c, p, proto);
    } else {
      assert SetParent(h, c, p, proto) == Outcome(h, Returned);
    }
  }

  /** A successful `p.insert(c, i)` ends with `c.setParent(p)` on the updated children. */
  lemma InsertCallsSetParent(f: Forest, p: NodeId, c: NodeId, i: int, proto: Protocol)
    requires c != p && 0 <= i <= |RemoveFirst(At(f, p).children, c)|
    ensures var h := f[p := At(f, p).(children := InsertAt(RemoveFirst(At(f, p).children, c), i, c))];
            At(h, c) == At(f, c) && Insert(f, p, c, i, proto) == SetParent(h, c, p, proto)
  {
  }

  /** In the inserted forest `c` and `p` point at each other. */
  lemma InsertedLinks(f: Forest, p: NodeId, c: NodeId, i: int, proto: Protocol)
    requires c != p && 0 <= i <= |RemoveFirst(At(f, p).children, c)|
    ensures At(Inserted(f, p, c, i, proto), c).parent == Some(p)
    ensures c in At(Inserted(f, p, c, i, proto), p).children
  {
    var ins := InsertAt(RemoveFirst(At(f, p).children, c), i, c);
    var h := f[p := At(f, p).(children := ins)];
    assert ins[i] == c;
    if At(f, c).parent != Some(p) {
      RelinkedLinks(h, c, p, proto);
    }
  }

  /** Under the corrected protocol, or for a node already linked to `p`, the inserted forest
      keeps `c` at index `i`. */
  lemma InsertedAtIndex(f: Forest, p: NodeId, c: NodeId, i: int, proto: Protocol)
    requires c != p && 0 <= i <= |RemoveFirst(At(f, p).children, c)|
    requires proto == Corrected || At(f, c).parent == Some(p)
    ensures At(Inserted(f, p, c, i, proto), p).children == InsertAt(RemoveFirst(At(f, p).children, c), i, c)
  {
    var ins := InsertAt(RemoveFirst(At(f, p).children, c), i, c);
    var h := f[p := At(f, p).(children := ins)];
    assert At(h, p).children == ins;
    assert At(h, c) == At(f, c);
    if At(f, c).parent != Some(p) {
      RelinkedChildren(h, c, p, proto);
      assert ins[i] == c;
      assert c in At(h, p).children;
    }
  }

  /** As written, a node not yet linked to `p` is moved from index `i` to the front. */
  lemma InsertedAtFront(f: Forest, p: NodeId, c: NodeId, i: int)
    requires c != p && 0 <= i <= |RemoveFirst(At(f, p).children, c)|
    requires At(f, c).parent != Some(p)
    ensures var ins := InsertAt(RemoveFirst(At(f, p).children, c), i, c);
            At(Inserted(f, p, c, i, AsWritten), p).children == [c] + RemoveFirst(ins, c)
  {
    var ins := InsertAt(RemoveFirst(At(f, p).children, c), i, c);
    var h := f[p := At(f, p).(children := ins)];
    assert At(h, p).children == ins;
    assert At(h, c) == At(f, c);
    RelinkedChildren(h, c, p, AsWritten);
  }

  /** The inserted forest lists `c` among `p`'s children once more than after the removal, and
      keeps the other children. */
  lemma InsertedCount(f: Forest, p: NodeId, c: NodeId, i: int, proto: Protocol)
    requires c != p && 0 <= i <= |RemoveFirst(At(f, p).children, c)|
    ensures var kids := RemoveFirst(At(f, p).children, c);
            multiset(At(Inserted(f, p, c, i, proto), p).children) == multiset(kids) + multiset{c}
  {
    var kids := RemoveFirst(At(f, p).children, c);
    var ins := InsertAt(kids, i, c);
    InsertAtCount(kids, i, c);
    if proto == AsWritten && At(f, c).parent != Some(p) {
      InsertedAtFront(f, p, c, i);
      assert ins[i] == c;
      FrontCount(ins, c);
    } else {
      InsertedAtIndex(f, p, c, i, proto);
    }
  }

  /** Moving an element to the front keeps the multiset. */
  lemma FrontCount(xs: seq<NodeId>, x: NodeId)
    requires x in xs
    ensures multiset([x] + RemoveFirst(xs, x)) == multiset(xs)
  {
    RemoveFirstCount(xs, x);
    assert multiset([x] + RemoveFirst(xs, x)) == multiset{x} + multiset(RemoveFirst(xs, x));
  }

  /** In the inserted forest, `c`'s old parent has lost `c`. */
  lemma InsertedDetaches(f: Forest, p: NodeId, c: NodeId, i: int, proto: Protocol)
    requires c != p && 0 <= i <= |RemoveFirst(At(f, p).children, c)|
    requires At(f, c).parent.Some? && At(f, c).parent.value != p && At(f, c).parent.value != c
    ensures var q := At(f, c).parent.value;
            At(Inserted(f, p, c, i, proto), q).children == RemoveFirst(At(f, q).children, c)
  {
    var h := f[p := At(f, p).(children := InsertAt(RemoveFirst(At(f, p).children, c), i, c))];
    RelinkedDetaches(h, c, p, proto);
  }

  /** The inserted forest differs from the old one only at `p`, `c` and `c`'s old parent, and
      only `c`'s parent changes. */
  lemma InsertedUntouched(f: Forest, p: NodeId, c: NodeId, i: int, proto: Protocol, n: NodeId)
    requires c != p && 0 <= i <= |RemoveFirst(At(f, p).children, c)|
    requires n != c
    ensures n != p && Some(n) != At(f, c).parent ==> At(Inserted(f, p, c, i, proto), n) == At(f, n)
    ensures At(Inserted(f, p, c, i, proto), n).parent == At(f, n).parent
  {
    var h := f[p := At(f, p).(children := InsertAt(RemoveFirst(At(f, p).children, c), i, c))];
    if At(f, c).parent != Some(p) {
      RelinkedFrame(h, c, p, proto, n);
    }
  }

  /** A successful `p.insert(c, i)` links `c` and `p` both ways. */
  lemma InsertLinks(f: Forest, p: NodeId, c: NodeId, i: int, proto: Protocol)
    requires Insert(f, p, c, i, proto).status.Returned?
    ensures At(Insert(f, p, c, i, proto).forest, c).parent == Some(p)
    ensures c in At(Insert(f, p, c, i, proto).forest, p).children
  {
    InsertIsInserted(f, p, c, i, proto);
    InsertedLinks(f, p, c, i, proto);
  }

  /** Where `p.insert(c, i)` puts `c`: at index `i` when `c` was already a child of `p` or under
      the corrected protocol; as written, a node that was not yet a child ends first. */
  lemma InsertPlacement(f: Forest, p: NodeId, c: NodeId, i: int, proto: Protocol)
    requires Insert(f, p, c, i, proto).status.Returned?
    ensures var kids := RemoveFirst(At(f, p).children, c);
            var g := Insert(f, p, c, i, proto).forest;
            && 0 <= i <= |kids|
            && ((proto == Corrected || At(f, c).parent == Some(p)) ==> At(g, p).children == InsertAt(kids, i, c))
            && (proto == AsWritten && At(f, c).parent != Some(p) ==> |At(g, p).children| > 0 && At(g, p).children[0] == c)
  {
    InsertIsInserted(f, p, c, i, proto);
    if proto == AsWritten && At(f, c).parent != Some(p) {
      InsertedAtFront(f, p, c, i);
    } else {
      InsertedAtIndex(f, p, c, i, proto);
    }
  }

  /** `p.insert(c, i)` keeps `p`'s other children in their order, and lists `c` once more than
      the old children with the first `c` taken out. */
  lemma InsertKeepsOtherChildren(f: Forest, p: NodeId, c: NodeId, i: int, proto: Protocol)
    requires Insert(f, p, c, i, proto).status.Returned?
    ensures var kids := RemoveFirst(At(f, p).children, c);
            multiset(At(Insert(f, p, c, i, proto).forest, p).children) == multiset(kids) + multiset{c}
    ensures Without(At(Insert(f, p, c, i, proto).forest, p).children, c) == Without(At(f, p).children, c)
  {
    InsertIsInserted(f, p, c, i, proto);
    InsertedCount(f, p, c, i, proto);
    InsertedOrder(f, p, c, i, proto);
  }

  /** The inserted forest lists `p`'s children other than `c` in their old order. */
  lemma InsertedOrder(f: Forest, p: NodeId, c: NodeId, i: int, proto: Protocol)
    requires c != p && 0 <= i <= |RemoveFirst(At(f, p).children, c)|
    ensures Without(At(Inserted(f, p, c, i, proto), p).children, c) == Without(At(f, p).children, c)
  {
    var kids := RemoveFirst(At(f, p).children, c);
    var ins := InsertAt(kids, i, c);
    WithoutRemoveFirst(At(f, p).children, c);
    WithoutInsertAt(kids, i, c);
    if proto == AsWritten && At(f, c).parent != Some(p) {
      InsertedAtFront(f, p, c, i);
      WithoutConcat([c], RemoveFirst(ins, c), c);
      WithoutRemoveFirst(ins, c);
      assert Without([c], c) == [];
    } else {
      InsertedAtIndex(f, p, c, i, proto);
    }
  }

  /** A successful `p.insert(c, i)` takes `c` from its old parent, changes no node other than
      `p`, `c` and that old parent, and no parent other than `c`'s. */
  lemma InsertFrame(f: Forest, p: NodeId, c: NodeId, i: int, proto: Protocol)
    requires Insert(f, p, c, i, proto).status.Returned?
    ensures var g := Insert(f, p, c, i, proto).forest;
            && (At(f, c).parent.Some? && At(f, c).parent.value != p && At(f, c).parent.value != c ==>
                  var q := At(f, c).parent.value;
                  At(g, q).children == RemoveFirst(At(f, q).children, c))
            && (forall n :: n != p && n != c && Some(n) != At(f, c).parent ==> At(g, n) == At(f, n))
            && (forall n :: n != c ==> At(g, n).parent == At(f, n).parent)
  {
    InsertIsInserted(f, p, c, i, proto);
    if At(f, c).parent.Some? && At(f, c).parent.value != p && At(f, c).parent.value != c {
      InsertedDetaches(f, p, c, i, proto);
    }
    var g := Insert(f, p, c, i, proto).forest;
    forall n | n != c
      ensures n != p && Some(n) != At(f, c).parent ==> At(g, n) == At(f, n)
      ensures At(g, n).parent == At(f, n).parent
    {
      InsertedUntouched(f, p, c, i, proto, n);
    }
  }

  // ---------------------------------------------------------------------------------------
  // Queries and no-ops
  // ---------------------------------------------------------------------------------------

  /** `getParent()`. */
  function GetParent(f: Forest, n: NodeId): (r: Option<NodeId>)
    ensures r.None? <==> At(f, n).parent.None?
    ensures r.Some? ==> At(f, n).parent == r
  {
    At(f, n).parent
  }

  /** After `c.setParent(p)`, `getParent()` on `c` answers `p`. */
  lemma GetParentAfterSetParent(f: Forest, c: NodeId, p: NodeId, proto: Protocol)
    requires c != p
    ensures GetParent(SetParent(f, c, p, proto).forest, c) == Some(p)
  {
    if At(f, c).parent != Some(p) {
      SetParentRelinks(f, c, p, proto);
      RelinkedLinks(f, c, p, proto);
    }
  }

  /** `getChildAt(i)`: the vector's element, or the out-of-range exception. */
  function GetChildAt(f: Forest, n: NodeId, i: int): (r: Result<NodeId>)
    ensures r.Ok? <==> 0 <= i < |At(f, n).children|
    ensures r.Ok? ==> r.value == At(f, n).children[i] && IndexOf(At(f, n).children, r.value) <= i
    ensures r.Err? ==> r.message == Message(OutOfBounds)
  {
    if 0 <= i < |At(f, n).children| then Ok(At(f, n).children[i]) else Err(Message(OutOfBounds))
  }

  /** `getChildCount()`. */
  function GetChildCount(f: Forest, n: NodeId): (r: nat)
    ensures r == |At(f, n).children|
  {
    |At(f, n).children|
  }

  /** `isLeaf()`. */
  function IsLeaf(f: Forest, n: NodeId): (r: bool)
    ensures r <==> GetChildCount(f, n) == 0
    ensures r <==> forall i :: GetChildAt(f, n, i).Err?
  {
    assert |At(f, n).children| > 0 ==> GetChildAt(f, n, 0).Ok?;
    |At(f, n).children| == 0
  }

  /** `getIndex(node)`: `indexOf`, so -1 for a node that is not a child. */
  function GetIndex(f: Forest, n: NodeId, node: NodeId): (r: int)
    ensures r == -1 <==> node !in At(f, n).children
    ensures r >= 0 ==> GetChildAt(f, n, r) == Ok(node)
    ensures r >= 0 ==> forall j :: 0 <= j < r ==> GetChildAt(f, n, j) != Ok(node)
  {
    IndexOf(At(f, n).children, node)
  }

  /** `getAllowsChildren()`: this implementation never refuses children. */
  function GetAllowsChildren(f: Forest, n: NodeId): (r: bool)
    ensures r
  {
    true
  }

  /** `children()`: an enumeration over the vector, in order. */
  function Children(f: Forest, n: NodeId): (r: seq<NodeId>)
    ensures |r| == GetChildCount(f, n)
    ensures forall i :: 0 <= i < |r| ==> GetChildAt(f, n, i) == Ok(r[i])
  {
    At(f, n).children
  }

  /** `setUserObject(object)`: has no effect. */
  function SetUserObject(f: Forest, n: NodeId, userObject: nat): (g: Forest)
    ensures forall m :: At(g, m) == At(f, m)
  {
    f
  }

  // ---------------------------------------------------------------------------------------
  // The finding: `insert` ignores its index for a node that is not yet a child
  // ---------------------------------------------------------------------------------------

  /** As written, inserting a node that has no parent at index 1 of a node with one child
      puts it first, because `setParent` moves it back to index 0; corrected, it stays at
      index 1. */
  lemma InsertIgnoresIndexAsWritten(f: Forest, p: NodeId, a: NodeId, c: NodeId)
    requires At(f, p).children == [a]
    requires c != p && c != a && At(f, c).parent.None?
    ensures Insert(f, p, c, 1, AsWritten).status.Returned?
    ensures At(Insert(f, p, c, 1, AsWritten).forest, p).children == [c, a]
    ensures At(Insert(f, p, c, 1, Corrected).forest, p).children == [a, c]
  {
    assert RemoveFirst([a], c) == [a];
    var ins := InsertAt([a], 1, c);
    assert ins == [a, c];
    assert RemoveFirst(ins, c) == [a] by {
      assert IndexOf(ins, c) == 1;
    }
    InsertIsInserted(f, p, c, 1, AsWritten);
    InsertedAtFront(f, p, c, 1);
    InsertIsInserted(f, p, c, 1, Corrected);
    InsertedAtIndex(f, p, c, 1, Corrected);
  }

  /** Corrected, `insert(c, i)` always leaves `c` at index `i`. */
  lemma InsertHonoursIndex(f: Forest, p: NodeId, c: NodeId, i: int)
    requires Insert(f, p, c, i, Corrected).status.Returned?
    ensures var r := Insert(f, p, c, i, Corrected).forest;
            && 0 <= i < |At(r, p).children|
            && At(r, p).children[i] == c
            && At(r, c).parent == Some(p)
  {
    InsertPlacement(f, p, c, i, Corrected);
    InsertLinks(f, p, c, i, Corrected);
  }

  /** The two protocols agree whenever the inserted node is already a child of the node. */
  lemma ProtocolsAgreeOnExistingChild(f: Forest, p: NodeId, c: NodeId, i: int)
    requires At(f, c).parent == Some(p)
    ensures Insert(f, p, c, i, AsWritten) == Insert(f, p, c, i, Corrected)
  {
  }

  /** `insert` leaves exactly one occurrence of a child that was listed at most once. */
  lemma {:induction false} InsertKeepsOneOccurrence(f: Forest, p: NodeId, c: NodeId, i: int, proto: Protocol)
    requires multiset(At(f, p).children)[c] <= 1
    requires Insert(f, p, c, i, proto).status.Returned?
    ensures multiset(At(Insert(f, p, c, i, proto).forest, p).children)[c] == 1
  {
    InsertKeepsOtherChildren(f, p, c, i, proto);
    RemoveFirstCount(At(f, p).children, c);
  }

  // ---------------------------------------------------------------------------------------
  // Employee.create(name, reports...)
  // ---------------------------------------------------------------------------------------

  /** The loop of `Employee.create`: each direct report in turn is given the new employee as
      its parent; the first exception ends the loop. */
  function AttachReports(f: Forest, e: NodeId, reports: seq<NodeId>, proto: Protocol): (r: Outcome)
    ensures e !in reports ==> r.status.Returned?
    ensures proto == AsWritten && r.status.Threw? ==> r.status == Threw(SelfChild)
    decreases |reports|
  {
    if |reports| == 0 then Outcome(f, Returned)
    else
      var o := SetParent(f, reports[0], e, proto);
      if o.status.Threw? then o
      else AttachReports(o.forest, e, reports[1..], proto)
  }

  function Reverse(xs: seq<NodeId>): seq<NodeId> {
    if |xs| == 0 then [] else Reverse(xs[1..]) + [xs[0]]
  }

  /** Distinct reports, none of them the employee, without a parent, and not yet listed by the
      employee: the situation of `Employee.create`, whose reports are new objects. */
  predicate FreshReports(f: Forest, e: NodeId, reports: seq<NodeId>) {
    && e !in reports
    && (forall i, j :: 0 <= i < j < |reports| ==> reports[i] != reports[j])
    && (forall i :: 0 <= i < |reports| ==> At(f, reports[i]).parent.None?)
    && (forall i :: 0 <= i < |reports| ==> reports[i] !in At(f, e).children)
  }

  /** Attaching the first fresh report leaves the others fresh. */
  lemma FreshAfterStep(f: Forest, e: NodeId, reports: seq<NodeId>, proto: Protocol)
    requires FreshReports(f, e, reports) && |reports| > 0
    ensures SetParent(f, reports[0], e, proto).status.Returned?
    ensures AttachReports(f, e, reports, proto) == AttachReports(SetParent(f, reports[0], e, proto).forest, e, reports[1..], proto)
    ensures FreshReports(SetParent(f, reports[0], e, proto).forest, e, reports[1..])
    ensures At(SetParent(f, reports[0], e, proto).forest, e).children == [reports[0]] + At(f, e).children
  {
    var c := reports[0];
    var rest := reports[1..];
    AttachStep(f, e, c, proto);
    var o := SetParent(f, c, e, proto).forest;
    forall i | 0 <= i < |rest|
      ensures At(o, rest[i]).parent.None?
      ensures rest[i] !in At(o, e).children
    {
      assert rest[i] == reports[i + 1];
    }
  }

  /** Fresh reports attached to a new employee become its children in reverse order. */
  lemma {:induction false} AttachReportsReverses(f: Forest, e: NodeId, reports: seq<NodeId>, proto: Protocol)
    requires FreshReports(f, e, reports)
    ensures At(AttachReports(f, e, reports, proto).forest, e).children == Reverse(reports) + At(f, e).children
    decreases |reports|
  {
    if |reports| > 0 {
      FreshAfterStep(f, e, reports, proto);
      var o := SetParent(f, reports[0], e, proto).forest;
      AttachReportsReverses(o, e, reports[1..], proto);
      ReverseStep(reports, At(f, e).children);
    }
  }

  lemma ReverseStep(reports: seq<NodeId>, t: seq<NodeId>)
    requires |reports| > 0
    ensures Reverse(reports[1..]) + ([reports[0]] + t) == Reverse(reports) + t
  {
  }

  /** Fresh reports attached to a new employee all have the employee as parent. */
  lemma {:induction false} AttachReportsSetsParents(f: Forest, e: NodeId, reports: seq<NodeId>, proto: Protocol)
    requires FreshReports(f, e, reports)
    ensures forall i :: 0 <= i < |reports| ==> At(AttachReports(f, e, reports, proto).forest, reports[i]).parent == Some(e)
    decreases |reports|
  {
    if |reports| > 0 {
      var c := reports[0];
      var rest := reports[1..];
      FreshAfterStep(f, e, reports, proto);
      AttachStep(f, e, c, proto);
      var o := SetParent(f, c, e, proto).forest;
      AttachReportsSetsParents(o, e, rest, proto);
      AttachKeepsParent(o, e, rest, proto, c);
      forall i | 0 <= i < |reports|
        ensures At(AttachReports(f, e, reports, proto).forest, reports[i]).parent == Some(e)
      {
        if i > 0 {
          assert reports[i] == rest[i - 1];
        }
      }
    }
  }

  /** One step of the loop on a report with no parent that the employee does not list yet:
      the report becomes the first child and no other parent changes. */
  lemma AttachStep(f: Forest, e: NodeId, c: NodeId, proto: Protocol)
    requires c != e && At(f, c).parent.None? && c !in At(f, e).children
    ensures SetParent(f, c, e, proto).status.Returned?
    ensures At(SetParent(f, c, e, proto).forest, e).children == [c] + At(f, e).children
    ensures At(SetParent(f, c, e, proto).forest, c).parent == Some(e)
    ensures forall n :: n != c ==> At(SetParent(f, c, e, proto).forest, n).parent == At(f, n).parent
  {
    SetParentRelinks(f, c, e, proto);
    RelinkedLinks(f, c, e, proto);
    RelinkedChildren(f, c, e, proto);
    var g := SetParent(f, c, e, proto).forest;
    forall n | n != c
      ensures At(g, n).parent == At(f, n).parent
    {
      RelinkedFrame(f, c, e, proto, n);
    }
  }

  /** Attaching other reports does not change the parent of a node outside them. */
  lemma {:induction false} AttachKeepsParent(f: Forest, e: NodeId, reports: seq<NodeId>, proto: Protocol, n: NodeId)
    requires n !in reports && n != e
    ensures At(AttachReports(f, e, reports, proto).forest, n).parent == At(f, n).parent
    decreases |reports|
  {
    if |reports| > 0 {
      var o := SetParent(f, reports[0], e, proto);
      if o.status.Returned? {
        if reports[0] != e && At(f, reports[0]).parent != Some(e) {
          SetParentRelinks(f, reports[0], e, proto);
          RelinkedFrame(f, reports[0], e, proto, n);
        }
        AttachKeepsParent(o.forest, e, reports[1..], proto, n);
      }
    }
  }
}

=== FILE: utils.dfy ===
/** `MixinUtils`: constructor lookup by arity, base-class validation and the `MixinAware`
    back-reference protocol. */
module MixinUtils {
  import opened Results
  import opened Text
  import opened Classes
  import opened Objects

  /** How many of `ctors` take exactly `length` parameters. */
  function CountWithArity(ctors: seq<ConstructorSig>, length: int): nat {
    if |ctors| == 0 then 0
    else CountWithArity(ctors[..|ctors| - 1], length) + (if |ctors[|ctors| - 1].params| == length then 1 else 0)
  }

  lemma {:induction false} CountWithArityPrefix(ctors: seq<ConstructorSig>, i: nat, length: int)
    requires i <= |ctors|
    ensures CountWithArity(ctors[..i], length) <= CountWithArity(ctors, length)
    decreases |ctors| - i
  {
    if i < |ctors| {
      CountWithArityPrefix(ctors, i + 1, length);
      assert ctors[..i + 1][..i] == ctors[..i];
    } else {
      assert ctors[..i] == ctors;
    }
  }

  /** A constructor of the given arity is counted. */
  lemma {:induction false} CountWithArityPositive(ctors: seq<ConstructorSig>, length: int, i: int)
    requires 0 <= i < |ctors| && |ctors[i].params| == length
    ensures CountWithArity(ctors, length) >= 1
    decreases |ctors|
  {
    var n := |ctors| - 1;
    if i < n {
      assert ctors[..n][i] == ctors[i];
      CountWithArityPositive(ctors[..n], length, i);
    }
  }

  /** Two constructors of the given arity are both counted, so a count of one means the
      constructor of that arity is unique. */
  lemma {:induction false} CountWithArityTwo(ctors: seq<ConstructorSig>, length: int, i: int, j: int)
    requires 0 <= i < j < |ctors| && |ctors[i].params| == length && |ctors[j].params| == length
    ensures CountWithArity(ctors, length) >= 2
    decreases |ctors|
  {
    var n := |ctors| - 1;
    assert ctors[..n][i] == ctors[i];
    if j == n {
      CountWithArityPositive(ctors[..n], length, i);
    } else {
      assert ctors[..n][j] == ctors[j];
      CountWithArityTwo(ctors[..n], length, i, j);
    }
  }

  function AmbiguousMessage(klass: ClassName, length: int): string {
    "Class " + klass + " has more then one constructor with " + IntToString(length) + " parameters"
  }

  function MissingMessage(klass: ClassName, length: int): string {
    "Class " + klass + " has no constructors with exactly " + IntToString(length) + " parameters"
  }

  /** `getConstructorArgTypes(klass, length)`: the parameter types of the one declared
      constructor (private or not) that takes `length` parameters. */
  method GetConstructorArgTypes(ct: ClassTable, klass: ClassName, length: int) returns (r: Result<seq<ClassName>>)
    ensures r.Ok? <==> CountWithArity(Get(ct, klass).constructors, length) == 1
    ensures r.Ok? ==>
              && |r.value| == length
              && exists i :: 0 <= i < |Get(ct, klass).constructors| && Get(ct, klass).constructors[i].params == r.value
    ensures CountWithArity(Get(ct, klass).constructors, length) == 0 ==> r == Err(MissingMessage(klass, length))
    ensures CountWithArity(Get(ct, klass).constructors, length) >= 2 ==> r == Err(AmbiguousMessage(klass, length))
  {
    var ctors := Get(ct, klass).constructors;
    var target: Option<seq<ClassName>> := None;
    var i := 0;
    while i < |ctors|
      invariant 0 <= i <= |ctors|
      invariant target.None? <==> CountWithArity(ctors[..i], length) == 0
      invariant target.Some? ==>
                  && CountWithArity(ctors[..i], length) == 1
                  && |target.value| == length
                  && exists j :: 0 <= j < i && ctors[j].params == target.value
    {
      assert ctors[..i + 1][..i] == ctors[..i];
      if |ctors[i].params| == length {
        if target.Some? {
          CountWithArityPrefix(ctors, i + 1, length);
          return Err(AmbiguousMessage(klass, length));
        }
        target := Some(ctors[i].params);
      }
      i := i + 1;
    }
    assert ctors[..i] == ctors;
    if target.Some? {
      return Ok(target.value);
    }
    return Err(MissingMessage(klass, length));
  }

  /** `validateMixinBase`: a mixin base must be a class, abstract and not final; the checks run
      in that order and the first violated one is reported. */
  function ValidateMixinBase(ct: ClassTable, c: ClassName): (r: Result<()>)
    ensures r.Ok? <==> !Get(ct, c).isInterface && Get(ct, c).isAbstract && !Get(ct, c).isFinal
    ensures Get(ct, c).isInterface ==>
              r == Err("Can't apply mixins to an interface '" + c + "' - a class is required.")
    ensures !Get(ct, c).isInterface && !Get(ct, c).isAbstract ==>
              r == Err("Can't apply mixins to non-abstract base class '" + c + "'.")
    ensures !Get(ct, c).isInterface && Get(ct, c).isAbstract && Get(ct, c).isFinal ==>
              r == Err("Can't apply mixins to final base class '" + c + "'.")
  {
    var info := Get(ct, c);
    if info.isInterface then Err("Can't apply mixins to an interface '" + c + "' - a class is required.")
    else if !info.isAbstract then Err("Can't apply mixins to non-abstract base class '" + c + "'.")
    else if info.isFinal then Err("Can't apply mixins to final base class '" + c + "'.")
    else Ok(())
  }

  /** `classAssignableToType`: the constraint check is not implemented in the source and
      accepts every object and every type. */
  function ClassAssignableToType(obj: ObjectId, target: TypeArg): (r: bool)
    ensures r
  {
    true
  }

  /** Every parameterized `MixinAware<...>` reference among `refs` carries a type argument
      (always the case for types the Java compiler produces). */
  predicate AwareConstraintsPresent(refs: seq<InterfaceRef>) {
    forall i :: 0 <= i < |refs| && refs[i].ParameterizedInterface? && refs[i].name == MixinAwareInterface ==>
      |refs[i].args| >= 1
  }

  /** What reading the first type argument of a parameterized `MixinAware` reference with no
      type argument throws. Raw references are skipped, and compiled Java never produces a
      parameterized reference without arguments, so only a class table can reach it. */
  const MissingTypeArgError := "java.lang.ArrayIndexOutOfBoundsException: 0"

  /** The loop over the implementation's generic interfaces that checks the `MixinAware<B>`
      constraint `B` against the new mixed object. Since the constraint check accepts
      everything, the only failure left is a parameterized `MixinAware` reference with no type
      argument; raw references are skipped. */
  function CheckAwareConstraints(ct: ClassTable, refs: seq<InterfaceRef>, impl: ClassName, base: ClassName, newMixedObject: ObjectId): (r: Result<()>)
    ensures r.Ok? <==> AwareConstraintsPresent(refs)
    ensures r.Err? ==> r.message == MissingTypeArgError
  {
    if |refs| == 0 then Ok(())
    else
      var head := refs[0];
      if head.ParameterizedInterface? && head.name == MixinAwareInterface then
        if |head.args| == 0 then Err(MissingTypeArgError)
        else
          var t := head.args[0];
          if !ClassAssignableToType(newMixedObject, t) then
            Err("Mixin-aware implementation class " + impl + " can't be mixed with base class " + base
                + " because the base class does not match the type " + TypeString(ct, t))
          else
            CheckAwareConstraints(ct, refs[1..], impl, base, newMixedObject)
      else
        CheckAwareConstraints(ct, refs[1..], impl, base, newMixedObject)
  }

  /** Raw interface references are skipped, so an implementation whose references all carry
      their type arguments, as compiled Java's do, is always handed the new object. */
  lemma AwareWithArgumentsNeverFails(ct: ClassTable, d: Delegate, newMixedObject: ObjectId, base: ClassName)
    requires forall i :: 0 <= i < |Get(ct, d.impl).interfaces| && Get(ct, d.impl).interfaces[i].ParameterizedInterface? ==>
               |Get(ct, d.impl).interfaces[i].args| >= 1
    ensures HandleMixinAwareness(ct, d, newMixedObject, base).Ok?
  {
  }

  /** The implementation class opts in to back-reference injection. */
  predicate IsMixinAware(ct: ClassTable, impl: ClassName) {
    IsAssignableFrom(ct, MixinAwareInterface, impl)
  }

  /** `handleMixinAwareness(implementation, newMixedObject, mixinBase)`: a delegate that is not
      `MixinAware` is left alone; otherwise it receives `setMixinBase(newMixedObject)` once. */
  function HandleMixinAwareness(ct: ClassTable, d: Delegate, newMixedObject: ObjectId, base: ClassName): (r: Result<Delegate>)
    ensures !IsMixinAware(ct, d.impl) ==> r == Ok(d)
    ensures IsMixinAware(ct, d.impl) && AwareConstraintsPresent(Get(ct, d.impl).interfaces) ==>
              r == Ok(d.(mixinBaseCalls := d.mixinBaseCalls + [newMixedObject]))
    ensures r.Ok? ==> r.value.id == d.id && r.value.impl == d.impl
    ensures r.Err? ==> IsMixinAware(ct, d.impl) && r.message == MissingTypeArgError
  {
    if !IsMixinAware(ct, d.impl) then Ok(d)
    else
      var _ :- CheckAwareConstraints(ct, Get(ct, d.impl).interfaces, d.impl, base, newMixedObject);
      Ok(d.(mixinBaseCalls := d.mixinBaseCalls + [newMixedObject]))
  }
}

=== FILE: xml_dump.dfy ===
/** `DumpIteratorToXml`: the `MixinAware` implementation of the XML dump mixin. It is handed its
    base through `setMixinBase` and `getXml` drains the base, as an iterator, into an XML
    document. The base of the demo is a `RandomNumberSequence`; the states of such objects are
    kept in a table by identity, so the dump and the sequence share the object as in the
    source. */
module XmlDump {
  import opened Results
  import opened Text
  import opened Objects
  import opened Countdown

  /** The iterators alive, by identity. */
  type Iterators = map<ObjectId, Sequence>

  /** An instance of `DumpIteratorToXml`: the base it was given, if any. */
  datatype Dumper = Dumper(mixinBase: Option<ObjectId>)

  /** `setMixinBase(mixinBase)`: the base is stored for `getXml` to read. */
  function SetMixinBase(d: Dumper, base: ObjectId): (r: Dumper)
    ensures r.mixinBase == Some(base)
  {
    d.(mixinBase := Some(base))
  }

  const Header := "<items>\n"
  const Footer := "</items>"
  const NullPointer := "java.lang.NullPointerException"

  /** The line for one element: `"\t<item value=\"" + v + "\">\n"`. */
  function ItemLine(v: int): string {
    "\t<item value=\"" + IntToString(v) + "\">\n"
  }

  /** The lines for the elements, in order. */
  function ItemLines(vs: seq<int>): string {
    if |vs| == 0 then "" else ItemLines(vs[..|vs| - 1]) + ItemLine(vs[|vs| - 1])
  }

  /** The document for the elements an iterator yields. */
  function Document(vs: seq<int>): string {
    Header + ItemLines(vs) + Footer
  }

  /** The elements a sequence yields until exhausted, the i-th drawing `random(i)`. */
  function Drained(s: Sequence, random: nat -> int): (vs: seq<int>)
    ensures |vs| == if s.remaining > 0 then s.remaining else 0
    ensures forall i :: 0 <= i < |vs| ==> vs[i] == random(i)
  {
    seq(if s.remaining > 0 then s.remaining else 0, i requires i >= 0 => random(i))
  }

  /** The result of `getXml`: the iterators afterwards, and the document or the exception. */
  datatype Dump = Dump(iterators: Iterators, xml: Result<string>)

  /** `getXml()`: an unset base (or one that is not a live iterator) throws; otherwise the header,
      one line per element while `hasNext()` holds, then the footer. The base is left
      exhausted. */
  method GetXml(d: Dumper, its: Iterators, random: nat -> int) returns (r: Dump)
    ensures d.mixinBase.None? || d.mixinBase.value !in its ==> r == Dump(its, Err(NullPointer))
    ensures d.mixinBase.Some? && d.mixinBase.value in its ==>
              var s := its[d.mixinBase.value];
              && r.xml == Ok(Document(Drained(s, random)))
              && r.iterators == its[d.mixinBase.value := s.(remaining := if s.remaining > 0 then 0 else s.remaining)]
              && !HasNext(r.iterators[d.mixinBase.value])
  {
    if d.mixinBase.None? || d.mixinBase.value !in its {
      return Dump(its, Err(NullPointer));
    }
    var id := d.mixinBase.value;
    var s0 := its[id];
    var s := s0;
    var sb := Header;
    var k: nat := 0;
    ghost var vs := Drained(s0, random);
    while HasNext(s)
      invariant k <= |vs|
      invariant s == s0.(remaining := s0.remaining - k)
      invariant HasNext(s) ==> k < |vs|
      invariant sb == Header + ItemLines(vs[..k])
      decreases s.remaining
    {
      var step := Next(s, random(k));
      var v := step.value.value;
      assert v == vs[k];
      ItemLinesStep(vs, k);
      var line := ItemLine(v);
      ghost var before := ItemLines(vs[..k]);
      Associative(Header, before, line);
      sb := sb + line;
      s := step.state;
      k := k + 1;
    }
    assert vs[..k] == vs;
    sb := sb + Footer;
    return Dump(its[id := s], Ok(sb));
  }

  lemma Associative(a: string, b: string, c: string)
    ensures (a + b) + c == a + (b + c)
  {
  }

  /** One more element adds its line at the end. */
  lemma ItemLinesStep(vs: seq<int>, k: nat)
    requires k < |vs|
    ensures ItemLines(vs[..k + 1]) == ItemLines(vs[..k]) + ItemLine(vs[k])
  {
    assert vs[..k + 1][..k] == vs[..k];
  }

  /** The document starts with the header, ends with the footer, and holds one line per element:
      the header's, then one per element, the footer having no line break. */
  lemma DocumentShape(vs: seq<int>)
    ensures |Document(vs)| >= |Header| + |Footer|
    ensures Document(vs)[..|Header|] == Header
    ensures Document(vs)[|Document(vs)| - |Footer|..] == Footer
    ensures Breaks(Document(vs)) == |vs| + 1
  {
    var body := ItemLines(vs);
    assert Document(vs) == Header + (body + Footer);
    assert (Header + (body + Footer))[..|Header|] == Header;
    assert Document(vs)[|Document(vs)| - |Footer|..] == Footer;
    DocumentBreaks(vs);
  }

  lemma DocumentBreaks(vs: seq<int>)
    ensures Breaks(Document(vs)) == |vs| + 1
  {
    var body := ItemLines(vs);
    var front := Header + body;
    HeaderBreaks();
    ItemLinesBreaks(vs);
    BreaksAppend(Header, body);
    assert Breaks(front) == |vs| + 1;
    FooterBreaks();
    BreaksAppend(front, Footer);
  }

  lemma FooterBreaks()
    ensures Breaks(Footer) == 0
  {
    NoBreakCounted(Footer);
  }

  lemma HeaderBreaks()
    ensures Breaks(Header) == 1
  {
    assert Header == "<items>" + "\n";
    BreaksAppend("<items>", "\n");
    NoBreakCounted("<items>");
  }

  /** The number of line breaks in a string. */
  function Breaks(s: string): nat {
    if |s| == 0 then 0 else Breaks(s[..|s| - 1]) + (if s[|s| - 1] == '\n' then 1 else 0)
  }

  lemma {:induction false} BreaksAppend(a: string, b: string)
    ensures Breaks(a + b) == Breaks(a) + Breaks(b)
    decreases |b|
  {
    if |b| > 0 {
      assert (a + b)[..|a + b| - 1] == a + b[..|b| - 1];
      BreaksAppend(a, b[..|b| - 1]);
    } else {
      assert a + b == a;
    }
  }

  /** Each element contributes exactly one line. */
  lemma {:induction false} ItemLinesBreaks(vs: seq<int>)
    ensures Breaks(ItemLines(vs)) == |vs|
  {
    if |vs| > 0 {
      ItemLinesBreaks(vs[..|vs| - 1]);
      BreaksAppend(ItemLines(vs[..|vs| - 1]), ItemLine(vs[|vs| - 1]));
      ItemLineBreaks(vs[|vs| - 1]);
    }
  }

  lemma ItemLineBreaks(v: int)
    ensures Breaks(ItemLine(v)) == 1
  {
    var open := "\t<item value=\"";
    var close := "\">\n";
    BreaksAppend(open + IntToString(v), close);
    BreaksAppend(open, IntToString(v));
    DigitsHaveNoBreak(v);
    NoBreakCounted(open);
    assert Breaks(close) == 1 by {
      assert close == "\">" + "\n";
      BreaksAppend("\">", "\n");
      NoBreakCounted("\">");
    }
  }

  lemma DigitsHaveNoBreak(v: int)
    ensures Breaks(IntToString(v)) == 0
  {
    var s := IntToString(v);
    NoBreakCounted(s);
  }

  /** A string of digits and signs holds no line break. */
  lemma {:induction false} NoBreakCounted(s: string)
    requires forall i :: 0 <= i < |s| ==> s[i] != '\n'
    ensures Breaks(s) == 0
  {
    if |s| > 0 {
      NoBreakCounted(s[..|s| - 1]);
    }
  }

  /** A `getXml` on an exhausted base, such as a second one on the same base, returns the empty
      document. */
  lemma ExhaustedDumpIsEmpty(s: Sequence, random: nat -> int)
    requires !HasNext(s)
    ensures Document(Drained(s, random)) == "<items>\n</items>"
  {
  }
}
